=== FILE: README.md ===
# ai_refactor, modelled in Dafny

ai_refactor is a command line tool that asks an AI model (OpenAI or
Anthropic) to rewrite Ruby files. It converts RSpec specs to Minitest
tests, writes a test for a class, writes RBS signatures, writes a
changelog from the git history, and more. Each conversion is a *refactor*.

A refactor:
- builds a prompt from a template and the input file;
- asks the AI for the output, continuing the conversation while the reply
  is cut short by the token limit;
- strips code fences;
- decides where the output goes, from an output path, a path template or
  a default;
- asks before overwriting;
- writes the file;
- for conversions, runs the original spec and the generated test, and
  compares their example, failure and pending counts.

The command line driver runs a refactor over every input file (glob
patterns are expanded) and reports which files failed. A run
configuration holds the options, and YAML command files supply them.

This project models that core and proves what it promises. Each module
is one file:

| module | models |
|---|---|
| `Wrappers` | `Option` and `Result` |
| `Text` | the String operations used: literal `gsub`, `split`, `join`, `tr`, `downcase`, `to_s`/`to_i` |
| `RubyFile` | `File.basename`, `dirname`, `extname`, `join` |
| `TemplatedPath` | output path templates with `[FILE]`, `[NAME]`, `[DIR]`, `[REFACTOR]`, `[EXT]` placeholders and `|OLD|NEW` modifiers |
| `Context` | the extra context built from context files |
| `Chat`, `AIClient` | chat messages, provider responses, and the client for the two platforms |
| `Prompt` | the system and user prompts |
| `FileProcessor` | the generation loop with its continuations and attempt limit |
| `Refactors` | the newer refactor base class: output paths, overwriting, `process!`, fences |
| `LegacyRefactor` | the older refactor base class |
| `Naming`, `Generic` | refactor names and prompt file paths |
| `Patterns`, `TestRunResult`, `TestRunners`, `TestRunDiffReport` | reading test runner output and comparing two runs |
| `Files`, `Runs` | the file system and the shell as seen by the refactors |
| `Conversions`, `Writers` | the refactors' `run` methods |
| `RunConfiguration`, `CommandFileParser`, `Cli` | options, command files, and the batch driver |

The world outside is passed in as parameters:
- the file system is a map from path to contents, or a `FileSystem`
  object whose map the refactors update;
- the AI backend is a function from request to response;
- a shell is a function from a command line and the current files to
  what the command prints and how it exits;
- glob expansion, YAML loading, the user's answer at a prompt and the
  installed gems' directories are parameters too.

Where the code keeps state in objects, the model does the same: classes
with fields, `modifies` clauses, loops and invariants. Each such method
is proved against a function that specifies it, and the properties are
proved about that function.

## Model

| member | source | states |
|---|---|---|
| TemplatedPath.New | lib/ai_refactor/templated_path.rb:3-8 | construction succeeds exactly for a non-empty template, which is kept with the input file |
| TemplatedPath.Generate | lib/ai_refactor/templated_path.rb:10-26 | the loop of `gsub!` calls over the scanned placeholders computes `PathFromTemplate`: each token is replaced by its value, with any modifier applied |
| TemplatedPath.PathFromTemplate | lib/ai_refactor/templated_path.rb:16-26 | no contract of its own: every scanned placeholder replaced in turn; stated by `TemplatedPath.Generate` and `TemplatedPath.TemplateResolves` |
| TemplatedPath.KindAt | lib/ai_refactor/templated_path.rb:18 | a kind is recognised only where its name is spelled out |
| TemplatedPath.KindAtName | lib/ai_refactor/templated_path.rb:18 | each of FILE, NAME, DIR, REFACTOR, EXT is read back as itself, whatever follows it |
| TemplatedPath.ModifierAt | lib/ai_refactor/templated_path.rb:18 | a `|OLD|NEW]` modifier is read only where its text lies in the template |
| TemplatedPath.ModifierAtTail | lib/ai_refactor/templated_path.rb:18 | a modifier with a non-empty `|`-free OLD and a `]`-free NEW is read back as itself |
| TemplatedPath.MatchAt | lib/ai_refactor/templated_path.rb:18 | a placeholder matched at the start of a text is spelled there as its token |
| TemplatedPath.MatchToken | lib/ai_refactor/templated_path.rb:18 | every well-formed placeholder token is matched as exactly that placeholder (the pattern reads back what a token writes) |
| TemplatedPath.EmptyOldIsNotAPlaceholder | lib/ai_refactor/templated_path.rb:18 | `[KIND||NEW]` with an empty OLD does not match the pattern |
| TemplatedPath.ScanPlain | lib/ai_refactor/templated_path.rb:18 | text without `[` holds no placeholder, so scanning skips it |
| TemplatedPath.PlainTemplateUnchanged | lib/ai_refactor/templated_path.rb:16-26 | a template without `[` is generated unchanged |
| TemplatedPath.ScanRender | lib/ai_refactor/templated_path.rb:18 | scanning a template laid out as literals and placeholders finds exactly its placeholders, in order |
| TemplatedPath.ApplyOne | lib/ai_refactor/templated_path.rb:23 | one `gsub!` of a token replaces exactly the placeholders equal to it and nothing else |
| TemplatedPath.ApplyAllRender | lib/ai_refactor/templated_path.rb:18-24 | the sequence of `gsub!` calls resolves each placeholder it is given, in the rendered template |
| TemplatedPath.RenderAllDone | lib/ai_refactor/templated_path.rb:18-25 | once every placeholder is resolved, the path is the template with each placeholder replaced by its value |
| TemplatedPath.SlotsParsable | lib/ai_refactor/templated_path.rb:18 | the placeholders of a well-formed layout are all readable by the pattern |
| TemplatedPath.TemplateResolves | lib/ai_refactor/templated_path.rb:16-26 | a well-formed template generates the template's text with every placeholder replaced by its (modified) value |
| TemplatedPath.ValueParts | lib/ai_refactor/templated_path.rb:28-46 | NAME followed by EXT is FILE; FILE has no `/`; DIR, `/` and FILE rebuild a path below a directory; REFACTOR is the refactor name |
| TemplatedPath.TwoPlaceholders | lib/ai_refactor/templated_path.rb:16-26 | `A[P]B[Q]` generates A, P's value, B, Q's value |
| TemplatedPath.ThreePlaceholders | lib/ai_refactor/templated_path.rb:16-26 | `A[P]B[Q]C[R]` generates each placeholder's value in place |
| TemplatedPath.PlainPlaceholdersExample | test/lib/ai_refactor/templated_path_test.rb:20-23 | `path/to/[DIR]/[FILE]/[REFACTOR]` for an input `DIR/FILE` gives `path/to/DIR/FILE/REFACTOR` |
| TemplatedPath.ModifiedValue | lib/ai_refactor/templated_path.rb:22 | a modifier turns the OLD at the end of a value into NEW |
| TemplatedPath.ModifierExample | test/lib/ai_refactor/templated_path_test.rb:25-30 | `path/to/[DIR|r|-r]/[FILE|.ext|.txt]/[REFACTOR]` for an input `…r/NAME.ext` gives `path/to/…-r/NAME.txt/REFACTOR` |
| TemplatedPath.SlashInReplacementExample | test/lib/ai_refactor/templated_path_test.rb:32-37 | `path/to/[DIR|dir|app/new]-[NAME]` for `dir/NAME.EXT` (NAME not only dots) gives `path/to/app/new-NAME`: NEW may hold `/` |
| TemplatedPath.EmptyOldStaysExample | lib/ai_refactor/templated_path.rb:18-25 | a `[KIND||NEW]` is not replaced and stays in the path as written |
| Text.ReplaceAllAbsent | lib/ai_refactor/prompt.rb:66 | `gsub` with nothing to replace returns its receiver unchanged |
| Text.ReplaceAllIdentity | lib/ai_refactor/prompt.rb:66 | replacing a text by itself changes nothing |
| Text.ReplaceAllAvoids | lib/ai_refactor/templated_path.rb:22-23 | a character found in neither the receiver nor the replacement is not in the result |
| Text.ReplaceAll | lib/ai_refactor/prompt.rb:65-67 | no contract of its own: literal `gsub`, every non-overlapping occurrence from the left; stated by the `Text.ReplaceAll…` lemmas |
| Text.ReplaceTrailing | lib/ai_refactor/templated_path.rb:22 | a single occurrence at the end is replaced there |
| Text.SplitOfJoin | lib/ai_refactor/refactors/project/write_changelog_from_history.rb:19 | `split` gives back the joined lines when no line holds the separator and the last one is not empty |
| Text.Split | lib/ai_refactor/refactors/project/write_changelog_from_history.rb:19 | no contract of its own: `split` with trailing empty fields dropped; stated by `Text.SplitOfJoin` |
| Text.Join | lib/ai_refactor/context.rb:12 | no contract of its own: `join` with a separator between parts; stated by `Text.SplitOfJoin` and `Context.PrepareContextAppend` |
| Text.Tr | lib/ai_refactor/refactors/base_refactor.rb:196 | the length is kept; each `from` character becomes `to`, and every other character stays |
| Text.Lower | lib/ai_refactor/refactors/base_refactor.rb:197 | the length is kept, and each character is lowercased |
| Text.NatToString | lib/ai_refactor/test_runners/test_run_result.rb:20 | a printed number is a non-empty run of digits |
| Text.DigitsValueOfNatToString | lib/ai_refactor/test_runners/test_run_result.rb:20 | reading the digits of a printed number gives the number back |
| Text.ToIOfNatToString | lib/ai_refactor/test_runners/test_run_result.rb:20 | `to_i` on a printed number followed by a non-digit gives the number |
| Text.ToI | lib/ai_refactor/test_runners/test_run_result.rb:20 | no contract of its own: the leading digits' value, 0 without any; stated by `Text.ToIOfNatToString` |
| RubyFile.LastIndexOf | lib/ai_refactor/templated_path.rb:29 | the index found holds the character, and no later index does |
| RubyFile.Basename | lib/ai_refactor/templated_path.rb:28-30 | the basename has no `/` and ends the path (for paths without a trailing `/`; see "## Left out") |
| RubyFile.Extname | lib/ai_refactor/templated_path.rb:44-46 | the extension is empty or starts with `.`, has no other `.`, and ends the basename; a non-empty one follows a character other than `.`; an empty one means every `.` of the basename is among its leading dots |
| RubyFile.BasenameSplits | lib/ai_refactor/templated_path.rb:32-34 | the name without extension followed by the extension is the basename |
| RubyFile.DirnameBasename | lib/ai_refactor/templated_path.rb:36-38 | a path below a directory is its dirname, `/` and basename |
| RubyFile.LastIndexOfAt | lib/ai_refactor/templated_path.rb:29 | the last `/` is found where it is, whatever precedes it |
| RubyFile.PathOf | lib/ai_refactor/templated_path.rb:28-38 | `dir/base` has basename `base` and dirname `dir` |
| RubyFile.ExtnameOfBasename | lib/ai_refactor/templated_path.rb:32-46 | `NAME.EXT`, with NAME not only dots and EXT a single `.` part, has extension EXT and name NAME |
| RubyFile.ExtnameOf | lib/ai_refactor/templated_path.rb:28-46 | `DIR/NAME.EXT`, with NAME not only dots, reads back as its parts |
| RubyFile.LeadingDotsNoExtname | lib/ai_refactor/templated_path.rb:32-46 | a basename of leading dots and a dot-free rest has no extension, and its name is the whole basename |
| RubyFile.DotDotRb | lib/ai_refactor/templated_path.rb:32-46 | `..rb` has extension "" and name `..rb` |
| RubyFile.Dirname | lib/ai_refactor/templated_path.rb:36-38 | no contract of its own: the part before the last `/`, "." without one and "/" for a root entry; stated by `RubyFile.DirnameBasename` and `RubyFile.PathOf` |
| RubyFile.BasenameWithoutExt | lib/ai_refactor/templated_path.rb:32-34 | no contract of its own: the basename less its extension; stated by `RubyFile.BasenameSplits`, `RubyFile.ExtnameOfBasename` and `RubyFile.LeadingDotsNoExtname` |
| RubyFile.Join | lib/ai_refactor/refactors/minitest/write_test_for_class.rb:46 | no contract of its own: two relative parts joined by `/`; stated through `Writers.TestPathOf` and `Writers.SignaturePathOf` |
| Context.ReadContexts | lib/ai_refactor/context.rb:17-27 | one block per file, in order, headed by the file's path, with the file's contents or "" when it is missing |
| Context.Warnings | lib/ai_refactor/context.rb:19-24 | no more warnings than files; every warning is for a missing file and every missing file is warned about; none when all files exist |
| Context.WarningsAppend | lib/ai_refactor/context.rb:18-26 | the warnings of two lists one after the other are those of the first, then those of the second (so they follow the files' order) |
| Context.WarningsOne | lib/ai_refactor/context.rb:19-24 | one file gives exactly one warning when missing and none when it exists |
| Context.WarningsAllMissing | test/lib/ai_refactor/context_test.rb:23-30 | with every file missing there is one warning per file, in the files' order |
| Context.PrepareContext | lib/ai_refactor/context.rb:10-13 | "" without a file list; otherwise the introduction and the blocks joined by newlines, with the warnings logged |
| Context.OneFile | lib/ai_refactor/context.rb:10-27 | one file gives the introduction and its block (empty contents when missing), with its warning when missing |
| Context.PrepareContextAppend | lib/ai_refactor/context.rb:10-27 | one more file adds a newline and its block at the end |
| Context.ReadContextsAppend | lib/ai_refactor/context.rb:17-27 | one more file adds its block at the end |
| Context.TwoFiles | test/lib/ai_refactor/context_test.rb:14-21 | two existing files give the introduction, the first block, a newline and the second block |
| Context.AllMissingKeepsBlocks | lib/ai_refactor/context.rb:10-27 | two missing files give the introduction and two empty blocks, not "" (see Findings) |
| Context.PrepareContextOmitting | test/lib/ai_refactor/context_test.rb:23-41 | the context the tests expect: missing files are left out (still warned about), and it is "" when none exists |
| Context.OmittingAllMissing | test/lib/ai_refactor/context_test.rb:23-30 | with every file missing, the context is "" and the warnings are one per file, in order |
| Context.OmittingAllPresent | lib/ai_refactor/context.rb:10-27 | with every file present, leaving missing files out changes nothing |
| Context.OmittingMixed | test/lib/ai_refactor/context_test.rb:32-41 | an existing file and then a missing one give only the first file's block, and one warning |
| Prompt.SystemPromptFooter | lib/ai_refactor/prompt.rb:37-47 | footer and diff instructions (footer first), one of them, or "", by the two settings |
| Prompt.SystemPrompt | lib/ai_refactor/prompt.rb:28-31 | no contract of its own: header then footer expansion; stated by `Prompt.SystemPromptWithoutMarkers`, `Prompt.HeaderBringsFooterMarker`, `Prompt.HeaderOnly` and `Prompt.FooterOnly` |
| Prompt.UserPrompt | lib/ai_refactor/prompt.rb:57-59 | no contract of its own: the content marker expanded to the file's contents; stated by `Prompt.UserPromptAround` |
| Prompt.ChatMessages | lib/ai_refactor/prompt.rb:19-24 | two messages: system with the expanded template, then user with the input around the file's contents |
| Prompt.ExpandAbsent | lib/ai_refactor/prompt.rb:65-67 | a text without the marker is unchanged |
| Prompt.ExpandBetween | lib/ai_refactor/prompt.rb:65-67 | a marker between marker-free texts is replaced in place, the texts kept |
| Prompt.SystemPromptWithoutMarkers | lib/ai_refactor/prompt.rb:28-31 | a template with neither marker is sent unchanged |
| Prompt.HeaderBringsFooterMarker | lib/ai_refactor/prompt.rb:28-31 | the header is put in first, so a footer marker inside the header is expanded too |
| Prompt.UserPromptAround | lib/ai_refactor/prompt.rb:57-59 | the user prompt is the input template around the file's contents |
| Prompt.HeaderOnly | lib/ai_refactor/prompt.rb:28-31 | one header marker becomes the header and nothing else is added |
| Prompt.FooterOnly | lib/ai_refactor/prompt.rb:28-47 | one footer marker becomes the chosen footer |
| Chat.FirstContent | lib/ai_refactor/ai_client.rb:71 | the first choice's content, or none without choices |
| Chat.FirstFinishReason | lib/ai_refactor/ai_client.rb:72 | the first choice's finish reason, or none without choices |
| AIClient.FirstSystemContent | lib/ai_refactor/ai_client.rb:32 | the content of the first system message (earlier messages are not system messages), none without one |
| AIClient.NonSystem | lib/ai_refactor/ai_client.rb:33 | the messages that are not system messages, in order |
| AIClient.NonSystemAppend | lib/ai_refactor/ai_client.rb:33 | selecting from a concatenation selects from each part in order |
| AIClient.NonSystemKeeps | lib/ai_refactor/ai_client.rb:33 | a conversation without system messages is sent whole |
| AIClient.OpenAIParse | lib/ai_refactor/ai_client.rb:66-74 | an error response raises with its type, message and code; otherwise the first choice's finish reason and content and the response |
| AIClient.AnthropicFinishReason | lib/ai_refactor/ai_client.rb:82 | "max_tokens" becomes "length", any other stop reason passes through |
| AIClient.AnthropicLengthIff | lib/ai_refactor/ai_client.rb:82 | the reason reads "length" exactly when the stop reason was "max_tokens" or "length" |
| AIClient.AnthropicParse | lib/ai_refactor/ai_client.rb:76-84 | an error response raises with its type and message; otherwise the first block's text and the renamed stop reason |
| AIClient.Generate | lib/ai_refactor/ai_client.rb:15-43 | an unknown platform raises "Invalid platform: …"; otherwise it fails exactly when the response has an error, and succeeds with the block's value for the parsed finish reason, content and response |
| AIClient.NewClient | lib/ai_refactor/ai_client.rb:5-13 | a client is built exactly for "openai" or "anthropic"; any other platform raises "Invalid platform: …" in `configure` |
| AIClient.BuiltClientGenerates | lib/ai_refactor/ai_client.rb:12-43 | a client that was built fails in `generate!` only on an error response of its own platform |
| AIClient.GenerateOpenAI | lib/ai_refactor/ai_client.rb:17-27 | OpenAI gets the messages as given, with model, temperature and token limit, and the block sees the first choice |
| AIClient.GenerateAnthropic | lib/ai_refactor/ai_client.rb:28-38 | Anthropic gets the system text apart, the other messages in order and no temperature; "max_tokens" reaches the block as "length" |
| Refactors.StripTicks | lib/ai_refactor/refactors/base_refactor.rb:59-60 | the stripped content holds no "```" at all |
| Refactors.FenceFree | lib/ai_refactor/refactors/base_refactor.rb:60 | removing every "```" in one pass leaves none: what remains has no three backticks in a row |
| Refactors.Chomp | lib/ai_refactor/refactors/base_refactor.rb:94 | the result is a prefix of the line, and what was dropped is one "\n", "\r", "\r\n" or nothing; a trailing line break is always dropped |
| Refactors.OverwriteOption | lib/ai_refactor/refactors/base_refactor.rb:89-90 | the option decides only when, lowercased, it is "y" or "n" |
| Refactors.OverwriteDecision | lib/ai_refactor/refactors/base_refactor.rb:88-103 | a y/n option decides alone; otherwise the chomped, lowercased answer decides, and input that has ended fails |
| Refactors.OverwriteOptionDecides | lib/ai_refactor/refactors/base_refactor.rb:89-91 | with a y/n option, whatever is typed makes no difference, and the answer is yes exactly for "y" or "Y" |
| Refactors.LowerIsY | lib/ai_refactor/refactors/base_refactor.rb:94-96 | a reply lowercases to "y" exactly when it is "y" or "Y" |
| Refactors.AnswerDecides | lib/ai_refactor/refactors/base_refactor.rb:92-98 | without a y/n option, the answer means yes exactly when, without its line break, it is "y" or "Y" |
| Refactors.PathFromTemplate | lib/ai_refactor/refactors/base_refactor.rb:172-176 | an empty template is refused, and a success is never an empty path |
| Refactors.DetermineOutputFilePath | lib/ai_refactor/refactors/base_refactor.rb:151-162 | without a template it cannot fail; with a default output path a success always names a path |
| Refactors.TemplateWins | lib/ai_refactor/refactors/base_refactor.rb:152 | with a template, changing the output path option or the default changes nothing, and success is the template's path |
| Refactors.OutputPathPrecedence | lib/ai_refactor/refactors/base_refactor.rb:154-161 | without a template: `true` gives the input file, a path gives itself, unset or `false` gives the default |
| Refactors.TemplateFailures | lib/ai_refactor/refactors/base_refactor.rb:172-176 | an empty template raises ArgumentError; a template that resolves to "" raises "Output template could not be used" |
| Refactors.PromptInput | lib/ai_refactor/refactors/base_refactor.rb:126-141 | the user's prompt file wins (missing: the "No prompt file" error); else the refactor's template; else the prompt option; else "No prompt was provided" |
| Refactors.PromptFooter | lib/ai_refactor/refactors/base_refactor.rb:143-145 | there is a footer exactly when a prompt is given and the prompt comes from a file, and then it is that prompt |
| Refactors.PromptInputFails | lib/ai_refactor/refactors/base_refactor.rb:126-141 | prompt selection fails exactly when the user's prompt file is missing, or when there is no user file, no template and no prompt |
| Refactors.PromptOptionPlacement | lib/ai_refactor/refactors/base_refactor.rb:126-145 | a given prompt is either the footer (prompt from a file) or the prompt itself (no file), never both |
| Refactors.GenerateStep | lib/ai_refactor/refactors/base_refactor.rb:55-85 | generation keeps the processor's output path, and writes only when there is one |
| Refactors.ProcessSpec | lib/ai_refactor/refactors/base_refactor.rb:46-86 | writes only to a path; a success used the path the options determine; a declined overwrite writes nothing |
| Refactors.DeclinedWritesNothing | lib/ai_refactor/refactors/base_refactor.rb:49-51 | an existing output the user will not overwrite gives false, records "Skipped as output file already exists", writes nothing |
| Refactors.GenerationOutcome | lib/ai_refactor/refactors/base_refactor.rb:55-85 | success returns the non-empty post-processed content, records no reason, and writes it exactly when there is a path; every failure records "Request to OpenAI failed" |
| Refactors.ReviewRaises | lib/ai_refactor/refactors/base_refactor.rb:72-85 | reviewing the prompt gives no output, so `process!` raises with "Request to OpenAI failed" |
| Refactors.OutputHasNoFences | lib/ai_refactor/refactors/base_refactor.rb:59-60 | without a block and with stripping on, the returned output holds no code fence |
| Refactors.FailedMessageOf | lib/ai_refactor/refactors/base_refactor.rb:34-36 | the recorded reason, or "Reason not specified" |
| Refactors.BaseRefactor.constructor | lib/ai_refactor/refactors/base_refactor.rb:24-28 | a new refactor keeps its setup and has no reason, no remembered path and no input content |
| Refactors.BaseRefactor.FailedMessage | lib/ai_refactor/refactors/base_refactor.rb:34-36 | the reason from the object's field, as `FailedMessageOf` gives it |
| Refactors.BaseRefactor.OutputFilePathFromTemplate | lib/ai_refactor/refactors/base_refactor.rb:172-176 | the step-by-step resolution equals `PathFromTemplate` |
| Refactors.BaseRefactor.OutputFilePath | lib/ai_refactor/refactors/base_refactor.rb:147-149 | the path equals `DetermineOutputFilePath`; it is remembered once it is a path, and nothing else changes |
| Refactors.BaseRefactor.OverwriteExistingOutput | lib/ai_refactor/refactors/base_refactor.rb:88-103 | the decision equals `OverwriteDecision`; a refusal records "Skipped as output file already exists" |
| Refactors.BaseRefactor.Process | lib/ai_refactor/refactors/base_refactor.rb:46-86 | outcome, recorded reason and files written are those of `ProcessSpec` |
| Refactors.BaseRefactor.GenerateAndCheck | lib/ai_refactor/refactors/base_refactor.rb:55-85 | outcome, recorded reason and files written are those of `GenerateStep` |
| FileProcessor.AiMaxAttempts | lib/ai_refactor/file_processor.rb:54-56 | the option when given, otherwise 1 |
| FileProcessor.RequestFor | lib/ai_refactor/file_processor.rb:63-70 | the chat call sends the messages as given, with "gpt-4-turbo-preview", 0.7 and 1500 where the option is absent |
| FileProcessor.Stitch | lib/ai_refactor/file_processor.rb:85-90 | with no earlier text the content is unchanged; otherwise the earlier text comes first, followed by the content (`nil` adding nothing) |
| FileProcessor.CallsBounded | lib/ai_refactor/file_processor.rb:58-93 | generation makes at least one chat call and at most one more than the attempts left |
| FileProcessor.GenerateNextMessage | lib/ai_refactor/file_processor.rb:58-93 | no contract of its own: the chat calls and continuations; stated by `FileProcessor.CallsBounded`, `FileProcessor.ContinuationProtocol`, `FileProcessor.OutcomeOfLastCall` and `FileProcessor.ContentOfRun` |
| FileProcessor.ContinuationProtocol | lib/ai_refactor/file_processor.rb:63-83 | the first call sends the given messages; each later call sends the previous messages plus the previous reply as an assistant turn and "Continue"; only an error-free reply cut short ("length") is continued |
| FileProcessor.AssistantTextAppend | lib/ai_refactor/file_processor.rb:80-85 | a continuation pair adds exactly the partial reply to the assistant text |
| FileProcessor.OutcomeOfLastCall | lib/ai_refactor/file_processor.rb:72-91 | the outcome depends on the last reply alone: it fails exactly when that reply is an error, with the "OpenAI error: type: message (code)" message, and otherwise carries that reply's finish reason and usage |
| FileProcessor.ContentOfRun | lib/ai_refactor/file_processor.rb:76-91 | the content is the given assistant turns, every earlier partial reply, and the last reply's content, in order |
| FileProcessor.NoAttemptsLeft | lib/ai_refactor/file_processor.rb:79 | with no attempts left, a reply cut short is not continued: exactly one call is made |
| FileProcessor.ProcessSpec | lib/ai_refactor/file_processor.rb:24-50 | output is written only when there is an output path |
| FileProcessor.Process | lib/ai_refactor/file_processor.rb:24-50 | the result is that of `ProcessSpec`; the output file then holds what it wrote, and no other file changes |
| FileProcessor.PostProcess | lib/ai_refactor/file_processor.rb:41 | no contract of its own: the block applied to the content when given; stated by `FileProcessor.ProcessOutcome` |
| FileProcessor.ReviewPromptSkips | lib/ai_refactor/file_processor.rb:28-36 | reviewing the prompt returns the "Skipped as review prompt was requested" note, makes no chat call and writes nothing |
| FileProcessor.ProcessOutcome | lib/ai_refactor/file_processor.rb:38-49 | calls stay within the attempt budget (two by default); it fails exactly when generation fails; non-empty content is post-processed, returned, and written exactly when there is an output path; empty or missing content gives `nil` and no write |
| Patterns.Search | lib/ai_refactor/test_runners/rspec_runner.rb:19-21 | a match found is the one at the leftmost position, from the start onwards, where the pattern matches; no match means it matches at no position |
| Patterns.SearchSkips | lib/ai_refactor/test_runners/rspec_runner.rb:19 | `match` passes over positions without a match and returns the first match after them |
| Patterns.MatchAtStart | lib/ai_refactor/test_runners/rspec_runner.rb:19 | a match at the start of the output is the one `match` returns |
| Patterns.NoDigitsNoMatch | lib/ai_refactor/test_runners/rspec_runner.rb:19 | output without digits never matches a pattern that starts with a count, so the counts are `nil` |
| Patterns.NumberAt | lib/ai_refactor/test_runners/rspec_runner.rb:19 | a printed number followed by a non-digit is captured whole, as printed |
| TestRunResult.NewWithDefaults | lib/ai_refactor/test_runners/test_run_result.rb:8-16 | the output and status are kept, and every count and the error count default to 0 |
| TestRunResult.CountToI | lib/ai_refactor/test_runners/test_run_result.rb:20 | `to_i` raises exactly on an Array capture |
| TestRunResult.Failed | lib/ai_refactor/test_runners/test_run_result.rb:18-21 | a failed status means failed; otherwise `nil` errors mean not failed, and present errors mean failed when positive, raising on an Array |
| TestRunResult.DefaultsFailOnlyOnStatus | lib/ai_refactor/test_runners/test_run_result.rb:8-21 | a result with default counts failed exactly when its status is not a success |
| TestRunResult.PrintedErrorCount | lib/ai_refactor/test_runners/test_run_result.rb:18-21 | on a successful status, a printed error count N makes the run failed exactly when N > 0 |
| TestRunners.Command | lib/ai_refactor/tests/rspec_runner.rb:14-17 | every `__FILE__` in the template is the path, behind `cd DIR && ` with a working directory |
| TestRunners.CommandOnPath | lib/ai_refactor/tests/minitest_runner.rb:14-17 | a template ending in `__FILE__` runs its command on the path |
| TestRunners.DefaultRSpecCommand | lib/ai_refactor/test_runners/rspec_runner.rb:8-15 | the default runs `bundle exec rspec PATH` |
| TestRunners.DefaultMinitestCommand | lib/ai_refactor/refactors/tests/minitest_runner.rb:8-15 | the default runs `bundle exec rails test PATH` |
| TestRunners.DefaultSteepCommand | lib/ai_refactor/test_runners/steep_runner.rb:8-16 | the default runs `bundle exec steep PATH` |
| TestRunners.RSpecResult | lib/ai_refactor/test_runners/rspec_runner.rb:17-23 | output and status are kept; without a summary the example and failure counts are `nil`; pending and errors are "0" or the one-element Array `values_at` gives |
| TestRunners.MinitestResult | lib/ai_refactor/tests/minitest_runner.rb:19-23 | output and status are kept; without a summary every count is `nil` |
| TestRunners.SteepResult | lib/ai_refactor/test_runners/steep_runner.rb:18-24 | the output is not read: the run failed exactly when the command failed |
| TestRunners.LineMatches | lib/ai_refactor/tests/minitest_runner.rb:21 | a printed line of counts, each followed by its word, matches the pattern wherever it starts, capturing the counts as printed |
| TestRunners.MinitestWordsOk | lib/ai_refactor/tests/minitest_runner.rb:21 | the Minitest pattern is the pattern of its five words |
| TestRunners.MinitestSummary | lib/ai_refactor/tests/minitest_runner.rb:19-23 | a summary `R runs, A assertions, F failures, E errors, S skips` after output with no earlier match (progress and timing lines) gives examples R, failures F, pending S, errors E; the run failed exactly when its status failed or E > 0 |
| TestRunners.RSpecSummary | lib/ai_refactor/test_runners/rspec_runner.rb:17-23 | `N example(s), M failure(s)` after output with no earlier match (progress and timing lines) gives both counts as printed, singular or plural |
| TestRunners.SummaryAt | lib/ai_refactor/test_runners/rspec_runner.rb:19 | the summary pattern matches a summary line wherever it lies, capturing both counts |
| TestRunners.SummaryLineAt | lib/ai_refactor/test_runners/rspec_runner.rb:19 | a whole `N example(s), M failure(s)` line lying at a position is matched there with both counts |
| TestRunners.RSpecCounts | lib/ai_refactor/test_runners/rspec_runner.rb:19-22 | the summary's two captures become the example and failure counts |
| TestRunners.RSpecErrorsRaise | lib/ai_refactor/test_runners/rspec_runner.rb:21 | a successful run that reports errors outside of examples has them as an Array, so `failed?` raises |
| TestRunners.RSpecNoErrorsLine | lib/ai_refactor/test_runners/rspec_runner.rb:21 | with no such errors reported, a run failed exactly when its status failed |
| TestRunDiffReport.QuotedAll | lib/ai_refactor/tests/test_run_diff_report.rb:15-27 | an Array capture is shown element by element |
| TestRunDiffReport.Segment | lib/ai_refactor/tests/test_run_diff_report.rb:17-25 | a segment is empty exactly when the two counts are equal |
| TestRunDiffReport.MismatchShows | lib/ai_refactor/tests/test_run_diff_report.rb:17-25 | a mismatch names the kind, then shows the current count before the previous one |
| TestRunDiffReport.Diff | lib/ai_refactor/tests/test_run_diff_report.rb:15-27 | the report built step by step is the example, failure and pending segments in that order |
| TestRunDiffReport.DiffEmptyIff | lib/ai_refactor/tests/test_run_diff_report.rb:11-27 | the diff is empty exactly when `no_differences?` holds |
| TestRunDiffReport.NoDifferencesSymmetric | lib/ai_refactor/tests/test_run_diff_report.rb:11-13 | swapping the two runs does not change whether they differ |
| TestRunDiffReport.OnlyCountsCompared | lib/ai_refactor/tests/test_run_diff_report.rb:11-13 | output, status and error counts play no part in the comparison |
| TestRunDiffReport.OnlyFailuresDiffer | lib/ai_refactor/tests/test_run_diff_report.rb:15-27 | when only the failure counts differ, the diff is that one segment |
| TestRunDiffReport.OnlyExamplesDiffer | lib/ai_refactor/tests/test_run_diff_report.rb:17-19 | captured counts appear as printed, for example `Example count mismatch: 3 != 2` |
| TestRunDiffReport.ArrayNeverEqualsString | lib/ai_refactor/tests/test_run_diff_report.rb:11-13 | a count captured as an Array never equals the same count as a String, and shows as `["N"]` |
| Files.FileSystem.constructor | lib/ai_refactor/file_processor.rb:95-99 | the file system starts with the files given |
| Files.FileSystem.Write | lib/ai_refactor/file_processor.rb:95-99 | writing sets the file at the path to the content, and no other file changes |
| Runs.MinitestRun | lib/ai_refactor/tests/minitest_runner.rb:19-23 | a Minitest run's counts are never Arrays, so `failed?` never raises: it failed exactly when its status failed or its error count is positive |
| Runs.SteepRun | lib/ai_refactor/test_runners/steep_runner.rb:18-24 | a Steep run failed exactly when the command failed |
| Runs.Compare | lib/ai_refactor/refactors/rails/minitest/rspec_to_minitest.rb:42-65 | a failing generated test records "Generated test file failed to run correctly"; otherwise true exactly when the counts match; a reason is recorded exactly when the result is false; no file changes |
| Runs.SpecRaisesOnlyOnCapturedErrors | lib/ai_refactor/test_runners/rspec_runner.rb:21 | asking an RSpec run whether it failed raises exactly when its status succeeded and errors outside of examples were reported, with the `to_i` error |
| Conversions.SpecDirToTestDir | lib/ai_refactor/refactors/rails/minitest/rspec_to_minitest.rb:68-70 | `spec/NAME_spec.rb` maps to `test/NAME_test.rb` |
| Conversions.DropFences | lib/ai_refactor/refactors/rails/minitest/rspec_to_minitest_rails.rb:45 | the converted content holds no "```" |
| Conversions.RailsRspecToMinitest | lib/ai_refactor/refactors/rails/minitest/rspec_to_minitest.rb:8-66 | result, files and recorded reason are those of the conversion's specification |
| Conversions.RailsConversion | lib/ai_refactor/refactors/rails/minitest/rspec_to_minitest.rb:8-66 | no contract of its own: the conversion's specification; stated by `Conversions.RailsSpecFailureStops`, `Conversions.RailsConversionTrueIff`, `Conversions.RailsDeclinedStillCompared` and `Conversions.RailsRaisesOnlyOnSpecErrors` |
| Conversions.RailsSpecFailureStops | lib/ai_refactor/refactors/rails/minitest/rspec_to_minitest.rb:14-19 | a failing spec gives false and "Failed to run RSpec file, has errors", and writes nothing |
| Conversions.RailsConversionTrueIff | lib/ai_refactor/refactors/rails/minitest/rspec_to_minitest.rb:8-66 | true exactly when the spec passes, `process!` succeeds with an output path, and the test there passes with the spec's counts on the files as written |
| Conversions.RailsDeclinedStillCompared | lib/ai_refactor/refactors/rails/minitest/rspec_to_minitest.rb:24-40 | declining to overwrite does not end the run: the existing file is left alone, and it is tested and compared |
| Conversions.RailsRaisesOnlyOnSpecErrors | lib/ai_refactor/refactors/rails/minitest/rspec_to_minitest.rb:9-33 | with its own default output path, the run raises exactly when `failed?` raises on the spec's error count |
| Conversions.RspecToMinitestRails | lib/ai_refactor/refactors/rails/minitest/rspec_to_minitest_rails.rb:11-100 | result, files and recorded reason are those of the shared conversion specification, with the overwrite decision of the newer refactors |
| Conversions.Conversion | lib/ai_refactor/refactors/rails/minitest/rspec_to_minitest_rails.rb:11-100 | no contract of its own: the shared conversion specification; stated by `Conversions.ConversionTrue`, `Conversions.ConversionDeclined` and `Conversions.LegacyAgreesWithRails` |
| Conversions.GenerateAndCompare | lib/ai_refactor/refactors/rails/minitest/rspec_to_minitest_rails.rb:43-99 | result, files and recorded reason are those of generation followed by the test run and the comparison |
| Conversions.LegacyRspecToMinitest | lib/ai_refactor/refactors/rspec_to_minitest.rb:11-100 | result and files are those of the shared specification, with the "y"/"Y" overwrite question |
| Conversions.ConversionTrue | lib/ai_refactor/refactors/rails/minitest/rspec_to_minitest_rails.rb:43-99 | a true conversion means: the spec passed; the test path holds non-empty generated content with no fence; that test passed with the spec's counts; no reason was recorded |
| Conversions.ConversionDeclined | lib/ai_refactor/refactors/rails/minitest/rspec_to_minitest_rails.rb:37-39 | an existing test that may not be overwritten gives false and "Skipped as output file already exists", with nothing generated or written |
| Conversions.LegacyAgreesWithRails | lib/ai_refactor/refactors/rspec_to_minitest.rb:36-43 | when the overwrite option does not settle it, the older and the newer conversion give the same result and the same files |
| Writers.WithExtension | lib/ai_refactor/refactors/minitest/write_test_for_class.rb:46 | a trailing ".rb" is replaced; any other path is kept |
| Writers.WithExtensionOf | lib/ai_refactor/refactors/ruby/write_rbs.rb:45 | `NAME.rb` gets the replacement in place of ".rb" |
| Writers.TestPathOf | lib/ai_refactor/refactors/minitest/write_test_for_class.rb:45-47 | `NAME.rb` gets the test `test/NAME_test.rb` |
| Writers.WriteTestForClass | lib/ai_refactor/refactors/minitest/write_test_for_class.rb:7-39 | result, files and recorded reason are those of the run's specification |
| Writers.WriteTest | lib/ai_refactor/refactors/minitest/write_test_for_class.rb:7-39 | no contract of its own: the run's specification; stated by `Writers.WriteTestTrueIff` and `Writers.WriteTestDeclined` |
| Writers.WriteTestTrueIff | lib/ai_refactor/refactors/minitest/write_test_for_class.rb:11-38 | true exactly when `process!` succeeds, there is an output path, and the test there passes under `ruby`; the content is never returned |
| Writers.WriteTestDeclined | lib/ai_refactor/refactors/minitest/write_test_for_class.rb:11-33 | declining to overwrite is not a failure: the existing test is left alone and decides the run |
| Writers.SignaturePathOf | lib/ai_refactor/refactors/ruby/write_rbs.rb:44-46 | `NAME.rb` gets the signature file `sig/NAME.rbs` |
| Writers.WriteRbs | lib/ai_refactor/refactors/ruby/write_rbs.rb:7-38 | result, files and recorded reason are those of the run's specification |
| Writers.WriteRbsRun | lib/ai_refactor/refactors/ruby/write_rbs.rb:7-38 | no contract of its own: the run's specification; stated by `Writers.WriteRbsTrueIff` and `Writers.WriteRbsWithoutPath` |
| Writers.WriteRbsTrueIff | lib/ai_refactor/refactors/ruby/write_rbs.rb:11-37 | with an output path: true exactly when fence-free output was generated and written there, and Steep, run on the input file with the configured Minitest command, succeeds |
| Writers.WrittenOutput | lib/ai_refactor/refactors/base_refactor.rb:46-86 | output `process!` returns is what the output path holds afterwards, when there is one |
| Writers.WriteRbsWithoutPath | lib/ai_refactor/refactors/ruby/write_rbs.rb:18-37 | without an output path the generated content is returned and nothing is written |
| Writers.NonEmptyOutput | lib/ai_refactor/refactors/base_refactor.rb:72-79 | output `process!` returns is never empty |
| Writers.ChangelogItems | lib/ai_refactor/refactors/project/write_changelog_from_history.rb:19 | each commit line of the log becomes exactly one "- " item, in order |
| Writers.WriteChangelogFromHistory | lib/ai_refactor/refactors/project/write_changelog_from_history.rb:15-31 | result, files and recorded reason are those of the run's specification; by default the last 3 commits are read |
| Writers.WriteChangelog | lib/ai_refactor/refactors/project/write_changelog_from_history.rb:15-31 | no contract of its own: the run's specification; stated by `Writers.ChangelogItems` and `Writers.ChangelogTrueIff` |
| Writers.ChangelogTrueIff | lib/ai_refactor/refactors/project/write_changelog_from_history.rb:22-30 | with an output path: true exactly when output was generated, and the path then holds it exactly, fences included |
| LegacyRefactor.CanOverwrite | lib/ai_refactor/base_refactor.rb:24-33 | ended input fails; otherwise yes exactly when the chomped answer is "y" or "Y" |
| LegacyRefactor.AgreesWithNewerWhenAsked | lib/ai_refactor/base_refactor.rb:24-33 | when the overwrite option does not decide, the older and the newer question agree on every answer |
| LegacyRefactor.PromptFilePath | lib/ai_refactor/base_refactor.rb:58-67 | a non-empty prompt file option wins over `prompts/NAME.md`; the path returned exists; a missing file raises naming the path and the refactor |
| LegacyRefactor.Run | lib/ai_refactor/base_refactor.rb:14-16 | `run` raises NotImplementedError |
| LegacyRefactor.BaseRefactor.constructor | lib/ai_refactor/base_refactor.rb:8-12 | a new refactor has its input file and no recorded reason |
| LegacyRefactor.BaseRefactor.FailedMessage | lib/ai_refactor/base_refactor.rb:18-20 | the recorded reason, or "Reason not specified" |
| LegacyRefactor.BaseRefactor.CanOverwriteOutputFile | lib/ai_refactor/base_refactor.rb:24-33 | the decision is `CanOverwrite`; a refusal records "Skipped as output file already exists", nothing else changes |
| Generic.Run | lib/ai_refactor/refactors/generic.rb:14-16 | `run` raises "Not implemented" |
| Naming.UpperRun | lib/ai_refactor/refactors/base_refactor.rb:194 | the run of capitals from a position, which ends at the end or at a non-capital |
| Naming.SplitAcronyms | lib/ai_refactor/refactors/base_refactor.rb:194 | the rewrite never shortens the name and keeps its first letter; the second letter is kept or becomes `_` |
| Naming.SplitCamel | lib/ai_refactor/refactors/base_refactor.rb:195 | the rewrite never shortens the name and keeps its first letter |
| Naming.Mangle | lib/ai_refactor/refactors/base_refactor.rb:194-197 | the result has no capital and no `-` |
| Naming.RefactorName | lib/ai_refactor/refactors/base_refactor.rb:191-198 | a refactor name has no capital and no `-` |
| Naming.LastSegmentName | lib/ai_refactor/base_refactor.rb:48-56 | there is a name exactly when the class name has a `::` segment, and it has no capital and no `-` |
| Naming.GenericPromptFilePath | lib/ai_refactor/refactors/generic.rb:39-41 | the prompt file is `DIR/prompts/NAME.md` for the refactor's name |
| Naming.Unscored | lib/ai_refactor/refactors/base_refactor.rb:194-195 | a string with its `_` removed holds no `_` |
| Naming.UnscoredAppend | lib/ai_refactor/refactors/base_refactor.rb:194-195 | removing `_` distributes over concatenation |
| Naming.AcronymsOnlyInsertUnderscores | lib/ai_refactor/refactors/base_refactor.rb:194 | the acronym rewrite only inserts `_`: without them the name is unchanged |
| Naming.CamelOnlyInsertsUnderscores | lib/ai_refactor/refactors/base_refactor.rb:195 | the CamelCase rewrite only inserts `_` |
| Naming.CamelBoundariesSplit | lib/ai_refactor/refactors/base_refactor.rb:195 | afterwards no lowercase letter or digit is directly followed by a capital |
| Naming.AcronymsWithoutCapitals | lib/ai_refactor/refactors/base_refactor.rb:194 | a name without capitals is left alone by the acronym rewrite |
| Naming.CamelWithoutCapitals | lib/ai_refactor/refactors/base_refactor.rb:195 | a name without capitals is left alone by the CamelCase rewrite |
| Naming.MangleIdempotent | lib/ai_refactor/refactors/base_refactor.rb:194-197 | mangling a mangled name changes nothing |
| Naming.AcronymsWithoutDoubleCapitals | lib/ai_refactor/refactors/base_refactor.rb:194 | a name with no two capitals in a row is left alone by the acronym rewrite |
| Naming.CamelTail | lib/ai_refactor/refactors/base_refactor.rb:195 | lowercase letters or digits before a capital get exactly one `_` after them |
| Naming.CamelWords | lib/ai_refactor/refactors/base_refactor.rb:195 | capitalised words written together are split back into those words, joined by `_` |
| Naming.SnakeCaseOfWords | lib/ai_refactor/refactors/base_refactor.rb:194-197 | capitalised words written together become those words, lowercased and joined by `_` ("WriteTestForClass" becomes "write_test_for_class") |
| Naming.AcronymBeforeWord | lib/ai_refactor/refactors/base_refactor.rb:194 | capitals followed by a capitalised word get the `_` before the word's capital ("HTMLParser" becomes "HTML_Parser") |
| Naming.SegmentUnchanged | lib/ai_refactor/refactors/base_refactor.rb:193 | a segment without `::` is unchanged by the separator rewrite |
| Naming.NamespacedLastSegment | lib/ai_refactor/base_refactor.rb:48-50 | the older name of `A::…::Z` is the mangled last segment `Z` |
| Naming.RefactorNameTopLevel | lib/ai_refactor/refactors/base_refactor.rb:191-198 | `AIRefactor::Refactors::A` gives the mangled `A`: the prefix is dropped |
| Naming.RefactorNameNested | lib/ai_refactor/refactors/base_refactor.rb:191-198 | `AIRefactor::Refactors::A::B` gives the mangled `A/B`: the prefix is dropped and the namespace becomes a directory |
| RunConfiguration.Lookup | lib/ai_refactor/run_configuration.rb:66-68 | a value other than `nil` comes from an entry with that key |
| RunConfiguration.Store | lib/ai_refactor/run_configuration.rb:66 | storing adds at most one entry |
| RunConfiguration.StoreLookup | lib/ai_refactor/run_configuration.rb:66 | a stored key reads back the stored value, and every other key is unchanged |
| RunConfiguration.MergeKeeps | lib/ai_refactor/run_configuration.rb:66 | `merge!` keeps the value of every key the other hash does not hold |
| RunConfiguration.MergeLast | lib/ai_refactor/run_configuration.rb:66 | in `merge!` the other hash's last entry for a key wins |
| RunConfiguration.Resolve | lib/ai_refactor/run_configuration.rb:68-77 | paths are only ever appended to what was there |
| RunConfiguration.GemsSpec | lib/ai_refactor/run_configuration.rb:63-78 | afterwards both the context file paths and the gem table are set |
| RunConfiguration.SetSpec | lib/ai_refactor/run_configuration.rb:31-122 | a setter raises nothing exactly when it exists (the context text must be a String, and gems must resolve); a successful setter leaves the option set; an option without a setter raises "Invalid option: KEY" and changes nothing |
| RunConfiguration.IndexIn | lib/ai_refactor/run_configuration.rb:41-43 | `[]` answers exactly for the options with a reader and the two run commands |
| RunConfiguration.SetThenRead | lib/ai_refactor/run_configuration.rb:100-128 | a stored option reads back as stored; an option with a default reads back that default after `nil` or `false` (3 attempts, "gpt-4-turbo-preview", 1500 tokens, timeout 60, overwrite "a") |
| RunConfiguration.RunCommandDefaults | lib/ai_refactor/run_configuration.rb:89-98 | the run commands read "bundle exec rspec __FILE__" and "ruby __FILE__" until set to something truthy |
| RunConfiguration.ListSettersAppend | lib/ai_refactor/run_configuration.rb:45-59 | setting a list option twice keeps the first values and adds the second ones after them, a single value counting as a one-element list |
| RunConfiguration.ContextTextConcatenates | lib/ai_refactor/run_configuration.rb:80-83 | setting the context text twice gives the two texts concatenated, starting from "" |
| RunConfiguration.ResolveAll | lib/ai_refactor/run_configuration.rb:68-77 | when every gem is installed and every path is a String, each path becomes `GEMDIR/PATH`, appended in order |
| RunConfiguration.ResolveStopsAtMissingGem | lib/ai_refactor/run_configuration.rb:71-72 | a missing gem raises "Gem NAME not found", keeping the paths appended before it |
| RunConfiguration.SetAllSucceeds | lib/ai_refactor/run_configuration.rb:31-36 | when `set!` raises nothing, every key had a setter and every key is now set |
| RunConfiguration.SetAllKeeps | lib/ai_refactor/run_configuration.rb:31-36 | an option once set stays set |
| RunConfiguration.SetAllStopsAtInvalid | lib/ai_refactor/run_configuration.rb:33 | the first key without a setter stops `set!` with "Invalid option: KEY"; the keys before it stay applied, the keys after it are not applied |
| RunConfiguration.RunConfiguration.constructor | lib/ai_refactor/run_configuration.rb:31-36 | a new configuration has no option set |
| RunConfiguration.RunConfiguration.Index | lib/ai_refactor/run_configuration.rb:41-43 | `[]` on the object is `IndexIn` on its options |
| RunConfiguration.RunConfiguration.ToOptions | lib/ai_refactor/run_configuration.rb:130-134 | exactly the options set so far, with their values |
| RunConfiguration.RunConfiguration.SetOption | lib/ai_refactor/run_configuration.rb:33-34 | the new options and the error are those of `SetSpec` |
| RunConfiguration.RunConfiguration.SetGems | lib/ai_refactor/run_configuration.rb:63-78 | the new options and the error are those of `GemsSpec` |
| RunConfiguration.RunConfiguration.Set | lib/ai_refactor/run_configuration.rb:31-36 | the new options and the error are those of `SetAllSpec` |
| RunConfiguration.ResolveGems | lib/ai_refactor/run_configuration.rb:68-77 | the nested loops compute `Resolve` over every gem's paths in order |
| RunConfiguration.ResolveGemPaths | lib/ai_refactor/run_configuration.rb:69-76 | the inner loop resolves one gem's paths as `Resolve` does, stopping at a failure |
| CommandFileParser.CommandFileIff | lib/ai_refactor/command_file_parser.rb:7-9 | a one-line name is a command file exactly when it ends in ".yml" or ".yaml" |
| CommandFileParser.OtherExtensions | lib/ai_refactor/command_file_parser.rb:8 | ".ym" and ".json" are not command files; ".yml" and ".yaml" are |
| CommandFileParser.LaterLinesIgnored | lib/ai_refactor/command_file_parser.rb:8 | `$` matches at a line break, so a name whose first line ends in ".yml" matches whatever follows |
| CommandFileParser.Parse | lib/ai_refactor/command_file_parser.rb:15-25 | a missing file raises "Invalid command file:  file does not exist"; a failed load raises the loader's error; success means the options are a Hash with a truthy `refactor`, returned as loaded; falsy options raise the missing-`refactor` error; other non-Hash options raise what `[]` raises on them |
| CommandFileParser.IndexError | lib/ai_refactor/command_file_parser.rb:20 | `options[:refactor]` on truthy non-Hash options: NoMethodError for `true` and a Float, TypeError for a String, an Integer and an Array |
| CommandFileParser.ScalarDocuments | lib/ai_refactor/command_file_parser.rb:18-22 | a YAML document of `true` or a float fails with NoMethodError; a string, an integer or a list fails with TypeError |
| CommandFileParser.ParsesWithRefactor | lib/ai_refactor/command_file_parser.rb:20-24 | options led by a `refactor` entry parse, whatever follows it |
| Cli.ValidIff | lib/ai_refactor/cli.rb:14-18 | valid exactly when the refactor is known and supported, and, when it takes input files, inputs are given and not empty |
| Cli.ExistingInputsKept | lib/ai_refactor/cli.rb:30-32 | inputs that all exist are processed as given |
| Cli.ExpandConcat | lib/ai_refactor/cli.rb:30-32 | expanding a list expands its parts in order |
| Cli.MissingInputDropped | lib/ai_refactor/cli.rb:30-32 | an input that does not exist and matches nothing is dropped silently |
| Cli.Expand | lib/ai_refactor/cli.rb:30-32 | no contract of its own: existing inputs kept, others replaced by their glob matches; stated by `Cli.ExistingInputsKept`, `Cli.ExpandConcat` and `Cli.MissingInputDropped` |
| Cli.ProcessAll | lib/ai_refactor/cli.rb:37-52 | records are only appended, at most one per file |
| Cli.Run | lib/ai_refactor/cli.rb:20-78 | the loop over the files computes `CliRun` |
| Cli.ProcessAllRecords | lib/ai_refactor/cli.rb:37-52 | when no `run` raises, there is one record per file, in order, for that file |
| Cli.RecordFailedIff | lib/ai_refactor/cli.rb:42-51 | a file is recorded as failed exactly when its `run` returned `false`, and then with its failure reason; returned content counts as success |
| Cli.ProcessAllStops | lib/ai_refactor/cli.rb:37-52 | an error escaping one `run` stops the files after it, keeping the records of the files before it |
| Cli.SummaryIff | lib/ai_refactor/cli.rb:54-59 | "All files processed successfully!" is reported exactly when every record is a success |
| Cli.FailureLinesListFailures | lib/ai_refactor/cli.rb:57-58 | the failure report lists every failed file as `FILE :\n > REASON`, and nothing else |
| Cli.FailureLines | lib/ai_refactor/cli.rb:57-58 | no contract of its own: one line per failed record; stated by `Cli.FailureLinesListFailures` |
| Cli.Summary | lib/ai_refactor/cli.rb:54-59 | no contract of its own: the success message or the failures listed; stated by `Cli.SummaryIff` |
| Cli.InvalidDoesNoWork | lib/ai_refactor/cli.rb:21 | invalid input gives false before any refactor runs, whatever the refactors would do |
| Cli.BatchRecords | lib/ai_refactor/cli.rb:29-61 | for valid input with input files, the run records each expanded file in order and reports the summary of those records |
| Cli.SingleRun | lib/ai_refactor/cli.rb:62-77 | a refactor without input files runs once with no file, fails exactly when it returned `false`, and ignores the inputs |

## Left out

- The AI providers' HTTP clients, and `configure` (lib/ai_refactor/ai_client.rb:47-64) and `OpenAI.configure` (lib/ai_refactor/cli.rb:23-27), which read environment variables: network and process environment. The providers are a function from request to response.
- `Open3.capture3` in every test runner and the `git log` backticks of the changelog refactor: subprocesses. A shell is a function from a command line and the current files to its output and exit status.
- `File.exist?`, `File.read`, `Dir.glob`, `FileUtils.mkdir_p` and YAML loading: the file system is a map from path to contents (or a set of existing paths), and glob expansion and YAML loading are parameters. Directories are not modelled.
- `$stdin.gets` is the answer given as a parameter (`None` when input has ended).
- The logger and `colorize` (lib/ai_refactor/logger.rb is not part of this model): output only. What the tool reports is modelled as records and summary strings (`Cli.Summary`).
- The `inherited` hook and registry (lib/ai_refactor/refactors/base_refactor.rb:7-10, lib/ai_refactor/refactors.rb), lib/ai_refactor/commands.rb and `add_new_option` (lib/ai_refactor/run_configuration.rb:5-8): reflection. Which refactor a name resolves to, and whether it is supported, are parameters of `Cli.Run`.
- Gem lookup (`Gem::Specification.find_by_name`) is a map from gem name to install directory. In Ruby, the lookup itself raises for an unknown gem before the "Gem NAME not found" line runs; the model reports the latter message.
- `File.join` is modelled for relative parts joined by one `/`; absolute parts and doubled slashes are not normalised.
- Ruby's `gsub` with a String replacement interprets `\1`-style escapes; the model replaces literally. The `/\.rb$/` rewrite is modelled for one-line paths.
- Floats: the temperature is an opaque literal passed through.
- `to_options` returns a map, so the order of its keys is not modelled; `[]` is modelled for the readers and run commands, not for other Object methods.
- YAML loading is a parameter returning the loaded value or the loader's error (a syntax error, or `Psych::DisallowedClass` for a class other than Symbol); which documents fail to load is not modelled. A YAML Symbol is not among the modelled values. Ruby's exceptions are reported by their class name ("NoMethodError", "TypeError"), not by their full message.
- The classes `AIRefactor::TestRunners::MinitestRunner` and `AIRefactor::TestRunners::TestRunDiffReport` (called at lib/ai_refactor/refactors/rails/minitest/rspec_to_minitest.rb:37 and :53, and at lib/ai_refactor/refactors/minitest/write_test_for_class.rb:22) have no source file in this repository snapshot, and neither has `AIRefactor::Tests::TestRunResult` (constructed at lib/ai_refactor/tests/rspec_runner.rb:24 and lib/ai_refactor/tests/minitest_runner.rb:22). Each is modelled as its namesake in the other namespace: the Minitest runner as lib/ai_refactor/tests/minitest_runner.rb (default template "bundle exec rails test __FILE__" and the same summary regexp), the diff report as lib/ai_refactor/tests/test_run_diff_report.rb, and the result, with its `failed?`, as lib/ai_refactor/test_runners/test_run_result.rb. `Conversions.RailsConversionTrueIff`, `Writers.WriteTestTrueIff` and `Runs.MinitestRun` rest on that choice.
- The refactors `RefactorRuby` and `WriteRuby` inherit from `Custom`, which is not part of this model; their `run` is the same result mapping as `Writers.WriteRbs` without the Steep check.
- The files of this repository come from different revisions, so their calls do not always match (`FileProcessor.new` with positional arguments in lib/ai_refactor/refactors/rspec_to_minitest.rb, `Prompt.new` and `Context.new` with other keywords in lib/ai_refactor/refactors/base_refactor.rb:41-42). Each file present is modelled against its own text; the classes called without a file of their own are listed above. The conversions with their own processor take their chat messages as a parameter rather than building them with `Prompt`.
- Refactors.ProcessSpec: the rescue in `process!` overwrites the "AI conversion failed, no output was generated" reason with "Request to OpenAI failed" before raising again; this is modelled as written.
- LegacyRefactor.PromptFilePath: the class-side method reads `options`, which the class itself does not define; the option is a parameter here.
- Conversions.RailsRspecToMinitest: `process!` returning `false` after a declined overwrite does not stop the run; the existing file is tested and compared. `Writers.WriteTestForClass` likewise never returns the content, because its output path was settled first. Both are modelled as written.
- RubyFile.Basename, RubyFile.Dirname, RubyFile.Extname: paths are taken to have no trailing or repeated `/`. Ruby strips those first (`File.basename("dir/")` is "dir", `File.dirname("dir/")` is ".", `File.dirname("a//b")` is "a"); the model does not, and gives "", "dir" and "a/" there. The tool applies them to input file paths.
- The `puts` of each placeholder's parts in `path_from_template` (lib/ai_refactor/templated_path.rb:20): output only.
- Text.Lower: lowercases ASCII letters only; Ruby's `downcase` also maps other Unicode letters. It is applied to the answer at the overwrite prompt.
- `TestRunResult#exitstatus` (lib/ai_refactor/test_runners/test_run_result.rb:23-25): read only by log messages, which are not modelled.
- The members whose row says "no contract of its own" are the specification functions; their properties are the lemmas and methods named in that row.

## Findings

| source | as written | input that shows it | evidently intended | confidence | as-written member | corrected member |
|---|---|---|---|---|---|---|
| lib/ai_refactor/context.rb:17-27 | a file that does not exist still contributes a block with its path and empty contents, so the context is never "" once a file list is given | two paths, neither of them existing: the context is the introduction and two empty blocks | test/lib/ai_refactor/context_test.rb:23-41: missing files are left out (still warned about), and the context is "" when no file exists | high, not executed | Context.AllMissingKeepsBlocks | Context.PrepareContextOmitting |

=== FILE: ai_client.dfy ===
/**
 * The AI client: it shapes a chat request for the configured platform,
 * hands it to that platform's backend, normalises the response to a finish
 * reason and a content, and passes both with the raw response to a block.
 * The backends are functions from request to response.
 */
module AIClient {
  import opened Wrappers
  import opened Chat

  /** The client's settings; the temperature is passed through untouched. */
  datatype Config = Config(platform: string, model: string, temperature: string, maxTokens: int)

  /** The platforms `configure` builds a backend client for. */
  predicate KnownPlatform(platform: string) {
    platform == "openai" || platform == "anthropic"
  }

  /**
   * `AIClient.new`: `configure` already raises "Invalid platform: …" for an
   * unknown platform, so only a client for a known one is built.
   */
  function NewClient(config: Config): (r: Result<Config, string>)
    ensures r.Success? <==> KnownPlatform(config.platform)
    ensures r.Success? ==> r.value == config
    ensures r.Failure? ==> r.error == "Invalid platform: " + config.platform
  {
    if KnownPlatform(config.platform) then Success(config) else Failure("Invalid platform: " + config.platform)
  }

  /** A client that was built never reaches the "Invalid platform" branch of `generate!`. */
  lemma BuiltClientGenerates<T>(config: Config, messages: seq<Message>,
                                openai: OpenAIRequest -> OpenAIResponse,
                                anthropic: AnthropicRequest -> AnthropicResponse,
                                block: (Option<string>, Option<string>, RawResponse) -> T)
    requires NewClient(config).Success?
    ensures Generate(NewClient(config).value, messages, openai, anthropic, block).Failure? ==>
              (config.platform == "openai" && openai(OpenAIRequestFor(config, messages)).error.Some?) ||
              (config.platform == "anthropic" && anthropic(AnthropicRequestFor(config, messages)).error.Some?)
  {
  }

  /** The parameters of an OpenAI `chat` call. */
  datatype OpenAIRequest = OpenAIRequest(messages: seq<Message>, model: string, temperature: string, maxTokens: int)

  /** The parameters of an Anthropic `messages` call: no temperature. */
  datatype AnthropicRequest = AnthropicRequest(system: Option<string>, messages: seq<Message>, model: string, maxTokens: int)

  /** One block of an Anthropic response's `"content"`. */
  datatype ContentBlock = ContentBlock(text: Option<string>)

  /** An Anthropic messages response. */
  datatype AnthropicResponse = AnthropicResponse(error: Option<ApiError>, content: seq<ContentBlock>, stopReason: Option<string>)

  /** The raw response the block receives. */
  datatype RawResponse = FromOpenAI(openai: OpenAIResponse) | FromAnthropic(anthropic: AnthropicResponse)

  /** A normalised response: finish reason, content, raw response. */
  datatype Parsed = Parsed(finishReason: Option<string>, content: Option<string>, raw: RawResponse)

  /** `messages.find { |m| m[:role] == "system" }&.fetch(:content, nil)`. */
  function FirstSystemContent(messages: seq<Message>): (r: Option<string>)
    ensures r.Some? ==> exists k :: 0 <= k < |messages| && messages[k].role == SystemRole && messages[k].content == r
    ensures (forall k :: 0 <= k < |messages| ==> messages[k].role != SystemRole) ==> r.None?
    ensures forall k :: (0 <= k < |messages| && messages[k].role == SystemRole &&
                         forall j :: 0 <= j < k ==> messages[j].role != SystemRole) ==> r == messages[k].content
  {
    if messages == [] then None
    else if messages[0].role == SystemRole then messages[0].content
    else
      var r := FirstSystemContent(messages[1..]);
      assert forall k :: 1 <= k < |messages| ==> messages[1..][k - 1] == messages[k];
      r
  }

  /** `messages.select { |m| m[:role] != "system" }`. */
  function NonSystem(messages: seq<Message>): (r: seq<Message>)
    ensures |r| <= |messages|
    ensures forall m :: m in r <==> m in messages && m.role != SystemRole
  {
    if messages == [] then []
    else
      var rest := NonSystem(messages[1..]);
      assert messages == [messages[0]] + messages[1..];
      if messages[0].role == SystemRole then rest else [messages[0]] + rest
  }

  /** Selecting from a concatenation selects from each part, keeping their order. */
  lemma {:induction false} NonSystemAppend(a: seq<Message>, b: seq<Message>)
    ensures NonSystem(a + b) == NonSystem(a) + NonSystem(b)
  {
    if a == [] {
      assert a + b == b;
    } else {
      assert (a + b)[0] == a[0] && (a + b)[1..] == a[1..] + b;
      NonSystemAppend(a[1..], b);
    }
  }

  /** The messages of a conversation without system messages are all kept, in order. */
  lemma {:induction false} NonSystemKeeps(messages: seq<Message>)
    requires forall k :: 0 <= k < |messages| ==> messages[k].role != SystemRole
    ensures NonSystem(messages) == messages
  {
    if messages != [] {
      assert forall k :: 0 <= k < |messages[1..]| ==> messages[1..][k] == messages[k + 1];
      NonSystemKeeps(messages[1..]);
    }
  }

  /** `openai_parse_response`: an error raises; otherwise the first choice's finish reason and content. */
  function OpenAIParse(response: OpenAIResponse): (r: Result<Parsed, string>)
    ensures response.error.Some? <==> r.Failure?
    ensures response.error.Some? ==> r.error == OpenAIErrorMessage(response.error.value)
    ensures r.Success? ==> r.value.raw == FromOpenAI(response)
    ensures r.Success? && response.choices != [] ==>
              r.value.content == response.choices[0].content && r.value.finishReason == response.choices[0].finishReason
    ensures r.Success? && response.choices == [] ==> r.value.content.None? && r.value.finishReason.None?
  {
    if response.error.Some? then Failure(OpenAIErrorMessage(response.error.value))
    else Success(Parsed(FirstFinishReason(response), FirstContent(response), FromOpenAI(response)))
  }

  /** The message an Anthropic error is raised with. */
  function AnthropicErrorMessage(e: ApiError): string {
    "Anthropic error: " + e.kind + ": " + e.message
  }

  /** Anthropic's `"max_tokens"` stop reason is reported as OpenAI's `"length"`; any other passes through. */
  function AnthropicFinishReason(stopReason: Option<string>): (r: Option<string>)
    ensures stopReason == Some("max_tokens") ==> r == Some("length")
    ensures stopReason != Some("max_tokens") ==> r == stopReason
  {
    if stopReason == Some("max_tokens") then Some("length") else stopReason
  }

  /** A response cut short by the token limit reads as `"length"` on both platforms, and only then or on a literal `"length"`. */
  lemma AnthropicLengthIff(stopReason: Option<string>)
    ensures AnthropicFinishReason(stopReason) == Some("length")
            <==> stopReason == Some("max_tokens") || stopReason == Some("length")
    ensures AnthropicFinishReason(stopReason) != Some("max_tokens")
  {
  }

  /** `anthropic_parse_response`: an error raises; otherwise the first block's text and the renamed stop reason. */
  function AnthropicParse(response: AnthropicResponse): (r: Result<Parsed, string>)
    ensures response.error.Some? <==> r.Failure?
    ensures response.error.Some? ==> r.error == AnthropicErrorMessage(response.error.value)
    ensures r.Success? ==> r.value.raw == FromAnthropic(response)
    ensures r.Success? ==> r.value.finishReason == AnthropicFinishReason(response.stopReason)
    ensures r.Success? && response.content != [] ==> r.value.content == response.content[0].text
    ensures r.Success? && response.content == [] ==> r.value.content.None?
  {
    if response.error.Some? then Failure(AnthropicErrorMessage(response.error.value))
    else
      var content := if response.content == [] then None else response.content[0].text;
      Success(Parsed(AnthropicFinishReason(response.stopReason), content, FromAnthropic(response)))
  }

  /** The OpenAI request: the messages as given, with model, temperature and token limit. */
  function OpenAIRequestFor(config: Config, messages: seq<Message>): OpenAIRequest {
    OpenAIRequest(messages, config.model, config.temperature, config.maxTokens)
  }

  /** The Anthropic request: the first system message's content apart, the other messages in order. */
  function AnthropicRequestFor(config: Config, messages: seq<Message>): AnthropicRequest {
    AnthropicRequest(FirstSystemContent(messages), NonSystem(messages), config.model, config.maxTokens)
  }

  /**
   * `generate!`: the request for the platform, the backend's response
   * parsed, and the block's value for (finish reason, content, response).
   * An unknown platform and an error response raise.
   */
  function Generate<T>(config: Config, messages: seq<Message>,
                       openai: OpenAIRequest -> OpenAIResponse,
                       anthropic: AnthropicRequest -> AnthropicResponse,
                       block: (Option<string>, Option<string>, RawResponse) -> T): (r: Result<T, string>)
    ensures config.platform != "openai" && config.platform != "anthropic" ==> r == Failure("Invalid platform: " + config.platform)
    ensures config.platform == "openai" ==> (r.Failure? <==> openai(OpenAIRequestFor(config, messages)).error.Some?)
    ensures config.platform == "anthropic" ==> (r.Failure? <==> anthropic(AnthropicRequestFor(config, messages)).error.Some?)
    ensures config.platform == "openai" && r.Success? ==>
              OpenAIParse(openai(OpenAIRequestFor(config, messages))).Success? &&
              var p := OpenAIParse(openai(OpenAIRequestFor(config, messages))).value;
              r.value == block(p.finishReason, p.content, p.raw)
    ensures config.platform == "anthropic" && r.Success? ==>
              AnthropicParse(anthropic(AnthropicRequestFor(config, messages))).Success? &&
              var p := AnthropicParse(anthropic(AnthropicRequestFor(config, messages))).value;
              r.value == block(p.finishReason, p.content, p.raw)
  {
    var parsed :- if config.platform == "openai" then OpenAIParse(openai(OpenAIRequestFor(config, messages)))
                  else if config.platform == "anthropic" then AnthropicParse(anthropic(AnthropicRequestFor(config, messages)))
                  else Failure("Invalid platform: " + config.platform);
    Success(block(parsed.finishReason, parsed.content, parsed.raw))
  }

  /** The block sees the first choice's finish reason, then its content, then the whole response. */
  lemma GenerateOpenAI<T>(config: Config, messages: seq<Message>,
                          openai: OpenAIRequest -> OpenAIResponse,
                          anthropic: AnthropicRequest -> AnthropicResponse,
                          block: (Option<string>, Option<string>, RawResponse) -> T,
                          reason: string, content: string, usage: Option<Usage>)
    requires config.platform == "openai"
    requires openai(OpenAIRequest(messages, config.model, config.temperature, config.maxTokens))
             == OpenAIResponse(None, [Choice(Some(content), Some(reason))], usage)
    ensures Generate(config, messages, openai, anthropic, block)
            == Success(block(Some(reason), Some(content), FromOpenAI(OpenAIResponse(None, [Choice(Some(content), Some(reason))], usage))))
  {
  }

  /**
   * For Anthropic, a conversation of a system message and other messages is
   * sent as the system text and the others in order, and a `"max_tokens"`
   * stop reaches the block as `"length"`.
   */
  lemma GenerateAnthropic<T>(config: Config, system: string, rest: seq<Message>,
                             openai: OpenAIRequest -> OpenAIResponse,
                             anthropic: AnthropicRequest -> AnthropicResponse,
                             block: (Option<string>, Option<string>, RawResponse) -> T,
                             text: string)
    requires config.platform == "anthropic"
    requires forall k :: 0 <= k < |rest| ==> rest[k].role != SystemRole
    requires anthropic(AnthropicRequest(Some(system), rest, config.model, config.maxTokens))
             == AnthropicResponse(None, [ContentBlock(Some(text))], Some("max_tokens"))
    ensures Generate(config, [Message(SystemRole, Some(system))] + rest, openai, anthropic, block)
            == Success(block(Some("length"), Some(text),
                             FromAnthropic(AnthropicResponse(None, [ContentBlock(Some(text))], Some("max_tokens")))))
  {
    var messages := [Message(SystemRole, Some(system))] + rest;
    NonSystemAppend([Message(SystemRole, Some(system))], rest);
    assert NonSystem([Message(SystemRole, Some(system))]) == [];
    NonSystemKeeps(rest);
  }
}

=== FILE: base_refactor.dfy ===
/**
 * The base of the refactors: where the output goes, which prompt is used,
 * whether an existing output may be overwritten, and `process!`, which runs
 * the file processor and records why a refactor failed.
 */
module Refactors {
  import opened Wrappers
  import opened Text
  import opened Chat
  import opened Files
  import FileProcessor
  import TemplatedPath

  const NotSpecified := "Reason not specified"
  const SkippedExists := "Skipped as output file already exists"
  const NoOutputGenerated := "AI conversion failed, no output was generated"
  const RequestFailed := "Request to OpenAI failed"
  const NoOutputError := "No output"
  const TemplateUnusable := "Output template could not be used"
  const NoPromptGiven := "No prompt was provided. Please provide one with the --prompt option or with a command file."
  const NilAnswer := "undefined method 'chomp' for nil"

  /** The raise for a user prompt file that does not exist. */
  function NoPromptFile(file: string): string {
    "No prompt file '" + file + "' found. Check prompt_file_path is valid"
  }

  // ---------------------------------------------------------------------
  // Code fences

  const Fence := "```"
  const RubyFence := "```ruby"

  /** `content.gsub("```ruby", "").gsub("```", "")`. */
  function StripTicks(content: string): (r: string)
    ensures !Contains(r, Fence)
  {
    var r := ReplaceAll(ReplaceAll(content, RubyFence, ""), Fence, "");
    FenceFree(ReplaceAll(content, RubyFence, ""));
    r
  }

  lemma FenceHead(t: string)
    ensures var r := ReplaceAll(t, Fence, "");
            r != [] && r[0] == '`' ==> t != [] && t[0] == '`'
  {
  }

  lemma FenceHeadTwo(t: string)
    ensures var r := ReplaceAll(t, Fence, "");
            |r| >= 2 && r[0] == '`' && r[1] == '`' ==> |t| >= 2 && t[0] == '`' && t[1] == '`'
  {
    if |t| >= 3 && t[..3] != Fence {
      FenceHead(t[1..]);
    }
  }

  /** Removing every fence leaves none: the runs of backticks left over are shorter than three. */
  lemma {:induction false} FenceFree(t: string)
    ensures !Contains(ReplaceAll(t, Fence, ""), Fence)
    decreases |t|
  {
    var r := ReplaceAll(t, Fence, "");
    assert |Fence| == 3;
    if |t| < 3 {
      assert r == t;
    } else if t[..3] == Fence {
      FenceFree(t[3..]);
      assert r == "" + ReplaceAll(t[3..], Fence, "");
      assert "" + ReplaceAll(t[3..], Fence, "") == ReplaceAll(t[3..], Fence, "");
    } else {
      var r' := ReplaceAll(t[1..], Fence, "");
      assert r == [t[0]] + r';
      FenceFree(t[1..]);
      FenceHeadTwo(t[1..]);
      assert t[0] != '`' || t[1] != '`' || t[2] != '`' by {
        assert t[..3] != Fence && |t[..3]| == 3;
        assert t[..3][0] == t[0] && t[..3][1] == t[1] && t[..3][2] == t[2];
      }
      forall i | 0 <= i <= |r| ensures !OccursAt(r, i, Fence) {
        if i + 3 <= |r| {
          if i == 0 {
            assert r[..3][0] == t[0] && r[..3][1] == r'[0] && r[..3][2] == r'[1];
          } else {
            assert r[i..i + 3] == r'[i - 1..i - 1 + 3];
            assert !OccursAt(r', i - 1, Fence);
          }
        }
      }
    }
  }

  /** The post-processing `process!` hands to the processor: the caller's block, else fence stripping, else nothing. */
  function PostBlock(block: Option<string -> string>, stripTicks: bool): string -> string {
    if block.Some? then block.value
    else if stripTicks then (c: string) => StripTicks(c)
    else (c: string) => c
  }

  // ---------------------------------------------------------------------
  // Overwriting an existing output

  /** `String#chomp`: one trailing "\r\n", "\n" or "\r" removed. */
  function Chomp(s: string): (r: string)
    ensures |r| <= |s| && r == s[..|r|]
    ensures s[|r|..] in ["", "\n", "\r", "\r\n"]
    ensures |s| > 0 && (s[|s| - 1] == '\n' || s[|s| - 1] == '\r') ==> |r| < |s|
  {
    if |s| >= 2 && s[|s| - 2..] == "\r\n" then s[..|s| - 2]
    else if |s| >= 1 && (s[|s| - 1] == '\n' || s[|s| - 1] == '\r') then
      assert s[|s| - 1..] == [s[|s| - 1]];
      s[..|s| - 1]
    else
      assert s[|s|..] == "";
      s
  }

  /** The overwrite option when it is y or n in any case, lowercased. */
  function OverwriteOption(overwrite: Option<string>): (r: Option<string>)
    ensures r.Some? ==> r.value == "y" || r.value == "n"
  {
    if overwrite.Some? && (Lower(overwrite.value) == "y" || Lower(overwrite.value) == "n") then Some(Lower(overwrite.value))
    else None
  }

  /**
   * `overwrite_existing_output?`: the overwrite option when it is y or n,
   * otherwise the answer read (chomped and lowercased); yes iff that is "y".
   * Reading past the end of input fails on nil.
   */
  function OverwriteDecision(overwrite: Option<string>, answer: Option<string>): (r: Result<bool, string>)
    ensures OverwriteOption(overwrite).Some? ==> r == Success(OverwriteOption(overwrite).value == "y")
    ensures OverwriteOption(overwrite).None? ==>
              (r.Failure? <==> answer.None?) && (answer.Some? ==> r == Success(Lower(Chomp(answer.value)) == "y"))
  {
    match OverwriteOption(overwrite)
    case Some(o) => Success(o == "y")
    case None =>
      if answer.None? then Failure(NilAnswer)
      else Success(Lower(Chomp(answer.value)) == "y")
  }

  /** A y or n option decides without looking at the answer. */
  lemma OverwriteOptionDecides(overwrite: string, answer: Option<string>, other: Option<string>)
    requires Lower(overwrite) == "y" || Lower(overwrite) == "n"
    ensures OverwriteDecision(Some(overwrite), answer) == OverwriteDecision(Some(overwrite), other)
    ensures OverwriteDecision(Some(overwrite), answer) == Success(overwrite == "y" || overwrite == "Y")
  {
    if |overwrite| == 1 {
      assert Lower(overwrite)[0] == LowerChar(overwrite[0]);
      assert overwrite == [overwrite[0]];
    }
  }

  /** A one-character string lowercases to "y" iff it is "y" or "Y". */
  lemma LowerIsY(s: string)
    ensures Lower(s) == "y" <==> s == "y" || s == "Y"
  {
    if |s| == 1 {
      assert Lower(s)[0] == LowerChar(s[0]);
      assert s == [s[0]];
    }
  }

  /** Without a y or n option, the answer decides: "y" or "Y" (before the line break) means yes. */
  lemma AnswerDecides(overwrite: Option<string>, answer: string)
    requires OverwriteOption(overwrite).None?
    ensures OverwriteDecision(overwrite, Some(answer)) == Success(Chomp(answer) == "y" || Chomp(answer) == "Y")
  {
    LowerIsY(Chomp(answer));
  }

  // ---------------------------------------------------------------------
  // The output path

  /** `options[:output_file_path]`: unset, a flag (true means the input file itself) or a path. */
  datatype OutputFileOption = Unset | Flag(on: bool) | Path(path: string)

  /** The options a refactor reads. */
  datatype RefactorOptions = RefactorOptions(
    overwrite: Option<string>,
    promptFilePath: Option<string>,
    prompt: Option<string>,
    outputFilePath: OutputFileOption,
    outputTemplatePath: Option<string>,
    minitestRunCommand: string,
    gitCommitCount: Option<int>,
    processing: FileProcessor.Options)

  /**
   * What a refactor is built from: its input file and options, its name,
   * the default output path of its kind, and the directory holding the
   * refactors' own prompt templates.
   */
  datatype Setup = Setup(inputFile: string, options: RefactorOptions, refactorName: string,
                         defaultOutputPath: Option<string>, templateDir: string)

  /** `output_file_path_from_template`: the template resolved, which must not be empty. */
  function PathFromTemplate(inputFile: string, refactorName: string, template: string): (r: Result<string, string>)
    ensures template == [] ==> r.Failure?
    ensures r.Success? ==> r.value != []
  {
    match TemplatedPath.New(inputFile, refactorName, template)
    case Failure(e) => Failure(e)
    case Success(tp) =>
      var path := TemplatedPath.PathFromTemplate(tp);
      if |path| > 0 then Success(path) else Failure(TemplateUnusable)
  }

  /**
   * `determine_output_file_path`: a template wins; otherwise the output
   * path option (`true` meaning the input file); otherwise the default.
   */
  function DetermineOutputFilePath(s: Setup): (r: Result<Option<string>, string>)
    ensures s.options.outputTemplatePath.None? ==> r.Success?
    ensures s.defaultOutputPath.Some? && r.Success? ==> r.value.Some?
  {
    match s.options.outputTemplatePath
    case Some(template) =>
      (match PathFromTemplate(s.inputFile, s.refactorName, template)
       case Failure(e) => Failure(e)
       case Success(path) => Success(Some(path)))
    case None =>
      match s.options.outputFilePath
      case Unset => Success(s.defaultOutputPath)
      case Flag(on) => Success(if on then Some(s.inputFile) else s.defaultOutputPath)
      case Path(p) => Success(Some(p))
  }

  /** With a template, neither the output path option nor the default matters. */
  lemma TemplateWins(s: Setup, other: OutputFileOption, otherDefault: Option<string>)
    requires s.options.outputTemplatePath.Some?
    ensures DetermineOutputFilePath(s)
            == DetermineOutputFilePath(s.(options := s.options.(outputFilePath := other), defaultOutputPath := otherDefault))
    ensures DetermineOutputFilePath(s).Success? ==>
              DetermineOutputFilePath(s).value.Some? && DetermineOutputFilePath(s).value.value != []
  {
  }

  /** Without a template: `true` is the input file, a path is itself, and unset or `false` is the default. */
  lemma OutputPathPrecedence(s: Setup)
    requires s.options.outputTemplatePath.None?
    ensures s.options.outputFilePath == Flag(true) ==> DetermineOutputFilePath(s) == Success(Some(s.inputFile))
    ensures s.options.outputFilePath.Path? ==> DetermineOutputFilePath(s) == Success(Some(s.options.outputFilePath.path))
    ensures s.options.outputFilePath in {Unset, Flag(false)} ==> DetermineOutputFilePath(s) == Success(s.defaultOutputPath)
  {
  }

  /** An empty template is refused, and so is one that resolves to nothing. */
  lemma TemplateFailures(s: Setup)
    requires s.options.outputTemplatePath.Some?
    ensures s.options.outputTemplatePath.value == [] ==> DetermineOutputFilePath(s) == Failure("ArgumentError")
    ensures s.options.outputTemplatePath.value != []
            && TemplatedPath.PathFromTemplate(TemplatedPath.TemplatedPath(s.inputFile, s.refactorName, s.options.outputTemplatePath.value)) == []
            ==> DetermineOutputFilePath(s) == Failure(TemplateUnusable)
  {
  }

  // ---------------------------------------------------------------------
  // The prompt

  /** `user_provided_prompt_template?`: a non-empty prompt file option. */
  predicate UserPromptTemplate(o: RefactorOptions) {
    o.promptFilePath.Some? && |o.promptFilePath.value| > 0
  }

  /** `user_provided_prompt?`: a non-empty prompt option. */
  predicate UserPrompt(o: RefactorOptions) {
    o.prompt.Some? && |o.prompt.value| > 0
  }

  /** `prompt_template_for_refactor`: `<name>.md` in the refactors' directory. */
  function RefactorTemplate(s: Setup): string {
    s.templateDir + "/" + s.refactorName + ".md"
  }

  /** `prompt_from_file?`: the user's prompt file is given, or the refactor's template exists. */
  predicate PromptFromFile(s: Setup, files: map<string, string>) {
    UserPromptTemplate(s.options) || RefactorTemplate(s) in files
  }

  /**
   * `prompt_input`: the user's prompt file (which must exist), else the
   * refactor's template when it exists, else the prompt option; with
   * none of these it raises.
   */
  function PromptInput(s: Setup, files: map<string, string>): (r: Result<string, string>)
    ensures UserPromptTemplate(s.options) ==>
              r == (if s.options.promptFilePath.value in files then Success(files[s.options.promptFilePath.value])
                    else Failure(NoPromptFile(s.options.promptFilePath.value)))
  {
    if UserPromptTemplate(s.options) then
      var file := s.options.promptFilePath.value;
      if file in files then Success(files[file]) else Failure(NoPromptFile(file))
    else
      var file := RefactorTemplate(s);
      if file in files then Success(files[file])
      else if UserPrompt(s.options) then Success(s.options.prompt.value)
      else Failure(NoPromptGiven)
  }

  /** `prompt_footer`: the prompt option, when one is given and the prompt comes from a file. */
  function PromptFooter(s: Setup, files: map<string, string>): (r: Option<string>)
    ensures r.Some? <==> UserPrompt(s.options) && PromptFromFile(s, files)
    ensures r.Some? ==> r == s.options.prompt
  {
    if UserPrompt(s.options) && PromptFromFile(s, files) then s.options.prompt else None
  }

  /**
   * Prompt selection fails iff the user's prompt file is missing, or there
   * is neither a user file, nor a template, nor a prompt.
   */
  lemma PromptInputFails(s: Setup, files: map<string, string>)
    ensures PromptInput(s, files).Failure? <==>
              (UserPromptTemplate(s.options) && s.options.promptFilePath.value !in files)
              || (!PromptFromFile(s, files) && !UserPrompt(s.options))
  {
  }

  /**
   * The prompt option is the footer exactly when the prompt itself comes
   * from a file, and is the prompt itself only when no file is used; it is
   * never both.
   */
  lemma PromptOptionPlacement(s: Setup, files: map<string, string>)
    requires UserPrompt(s.options)
    ensures PromptFromFile(s, files) ==>
              PromptFooter(s, files) == s.options.prompt
              && (PromptInput(s, files).Success? ==>
                    PromptInput(s, files).value == files[if UserPromptTemplate(s.options) then s.options.promptFilePath.value else RefactorTemplate(s)])
    ensures !PromptFromFile(s, files) ==>
              PromptFooter(s, files).None? && PromptInput(s, files) == Success(s.options.prompt.value)
  {
  }

  // ---------------------------------------------------------------------
  // process!

  /** What `process!` returns when it does not raise: false after a declined overwrite, or the output. */
  datatype ProcessResult = Declined | Output(content: string)

  /** How the prompt of the refactor's revision lays out the prompt text, the footer and the input content. */
  type Render = (string, Option<string>, Option<string>) -> seq<Message>

  /** The outside world of one `process!`: the prompt layout, the chat backend and the next line typed in. */
  datatype Env = Env(render: Render, backend: FileProcessor.ChatRequest -> OpenAIResponse, answer: Option<string>)

  /**
   * One `process!`: its outcome, the failure message it sets (None when it
   * sets none), what it writes to the output path, and that path.
   */
  datatype ProcessStep = ProcessStep(outcome: Result<ProcessResult, string>, message: Option<string>,
                                     written: Option<string>, outputPath: Option<string>)

  /** The processor `process!` builds once the output path and the prompt are known. */
  function ProcessorFor(s: Setup, files: map<string, string>, inputContent: Option<string>, env: Env,
                        path: Option<string>, text: string): FileProcessor.Processor
  {
    FileProcessor.Processor(env.render(text, PromptFooter(s, files), inputContent), path, s.options.processing)
  }

  /** Generation and its check for output, once overwriting is settled. */
  function GenerateStep(p: FileProcessor.Processor, env: Env, post: string -> string): (r: ProcessStep)
    ensures r.outputPath == p.outputPath
    ensures r.written.Some? ==> r.outputPath.Some?
  {
    var run := FileProcessor.ProcessSpec(p, env.backend, Some(post));
    match run.outcome
    case Failure(e) => ProcessStep(Failure(e), Some(RequestFailed), run.written, p.outputPath)
    case Success(processed) =>
      if processed.content.Some? && |processed.content.value| > 0 then
        ProcessStep(Success(Output(processed.content.value)), None, run.written, p.outputPath)
      else ProcessStep(Failure(NoOutputError), Some(RequestFailed), run.written, p.outputPath)
  }

  /**
   * `process!`: the output path and the prompt are settled first (their
   * errors propagate untouched); an existing output needs the overwrite
   * decision; then generation, whose failure or empty output sets "Request
   * to OpenAI failed" and raises.
   */
  function ProcessSpec(s: Setup, files: map<string, string>, inputContent: Option<string>, env: Env,
                       block: Option<string -> string>, stripTicks: bool): (r: ProcessStep)
    ensures r.written.Some? ==> r.outputPath.Some?
    ensures r.outcome.Success? ==> DetermineOutputFilePath(s) == Success(r.outputPath)
    ensures r.outcome == Success(Declined) ==>
              r.outputPath.Some? && r.outputPath.value in files && r.written.None?
  {
    match DetermineOutputFilePath(s)
    case Failure(e) => ProcessStep(Failure(e), None, None, None)
    case Success(path) =>
      match PromptInput(s, files)
      case Failure(e) => ProcessStep(Failure(e), None, None, path)
      case Success(text) =>
        var p := ProcessorFor(s, files, inputContent, env, path, text);
        if path.Some? && path.value in files then
          (match OverwriteDecision(s.options.overwrite, env.answer)
           case Failure(e) => ProcessStep(Failure(e), None, None, path)
           case Success(yes) =>
             if yes then GenerateStep(p, env, PostBlock(block, stripTicks))
             else ProcessStep(Success(Declined), Some(SkippedExists), None, path))
        else GenerateStep(p, env, PostBlock(block, stripTicks))
  }

  /** An existing output that may not be overwritten: false, the reason recorded, nothing written. */
  lemma DeclinedWritesNothing(s: Setup, files: map<string, string>, inputContent: Option<string>, env: Env,
                              block: Option<string -> string>, stripTicks: bool)
    requires DetermineOutputFilePath(s).Success? && PromptInput(s, files).Success?
    requires var path := DetermineOutputFilePath(s).value; path.Some? && path.value in files
    requires OverwriteDecision(s.options.overwrite, env.answer) == Success(false)
    ensures ProcessSpec(s, files, inputContent, env, block, stripTicks)
            == ProcessStep(Success(Declined), Some(SkippedExists), None, DetermineOutputFilePath(s).value)
  {
  }

  /**
   * A successful `process!` returns the non-empty post-processed content and
   * sets no failure message; the content is written iff there is an output
   * path. Every failure after generation began leaves "Request to OpenAI
   * failed" as the reason, including the no-output case, whose own message
   * is overwritten before the error is raised again.
   */
  lemma GenerationOutcome(p: FileProcessor.Processor, env: Env, post: string -> string)
    requires !p.options.reviewPrompt
    ensures var r := GenerateStep(p, env, post);
            var run := FileProcessor.GenerateNextMessage(p.messages, p.options, FileProcessor.AiMaxAttempts(p.options), env.backend);
            (r.outcome.Success? <==>
               run.outcome.Success? && run.outcome.value.content.Some? && run.outcome.value.content.value != ""
               && post(run.outcome.value.content.value) != "")
            && (r.outcome.Success? ==>
                  r.outcome.value == Output(post(run.outcome.value.content.value))
                  && r.message.None?
                  && (r.written.Some? <==> p.outputPath.Some?)
                  && (r.written.Some? ==> r.written.value == r.outcome.value.content))
            && (r.outcome.Failure? ==> r.message == Some(RequestFailed))
  {
    FileProcessor.ProcessOutcome(p, env.backend, Some(post));
  }

  /** Reviewing the prompt never yields output, so `process!` raises with the request-failed reason. */
  lemma ReviewRaises(p: FileProcessor.Processor, env: Env, post: string -> string)
    requires p.options.reviewPrompt
    ensures GenerateStep(p, env, post) == ProcessStep(Failure(NoOutputError), Some(RequestFailed), None, p.outputPath)
  {
    FileProcessor.ReviewPromptSkips(p, env.backend, Some(post));
  }

  /** Stripping fences by default: without a block, the output holds no code fence. */
  lemma OutputHasNoFences(s: Setup, files: map<string, string>, inputContent: Option<string>, env: Env)
    requires ProcessSpec(s, files, inputContent, env, None, true).outcome.Success?
    requires ProcessSpec(s, files, inputContent, env, None, true).outcome.value.Output?
    ensures !Contains(ProcessSpec(s, files, inputContent, env, None, true).outcome.value.content, Fence)
  {
    var path := DetermineOutputFilePath(s).value;
    var text := PromptInput(s, files).value;
    var p := ProcessorFor(s, files, inputContent, env, path, text);
    var post := PostBlock(None, true);
    if p.options.reviewPrompt {
      ReviewRaises(p, env, post);
    } else {
      GenerationOutcome(p, env, post);
    }
  }

  /** The reason a refactor failed: the one recorded, or "Reason not specified". */
  function FailedMessageOf(recorded: Option<string>): (r: string)
    ensures recorded.Some? ==> r == recorded.value
    ensures recorded.None? ==> r == NotSpecified
  {
    recorded.GetOr(NotSpecified)
  }

  // ---------------------------------------------------------------------
  // The refactor object

  class BaseRefactor {
    const setup: Setup
    /** `@failed_message`. */
    var failedMessage: Option<string>
    /** `@output_file_path`, remembered once it is a path. */
    var outputPathMemo: Option<string>
    /** `input_content`, which a refactor may set before processing. */
    var inputContent: Option<string>

    /** The remembered output path is the one the options determine. */
    ghost predicate Valid()
      reads this
    {
      outputPathMemo.Some? ==> DetermineOutputFilePath(setup) == Success(outputPathMemo)
    }

    constructor (setup: Setup)
      ensures this.setup == setup && failedMessage.None? && outputPathMemo.None? && inputContent.None?
      ensures Valid()
    {
      this.setup := setup;
      failedMessage := None;
      outputPathMemo := None;
      inputContent := None;
    }

    /** `failed_message`. */
    function FailedMessage(): (r: string)
      reads this
      ensures r == FailedMessageOf(failedMessage)
    {
      failedMessage.GetOr(NotSpecified)
    }

    /** `output_file_path_from_template`, resolving the template step by step. */
    method OutputFilePathFromTemplate(template: string) returns (r: Result<string, string>)
      ensures r == PathFromTemplate(setup.inputFile, setup.refactorName, template)
    {
      var tp :- TemplatedPath.New(setup.inputFile, setup.refactorName, template);
      var path := TemplatedPath.Generate(tp);
      if |path| == 0 {
        return Failure(TemplateUnusable);
      }
      return Success(path);
    }

    /** `output_file_path`: remembered, so later calls agree with the first. */
    method OutputFilePath() returns (r: Result<Option<string>, string>)
      requires Valid()
      modifies this
      ensures Valid()
      ensures r == DetermineOutputFilePath(setup)
      ensures failedMessage == old(failedMessage) && inputContent == old(inputContent)
      ensures outputPathMemo == (if r.Success? && r.value.Some? then r.value else old(outputPathMemo))
    {
      if outputPathMemo.Some? {
        return Success(outputPathMemo);
      }
      match setup.options.outputTemplatePath {
        case Some(template) =>
          var path := OutputFilePathFromTemplate(template);
          if path.Failure? {
            return Failure(path.error);
          }
          r := Success(Some(path.value));
        case None =>
          r := Success(match setup.options.outputFilePath
                       case Unset => setup.defaultOutputPath
                       case Flag(on) => if on then Some(setup.inputFile) else setup.defaultOutputPath
                       case Path(p) => Some(p));
      }
      if r.value.Some? {
        outputPathMemo := r.value;
      }
    }

    /** `overwrite_existing_output?`: a refusal records why. */
    method OverwriteExistingOutput(answer: Option<string>) returns (r: Result<bool, string>)
      modifies this
      ensures r == OverwriteDecision(setup.options.overwrite, answer)
      ensures failedMessage == (if r == Success(false) then Some(SkippedExists) else old(failedMessage))
      ensures outputPathMemo == old(outputPathMemo) && inputContent == old(inputContent)
    {
      r := OverwriteDecision(setup.options.overwrite, answer);
      if r == Success(false) {
        failedMessage := Some(SkippedExists);
      }
    }

    /** `process!`, with the post-processing block (if any) and the fence-stripping switch. */
    method Process(fs: FileSystem, env: Env, block: Option<string -> string>, stripTicks: bool)
      returns (r: Result<ProcessResult, string>)
      requires Valid()
      modifies this, fs
      ensures Valid() && inputContent == old(inputContent)
      ensures r == ProcessSpec(setup, old(fs.files), inputContent, env, block, stripTicks).outcome
      ensures var step := ProcessSpec(setup, old(fs.files), inputContent, env, block, stripTicks);
              failedMessage == (if step.message.Some? then step.message else old(failedMessage))
      ensures var step := ProcessSpec(setup, old(fs.files), inputContent, env, block, stripTicks);
              fs.files == (if step.written.Some? then old(fs.files)[step.outputPath.value := step.written.value]
                           else old(fs.files))
    {
      var path := OutputFilePath();
      if path.Failure? {
        return Failure(path.error);
      }
      var text := PromptInput(setup, fs.files);
      if text.Failure? {
        return Failure(text.error);
      }
      var p := ProcessorFor(setup, fs.files, inputContent, env, path.value, text.value);
      if FileProcessor.OutputExists(p, fs) {
        var yes := OverwriteExistingOutput(env.answer);
        if yes.Failure? {
          return Failure(yes.error);
        }
        if !yes.value {
          return Success(Declined);
        }
      }
      r := GenerateAndCheck(p, fs, env, PostBlock(block, stripTicks));
    }

    /** The part of `process!` inside its rescue: generation, then the check for output. */
    method GenerateAndCheck(p: FileProcessor.Processor, fs: FileSystem, env: Env, post: string -> string)
      returns (r: Result<ProcessResult, string>)
      modifies this, fs
      ensures outputPathMemo == old(outputPathMemo) && inputContent == old(inputContent)
      ensures r == GenerateStep(p, env, post).outcome
      ensures var step := GenerateStep(p, env, post);
              failedMessage == (if step.message.Some? then step.message else old(failedMessage))
      ensures var step := GenerateStep(p, env, post);
              fs.files == (if step.written.Some? then old(fs.files)[p.outputPath.value := step.written.value]
                           else old(fs.files))
    {
      var processed := FileProcessor.Process(p, fs, env.backend, Some(post));
      if processed.Failure? {
        failedMessage := Some(RequestFailed);
        return Failure(processed.error);
      }
      var content := processed.value.content;
      if content.None? || |content.value| == 0 {
        failedMessage := Some(NoOutputGenerated);
        // the no-output error is rescued like any other and its reason replaced
        failedMessage := Some(RequestFailed);
        return Failure(NoOutputError);
      }
      return Success(Output(content.value));
    }
  }
}

=== FILE: chat.dfy ===
/**
 * The chat messages and provider responses the tool exchanges with an AI
 * backend. Ruby hashes become records; a key that may be absent or `nil`
 * becomes an `Option`.
 */
module Chat {
  import opened Wrappers

  /** One chat message, `{role:, content:}`; an assistant's content may be `nil`. */
  datatype Message = Message(role: string, content: Option<string>)

  const SystemRole := "system"
  const UserRole := "user"
  const AssistantRole := "assistant"

  /** The `"error"` object of a failed response. */
  datatype ApiError = ApiError(kind: string, message: string, code: string)

  /** The token counts of a response's `"usage"` object. */
  datatype Usage = Usage(promptTokens: nat, completionTokens: nat, totalTokens: nat)

  /** One entry of an OpenAI response's `"choices"`. */
  datatype Choice = Choice(content: Option<string>, finishReason: Option<string>)

  /** An OpenAI chat-completion response. */
  datatype OpenAIResponse = OpenAIResponse(error: Option<ApiError>, choices: seq<Choice>, usage: Option<Usage>)

  /** `response.dig("choices", 0, "message", "content")`. */
  function FirstContent(response: OpenAIResponse): (r: Option<string>)
    ensures response.choices == [] ==> r == None
    ensures response.choices != [] ==> r == response.choices[0].content
  {
    if response.choices == [] then None else response.choices[0].content
  }

  /** `response.dig("choices", 0, "finish_reason")`. */
  function FirstFinishReason(response: OpenAIResponse): (r: Option<string>)
    ensures response.choices == [] ==> r == None
    ensures response.choices != [] ==> r == response.choices[0].finishReason
  {
    if response.choices == [] then None else response.choices[0].finishReason
  }

  /** The message an OpenAI error is raised with. */
  function OpenAIErrorMessage(e: ApiError): string {
    "OpenAI error: " + e.kind + ": " + e.message + " (" + e.code + ")"
  }
}

=== FILE: cli.dfy ===
/**
 * The command line driver: it checks that the refactor exists, is
 * supported and has the inputs it needs, expands the inputs, runs the
 * refactor on each file in turn and sums up which files failed.
 */
module Cli {
  import opened Wrappers
  import Text
  import opened Runs

  /** What the registry knows of the refactor asked for. */
  datatype Refactorer = Refactorer(name: string, takesInputFiles: bool)

  /**
   * `valid?`: the refactor must be found and supported, and it must be
   * given at least one input when it takes input files.
   */
  predicate Valid(refactorer: Option<Refactorer>, supported: bool, inputs: Option<seq<string>>) {
    if refactorer.None? then false
    else
      var inputsValid := if refactorer.value.takesInputFiles then !(inputs.None? || inputs.value == []) else true;
      supported && inputsValid
  }

  /** Inputs only matter to a refactor that takes input files. */
  lemma ValidIff(refactorer: Option<Refactorer>, supported: bool, inputs: Option<seq<string>>)
    ensures Valid(refactorer, supported, inputs) <==>
            refactorer.Some? && supported && (refactorer.value.takesInputFiles ==> inputs.Some? && |inputs.value| > 0)
  {
  }

  /** Each input that exists stays as it is; any other is a glob pattern replaced by its matches. */
  function Expand(inputs: seq<string>, onDisk: set<string>, glob: string -> seq<string>): seq<string> {
    if inputs == [] then []
    else (if inputs[0] in onDisk then [inputs[0]] else glob(inputs[0])) + Expand(inputs[1..], onDisk, glob)
  }

  /** Inputs that all exist are processed as given, whatever the patterns would match. */
  lemma {:induction false} ExistingInputsKept(inputs: seq<string>, onDisk: set<string>, glob: string -> seq<string>)
    requires forall k :: 0 <= k < |inputs| ==> inputs[k] in onDisk
    ensures Expand(inputs, onDisk, glob) == inputs
  {
    if inputs != [] {
      assert forall k :: 0 <= k < |inputs[1..]| ==> inputs[1..][k] == inputs[k + 1];
      ExistingInputsKept(inputs[1..], onDisk, glob);
      assert inputs == [inputs[0]] + inputs[1..];
    }
  }

  /** Expanding a list expands its parts in order. */
  lemma {:induction false} ExpandConcat(a: seq<string>, b: seq<string>, onDisk: set<string>, glob: string -> seq<string>)
    ensures Expand(a + b, onDisk, glob) == Expand(a, onDisk, glob) + Expand(b, onDisk, glob)
  {
    if a != [] {
      var head := if a[0] in onDisk then [a[0]] else glob(a[0]);
      assert (a + b)[0] == a[0];
      assert (a + b)[1..] == a[1..] + b;
      assert Expand(a + b, onDisk, glob) == head + Expand(a[1..] + b, onDisk, glob);
      assert Expand(a, onDisk, glob) == head + Expand(a[1..], onDisk, glob);
      ExpandConcat(a[1..], b, onDisk, glob);
    } else {
      assert a + b == b;
    }
  }

  /** An input that does not exist and matches nothing is dropped without a trace. */
  lemma MissingInputDropped(before: seq<string>, path: string, after: seq<string>, onDisk: set<string>,
                            glob: string -> seq<string>)
    requires path !in onDisk && glob(path) == []
    ensures Expand(before + [path] + after, onDisk, glob) == Expand(before, onDisk, glob) + Expand(after, onDisk, glob)
  {
    ExpandConcat(before + [path], after, onDisk, glob);
    ExpandConcat(before, [path], onDisk, glob);
    assert Expand([path], onDisk, glob) == [] by {
      assert [path][1..] == [];
      assert Expand([path], onDisk, glob) == glob(path) + Expand([], onDisk, glob);
    }
    assert Expand(before, onDisk, glob) + [] == Expand(before, onDisk, glob);
  }

  /** What one refactor's `run` gave back, and its `failed_message` afterwards. */
  datatype FileRun = FileRun(returned: RunResult, failedMessage: string)

  /** What is recorded for a file: `true`, or `[file, failed_message]`. */
  datatype Record = Succeeded | FailedOn(file: string, message: string)

  /** A file failed exactly when its `run` returned `false`. */
  function RecordOf(file: string, run: FileRun): Record {
    if run.returned == Verdict(false) then FailedOn(file, run.failedMessage) else Succeeded
  }

  /** No file's `run` lets an error escape. */
  predicate NoneRaise(files: seq<string>, refactor: Option<string> -> FileRun) {
    forall k :: 0 <= k < |files| ==> !refactor(Some(files[k])).returned.Raised?
  }

  /** The records so far and the error that escaped a `run`, if one did. */
  datatype Processed = Processed(records: seq<Record>, error: Option<string>)

  /** The refactor run on each file in order; an error escaping a `run` stops everything. */
  function ProcessAll(acc: seq<Record>, files: seq<string>, refactor: Option<string> -> FileRun): (r: Processed)
    ensures acc <= r.records && |r.records| <= |acc| + |files|
    decreases |files|
  {
    if files == [] then Processed(acc, None)
    else
      var run := refactor(Some(files[0]));
      if run.returned.Raised? then Processed(acc, Some(run.returned.error))
      else ProcessAll(acc + [RecordOf(files[0], run)], files[1..], refactor)
  }

  const AllProcessed := "All files processed successfully!"
  const SomeFailed := "Some files failed to process:\n"

  /** One line per failed file: its name and why it failed. */
  function FailureLines(records: seq<Record>): seq<string> {
    if records == [] then []
    else (if records[0].FailedOn? then [FailureLine(records[0])] else [])
         + FailureLines(records[1..])
  }

  /** The closing message: all succeeded, or the failures listed. */
  function Summary(records: seq<Record>): string {
    if forall k :: 0 <= k < |records| ==> records[k] == Succeeded then AllProcessed
    else SomeFailed + Text.Join(FailureLines(records), "\n")
  }

  /** What a run of the tool comes to. */
  datatype Outcome =
    | Invalid                                        // `run` returned false at once
    | Aborted(records: seq<Record>, error: string)   // a refactor's error escaped
    | Batch(records: seq<Record>, summary: string)   // every file was processed
    | Single(run: FileRun, failed: bool)             // a refactor without input files

  /** `run`, as a function of what it consults. */
  function CliRun(refactorer: Option<Refactorer>, supported: bool, inputs: Option<seq<string>>, onDisk: set<string>,
                  glob: string -> seq<string>, refactor: Option<string> -> FileRun): Outcome
  {
    if !Valid(refactorer, supported, inputs) then Invalid
    else if refactorer.value.takesInputFiles then
      var p := ProcessAll([], Expand(inputs.value, onDisk, glob), refactor);
      if p.error.Some? then Aborted(p.records, p.error.value) else Batch(p.records, Summary(p.records))
    else
      var run := refactor(None);
      Single(run, run.returned == Verdict(false))
  }

  /** `run`: checks validity, then processes each expanded input in turn. */
  method Run(refactorer: Option<Refactorer>, supported: bool, inputs: Option<seq<string>>, onDisk: set<string>,
             glob: string -> seq<string>, refactor: Option<string> -> FileRun) returns (r: Outcome)
    ensures r == CliRun(refactorer, supported, inputs, onDisk, glob, refactor)
  {
    if !Valid(refactorer, supported, inputs) {
      return Invalid;
    }
    if !refactorer.value.takesInputFiles {
      var run := refactor(None);
      return Single(run, run.returned == Verdict(false));
    }
    var expanded := Expand(inputs.value, onDisk, glob);
    var records := [];
    var i := 0;
    while i < |expanded|
      invariant 0 <= i <= |expanded|
      invariant ProcessAll(records, expanded[i..], refactor) == ProcessAll([], expanded, refactor)
    {
      assert expanded[i..][0] == expanded[i] && expanded[i..][1..] == expanded[i + 1..];
      var run := refactor(Some(expanded[i]));
      if run.returned.Raised? {
        return Aborted(records, run.returned.error);
      }
      records := records + [RecordOf(expanded[i], run)];
      i := i + 1;
    }
    assert expanded[i..] == [];
    return Batch(records, Summary(records));
  }

  /**
   * When no `run` raises, every file is processed once and in order, and a
   * failure does not stop the files after it: each record is `true` or
   * `[file, failed_message]`, failed exactly when `run` returned `false`.
   */
  lemma {:induction false} ProcessAllRecords(acc: seq<Record>, files: seq<string>, refactor: Option<string> -> FileRun)
    requires NoneRaise(files, refactor)
    ensures var p := ProcessAll(acc, files, refactor);
            p.error.None? && |p.records| == |acc| + |files| && p.records[..|acc|] == acc
            && (forall k :: 0 <= k < |files| ==> p.records[|acc| + k] == RecordOf(files[k], refactor(Some(files[k]))))
    decreases |files|
  {
    if files != [] {
      var acc' := acc + [RecordOf(files[0], refactor(Some(files[0])))];
      assert forall k :: 0 <= k < |files[1..]| ==> files[1..][k] == files[k + 1];
      ProcessAllRecords(acc', files[1..], refactor);
      var p := ProcessAll(acc', files[1..], refactor);
      assert p.records[..|acc'|] == acc';
      assert p.records[|acc|] == acc'[|acc|];
      assert p.records[..|acc|] == acc'[..|acc|];
    }
  }

  /** A record is a failure exactly when the file's `run` returned `false`, and then it carries the reason. */
  lemma RecordFailedIff(file: string, run: FileRun)
    ensures RecordOf(file, run).FailedOn? <==> run.returned == Verdict(false)
    ensures RecordOf(file, run).FailedOn? ==> RecordOf(file, run) == FailedOn(file, run.failedMessage)
    ensures run.returned.Content? ==> RecordOf(file, run) == Succeeded
  {
  }

  /** An error escaping a `run` stops the files after it; the records of the files before it are kept. */
  lemma {:induction false} ProcessAllStops(acc: seq<Record>, before: seq<string>, file: string, after: seq<string>,
                                           refactor: Option<string> -> FileRun)
    requires NoneRaise(before, refactor)
    requires refactor(Some(file)).returned.Raised?
    ensures ProcessAll(acc, before + [file] + after, refactor)
            == Processed(ProcessAll(acc, before, refactor).records, Some(refactor(Some(file)).returned.error))
    decreases |before|
  {
    if before == [] {
      assert before + [file] + after == [file] + after;
      assert ([file] + after)[1..] == after;
    } else {
      var acc' := acc + [RecordOf(before[0], refactor(Some(before[0])))];
      assert (before + [file] + after)[0] == before[0];
      assert (before + [file] + after)[1..] == before[1..] + [file] + after;
      assert forall k :: 0 <= k < |before[1..]| ==> before[1..][k] == before[k + 1];
      ProcessAllStops(acc', before[1..], file, after, refactor);
    }
  }

  /** The all-success message is shown exactly when every record is `true`. */
  lemma SummaryIff(records: seq<Record>)
    ensures Summary(records) == AllProcessed <==> forall k :: 0 <= k < |records| ==> records[k] == Succeeded
  {
    if !(forall k :: 0 <= k < |records| ==> records[k] == Succeeded) {
      assert Summary(records)[0] == 'S';
    }
  }

  /** The line listing a failed file. */
  function FailureLine(record: Record): string
    requires record.FailedOn?
  {
    record.file + " :\n > " + record.message
  }

  /** The failure lines list every failed record and nothing else. */
  lemma {:induction false} FailureLinesListFailures(records: seq<Record>)
    ensures forall k :: 0 <= k < |records| && records[k].FailedOn? ==> FailureLine(records[k]) in FailureLines(records)
    ensures forall line :: line in FailureLines(records) ==>
              exists k :: 0 <= k < |records| && records[k].FailedOn? && line == FailureLine(records[k])
  {
    if records != [] {
      FailureLinesListFailures(records[1..]);
      assert forall k :: 1 <= k < |records| ==> records[k] == records[1..][k - 1];
      forall line | line in FailureLines(records)
        ensures exists k :: 0 <= k < |records| && records[k].FailedOn? && line == FailureLine(records[k])
      {
        if line !in FailureLines(records[1..]) {
          assert records[0].FailedOn? && line == FailureLine(records[0]);
        } else {
          var k :| 0 <= k < |records[1..]| && records[1..][k].FailedOn? && line == FailureLine(records[1..][k]);
          assert records[k + 1] == records[1..][k];
        }
      }
    }
  }

  /** `run` returns false for invalid input before running any refactor, whatever they would do. */
  lemma InvalidDoesNoWork(refactorer: Option<Refactorer>, supported: bool, inputs: Option<seq<string>>,
                          onDisk: set<string>, glob: string -> seq<string>,
                          refactor: Option<string> -> FileRun, other: Option<string> -> FileRun)
    requires !Valid(refactorer, supported, inputs)
    ensures CliRun(refactorer, supported, inputs, onDisk, glob, refactor) == Invalid
    ensures CliRun(refactorer, supported, inputs, onDisk, glob, refactor) == CliRun(refactorer, supported, inputs, onDisk, glob, other)
  {
  }

  /**
   * A valid batch where no `run` raises: one record per expanded input,
   * in order, and the success message exactly when none returned `false`.
   */
  lemma BatchRecords(refactorer: Option<Refactorer>, supported: bool, inputs: Option<seq<string>>, onDisk: set<string>,
                     glob: string -> seq<string>, refactor: Option<string> -> FileRun)
    requires Valid(refactorer, supported, inputs) && refactorer.value.takesInputFiles
    requires NoneRaise(Expand(inputs.value, onDisk, glob), refactor)
    ensures var files := Expand(inputs.value, onDisk, glob);
            var r := CliRun(refactorer, supported, inputs, onDisk, glob, refactor);
            r.Batch? && |r.records| == |files|
            && (forall k :: 0 <= k < |files| ==> r.records[k] == RecordOf(files[k], refactor(Some(files[k]))))
            && (r.summary == AllProcessed <==> forall k :: 0 <= k < |files| ==> refactor(Some(files[k])).returned != Verdict(false))
  {
    var files := Expand(inputs.value, onDisk, glob);
    ProcessAllRecords([], files, refactor);
    var p := ProcessAll([], files, refactor);
    SummaryIff(p.records);
    assert forall k :: 0 <= k < |files| ==> p.records[k] == RecordOf(files[k], refactor(Some(files[k])));
  }

  /**
   * A refactor that takes no input files runs once, with no file, and has
   * failed exactly when its `run` returned `false`; inputs are not looked at.
   */
  lemma SingleRun(refactorer: Option<Refactorer>, supported: bool, inputs: Option<seq<string>>, other: Option<seq<string>>,
                  onDisk: set<string>, glob: string -> seq<string>, refactor: Option<string> -> FileRun)
    requires refactorer.Some? && !refactorer.value.takesInputFiles && supported
    ensures CliRun(refactorer, supported, inputs, onDisk, glob, refactor)
            == Single(refactor(None), refactor(None).returned == Verdict(false))
    ensures CliRun(refactorer, supported, inputs, onDisk, glob, refactor)
            == CliRun(refactorer, supported, other, onDisk, glob, refactor)
  {
  }
}

=== FILE: command_file_parser.dfy ===
/**
 * Command files: YAML files that hold the options of a run. A name is
 * recognised by its extension; parsing demands that the file exists and
 * that the options it holds name a refactor.
 */
module CommandFileParser {
  import opened Wrappers
  import Text
  import opened RunConfiguration

  const MissingFile := "Invalid command file:  file does not exist"
  const RefactorRequired := "Invalid command file format, a 'refactor' key is required"
  /**
   * What `options[:refactor]` raises on truthy options that are not a Hash:
   * `true` and a Float have no `[]` at all; a String, an Integer and an
   * Array have one that refuses a Symbol index.
   */
  function IndexError(options: Value): (r: string)
    requires Truthy(options) && !options.Hash?
    ensures r == "NoMethodError" <==> options.Bool? || options.Float?
    ensures r == "TypeError" <==> options.Str? || options.Int? || options.List?
  {
    match options
    case Bool(_) => "NoMethodError"
    case Float(_) => "NoMethodError"
    case _ => "TypeError"
  }

  /**
   * `/\.ya?ml$/` matches at `i`: ".yml" or ".yaml" starts there and is
   * followed by the end of the name or a line break (`$` is an end of line).
   */
  predicate YamlEndsAt(name: string, i: int, ext: string) {
    Text.OccursAt(name, i, ext) && (i + |ext| == |name| || name[i + |ext|] == '\n')
  }

  /** `command_file?`. */
  predicate IsCommandFile(name: string) {
    exists i | 0 <= i <= |name| :: YamlEndsAt(name, i, ".yml") || YamlEndsAt(name, i, ".yaml")
  }

  /** In a one-line name, a match can only be at the very end. */
  lemma MatchAtEnd(name: string, i: int, ext: string)
    requires '\n' !in name && YamlEndsAt(name, i, ext)
    ensures Text.EndsWith(name, ext)
  {
  }

  /** A name ending in the extension matches there. */
  lemma EndMatches(name: string, ext: string)
    requires Text.EndsWith(name, ext)
    ensures YamlEndsAt(name, |name| - |ext|, ext)
  {
  }

  /** A one-line name is a command file exactly when it ends in ".yml" or ".yaml". */
  lemma CommandFileIff(name: string)
    requires '\n' !in name
    ensures IsCommandFile(name) <==> Text.EndsWith(name, ".yml") || Text.EndsWith(name, ".yaml")
  {
    if Text.EndsWith(name, ".yml") {
      EndMatches(name, ".yml");
    } else if Text.EndsWith(name, ".yaml") {
      EndMatches(name, ".yaml");
    }
    if IsCommandFile(name) {
      var i :| 0 <= i <= |name| && (YamlEndsAt(name, i, ".yml") || YamlEndsAt(name, i, ".yaml"));
      if YamlEndsAt(name, i, ".yml") {
        MatchAtEnd(name, i, ".yml");
      } else {
        MatchAtEnd(name, i, ".yaml");
      }
    }
  }

  /** Two strings that end alike have the same last character. */
  lemma SameLast(s: string, ext: string)
    requires Text.EndsWith(s, ext) && ext != []
    ensures s[|s| - 1] == ext[|ext| - 1]
  {
    assert s[|s| - |ext|..][|ext| - 1] == s[|s| - 1];
  }

  /** Other extensions are not command files, ".ym" and ".json" among them. */
  lemma OtherExtensions(stem: string)
    requires '\n' !in stem
    ensures !IsCommandFile(stem + ".ym")
    ensures !IsCommandFile(stem + ".json")
    ensures IsCommandFile(stem + ".yml") && IsCommandFile(stem + ".yaml")
  {
    CommandFileIff(stem + ".ym");
    CommandFileIff(stem + ".json");
    CommandFileIff(stem + ".yml");
    CommandFileIff(stem + ".yaml");
    if Text.EndsWith(stem + ".ym", ".yml") {
      SameLast(stem + ".ym", ".yml");
    }
    if Text.EndsWith(stem + ".ym", ".yaml") {
      SameLast(stem + ".ym", ".yaml");
    }
    if Text.EndsWith(stem + ".json", ".yml") {
      SameLast(stem + ".json", ".yml");
    }
    if Text.EndsWith(stem + ".json", ".yaml") {
      SameLast(stem + ".json", ".yaml");
    }
    assert (stem + ".yml")[|stem| + 4 - 4..] == ".yml";
    assert (stem + ".yaml")[|stem| + 5 - 5..] == ".yaml";
  }

  /** A line break ends a line for `$`: a ".yml" line followed by another still matches. */
  lemma LaterLinesIgnored(first: string, rest: string)
    ensures IsCommandFile(first + ".yml\n" + rest)
  {
    assert YamlEndsAt(first + ".yml\n" + rest, |first|, ".yml") by {
      assert (first + ".yml\n" + rest)[|first|..|first| + 4] == ".yml";
      assert (first + ".yml\n" + rest)[|first| + 4] == '\n';
    }
  }

  /**
   * `parse`: the file must exist, loading its contents must succeed (`load`
   * gives the loader's own error otherwise), and the loaded options must
   * hold a truthy `refactor`; they are returned as loaded.
   */
  function Parse(path: string, files: map<string, string>, load: string -> Result<Value, string>): (r: Result<Value, string>)
    ensures path !in files ==> r == Failure(MissingFile)
    ensures path in files && load(files[path]).Failure? ==> r == Failure(load(files[path]).error)
    ensures r.Success? <==> path in files && load(files[path]).Success? && load(files[path]).value.Hash?
                            && Truthy(Lookup(load(files[path]).value.entries, "refactor"))
    ensures r.Success? ==> r.value == load(files[path]).value
    ensures (path in files && load(files[path]).Success? && !Truthy(load(files[path]).value))
            ==> r == Failure(RefactorRequired)
    ensures (path in files && load(files[path]).Success? && Truthy(load(files[path]).value)
             && !load(files[path]).value.Hash?) ==> r == Failure(IndexError(load(files[path]).value))
  {
    if path !in files then Failure(MissingFile)
    else
      var options :- load(files[path]);
      if !Truthy(options) then Failure(RefactorRequired)
      else if !options.Hash? then Failure(IndexError(options))
      else if !Truthy(Lookup(options.entries, "refactor")) then Failure(RefactorRequired)
      else Success(options)
  }

  /** Options with a refactor parse; adding entries after it never breaks that. */
  lemma ParsesWithRefactor(path: string, files: map<string, string>, load: string -> Result<Value, string>,
                           name: string, rest: seq<(string, Value)>)
    requires path in files && load(files[path]) == Success(Hash([("refactor", Str(name))] + rest))
    ensures Parse(path, files, load) == Success(Hash([("refactor", Str(name))] + rest))
  {
  }

  /**
   * A document of `true` or a float raises NoMethodError; a string, an
   * integer or a list raises TypeError.
   */
  lemma ScalarDocuments(path: string, files: map<string, string>, load: string -> Result<Value, string>)
    requires path in files && load(files[path]).Success?
    ensures (load(files[path]).value == Bool(true) || load(files[path]).value.Float?)
            ==> Parse(path, files, load) == Failure("NoMethodError")
    ensures (load(files[path]).value.Str? || load(files[path]).value.Int? || load(files[path]).value.List?)
            ==> Parse(path, files, load) == Failure("TypeError")
  {
  }
}

=== FILE: context.dfy ===
/**
 * Extra context for a prompt: the contents of a list of files, each in a
 * block headed by its path, after a fixed introduction. The file system is
 * a map from path to contents; a path missing from it does not exist.
 */
module Context {
  import opened Wrappers
  import opened Text

  const Intro := "Extra context from the codebase: "

  /** The block one file contributes. */
  function Block(path: string, content: string): string {
    "#---\n# " + path + "\n\n" + content
  }

  /** The warning logged for a path that does not exist. */
  function Warning(path: string): string {
    "Context file " + path + " does not exist"
  }

  /** What reading `path` gives: its contents, or "" when it does not exist. */
  function ContentOf(fs: map<string, string>, path: string): string {
    if path in fs then fs[path] else ""
  }

  /** The text and the warnings logged while building it. */
  datatype Prepared = Prepared(text: string, warnings: seq<string>)

  /** `read_contexts` on a list: one block per path, in order. */
  function ReadContexts(files: seq<string>, fs: map<string, string>): (r: seq<string>)
    ensures |r| == |files|
    ensures forall k :: 0 <= k < |files| ==> r[k] == Block(files[k], ContentOf(fs, files[k]))
  {
    if files == [] then [] else [Block(files[0], ContentOf(fs, files[0]))] + ReadContexts(files[1..], fs)
  }

  /** The warnings `read_contexts` logs: one per missing path, in order. */
  function Warnings(files: seq<string>, fs: map<string, string>): (r: seq<string>)
    ensures |r| <= |files|
    ensures forall w :: w in r ==> exists k :: 0 <= k < |files| && files[k] !in fs && w == Warning(files[k])
    ensures forall k :: 0 <= k < |files| && files[k] !in fs ==> Warning(files[k]) in r
    ensures (forall k :: 0 <= k < |files| ==> files[k] in fs) ==> r == []
  {
    if files == [] then []
    else
      var rest := Warnings(files[1..], fs);
      assert forall k :: 1 <= k < |files| ==> files[1..][k - 1] == files[k];
      if files[0] in fs then rest else [Warning(files[0])] + rest
  }

  /** The warnings for two lists one after the other: those of the first, then those of the second. */
  lemma WarningsAppend(a: seq<string>, b: seq<string>, fs: map<string, string>)
    ensures Warnings(a + b, fs) == Warnings(a, fs) + Warnings(b, fs)
  {
    MissingWarningsIs(a + b, fs);
    MissingWarningsIs(a, fs);
    MissingWarningsIs(b, fs);
    MissingWarningsAppend(a, b, fs);
  }

  /** `Warnings` without its contract, so that proofs by induction over it stay cheap. */
  function MissingWarnings(files: seq<string>, fs: map<string, string>): seq<string> {
    if files == [] then [] else (if files[0] in fs then [] else [Warning(files[0])]) + MissingWarnings(files[1..], fs)
  }

  lemma {:induction false} MissingWarningsIs(files: seq<string>, fs: map<string, string>)
    ensures Warnings(files, fs) == MissingWarnings(files, fs)
  {
    if files != [] {
      MissingWarningsIs(files[1..], fs);
    }
  }

  lemma {:induction false} MissingWarningsAppend(a: seq<string>, b: seq<string>, fs: map<string, string>)
    ensures MissingWarnings(a + b, fs) == MissingWarnings(a, fs) + MissingWarnings(b, fs)
  {
    if a == [] {
      assert a + b == b;
    } else {
      assert (a + b)[0] == a[0];
      assert (a + b)[1..] == a[1..] + b;
      MissingWarningsAppend(a[1..], b, fs);
    }
  }

  /** One file gives one warning when it is missing and none when it exists. */
  lemma WarningsOne(f: string, fs: map<string, string>)
    ensures Warnings([f], fs) == if f in fs then [] else [Warning(f)]
  {
    assert [f][1..] == [];
  }

  /** With every file missing, there is one warning per file, in the files' order. */
  lemma {:induction false} WarningsAllMissing(files: seq<string>, fs: map<string, string>)
    requires forall k :: 0 <= k < |files| ==> files[k] !in fs
    ensures Warnings(files, fs) == seq(|files|, k requires 0 <= k < |files| => Warning(files[k]))
  {
    if files != [] {
      assert forall k :: 0 <= k < |files[1..]| ==> files[1..][k] == files[k + 1];
      WarningsAllMissing(files[1..], fs);
    }
  }

  /**
   * `prepare_context`: "" without a file list; otherwise the introduction
   * and the blocks joined by newlines. A missing file still contributes a
   * block, with empty contents.
   */
  function PrepareContext(files: Option<seq<string>>, fs: map<string, string>): (r: Prepared)
    ensures files.None? ==> r == Prepared("", [])
    ensures files.Some? ==> StartsWith(r.text, Intro) && r.warnings == Warnings(files.value, fs)
    ensures files == Some([]) ==> r.text == Intro
  {
    match files
    case None => Prepared("", [])
    case Some(paths) =>
      var text := Intro + Join(ReadContexts(paths, fs), "\n");
      assert text[..|Intro|] == Intro;
      Prepared(text, Warnings(paths, fs))
  }

  /** One file: the introduction and that file's block, "" contents when it is missing, with its warning. */
  lemma OneFile(f: string, fs: map<string, string>)
    ensures PrepareContext(Some([f]), fs).text == Intro + Block(f, ContentOf(fs, f))
    ensures PrepareContext(Some([f]), fs).warnings == if f in fs then [] else [Warning(f)]
  {
    assert ReadContexts([f], fs) == [Block(f, ContentOf(fs, f))];
    WarningsOne(f, fs);
  }

  /** Adding a file to a non-empty list adds a newline and its block at the end. */
  lemma PrepareContextAppend(files: seq<string>, f: string, fs: map<string, string>)
    requires files != []
    ensures PrepareContext(Some(files + [f]), fs).text
            == PrepareContext(Some(files), fs).text + "\n" + Block(f, ContentOf(fs, f))
  {
    var blocks := ReadContexts(files, fs);
    var b := Block(f, ContentOf(fs, f));
    ReadContextsAppend(files, f, fs);
    JoinAppend(blocks, b, "\n");
    assert Intro + (Join(blocks, "\n") + "\n" + b) == Intro + Join(blocks, "\n") + "\n" + b;
  }

  lemma ReadContextsAppend(files: seq<string>, f: string, fs: map<string, string>)
    ensures ReadContexts(files + [f], fs) == ReadContexts(files, fs) + [Block(f, ContentOf(fs, f))]
  {
    var r, r' := ReadContexts(files + [f], fs), ReadContexts(files, fs) + [Block(f, ContentOf(fs, f))];
    assert |r| == |r'|;
    forall k | 0 <= k < |r| ensures r[k] == r'[k] {
      assert (files + [f])[k] == if k < |files| then files[k] else f;
    }
  }

  /** Two existing files: the introduction, the first block, a newline, the second block. */
  lemma TwoFiles(a: string, b: string, fs: map<string, string>)
    requires a in fs && b in fs
    ensures PrepareContext(Some([a, b]), fs)
            == Prepared(Intro + (Block(a, fs[a]) + "\n" + Block(b, fs[b])), [])
  {
    var blocks := ReadContexts([a, b], fs);
    assert blocks == [Block(a, fs[a]), Block(b, fs[b])];
    assert Join(blocks, "\n") == Block(a, fs[a]) + "\n" + Join(blocks[1..], "\n");
    assert Join(blocks[1..], "\n") == Block(b, fs[b]);
  }

  /**
   * Two missing files still give the introduction and two empty blocks,
   * with one warning each, and not "".
   */
  lemma AllMissingKeepsBlocks(a: string, b: string, fs: map<string, string>)
    requires a !in fs && b !in fs
    ensures PrepareContext(Some([a, b]), fs).text == Intro + (Block(a, "") + "\n" + Block(b, ""))
    ensures PrepareContext(Some([a, b]), fs).text != ""
    ensures PrepareContext(Some([a, b]), fs).warnings == [Warning(a), Warning(b)]
  {
    var blocks := ReadContexts([a, b], fs);
    assert blocks == [Block(a, ""), Block(b, "")];
    assert Join(blocks, "\n") == Block(a, "") + "\n" + Join(blocks[1..], "\n");
    assert Join(blocks[1..], "\n") == Block(b, "");
    assert [a, b][1..] == [b];
    assert Warnings([b], fs) == [Warning(b)] + Warnings([], fs);
  }

  // ---------------------------------------------------------------------
  // Context that leaves missing files out

  /** The paths that exist, in order. */
  function Present(files: seq<string>, fs: map<string, string>): (r: seq<string>)
    ensures |r| <= |files|
    ensures forall k :: 0 <= k < |r| ==> r[k] in fs
    ensures forall k :: 0 <= k < |files| && files[k] in fs ==> files[k] in r
  {
    if files == [] then []
    else
      var rest := Present(files[1..], fs);
      assert forall k :: 1 <= k < |files| ==> files[1..][k - 1] == files[k];
      if files[0] in fs then [files[0]] + rest else rest
  }

  /**
   * Context that omits every missing file (still logging its warning) and
   * is "" when no file exists.
   */
  function PrepareContextOmitting(files: Option<seq<string>>, fs: map<string, string>): (r: Prepared)
    ensures files.None? ==> r == Prepared("", [])
    ensures files.Some? ==> r.warnings == Warnings(files.value, fs)
  {
    match files
    case None => Prepared("", [])
    case Some(paths) =>
      var present := Present(paths, fs);
      if present == [] then Prepared("", Warnings(paths, fs))
      else Prepared(Intro + Join(ReadContexts(present, fs), "\n"), Warnings(paths, fs))
  }

  lemma {:induction false} PresentNone(files: seq<string>, fs: map<string, string>)
    requires forall k :: 0 <= k < |files| ==> files[k] !in fs
    ensures Present(files, fs) == []
  {
    if files != [] {
      assert forall k :: 0 <= k < |files[1..]| ==> files[1..][k] == files[k + 1];
      PresentNone(files[1..], fs);
    }
  }

  lemma {:induction false} PresentAll(files: seq<string>, fs: map<string, string>)
    requires forall k :: 0 <= k < |files| ==> files[k] in fs
    ensures Present(files, fs) == files
  {
    if files != [] {
      assert forall k :: 0 <= k < |files[1..]| ==> files[1..][k] == files[k + 1];
      PresentAll(files[1..], fs);
    }
  }

  /** With every file missing (or no file at all) the context is "". */
  lemma OmittingAllMissing(files: seq<string>, fs: map<string, string>)
    requires forall k :: 0 <= k < |files| ==> files[k] !in fs
    ensures PrepareContextOmitting(Some(files), fs).text == ""
    ensures PrepareContextOmitting(Some(files), fs).warnings == seq(|files|, k requires 0 <= k < |files| => Warning(files[k]))
  {
    PresentNone(files, fs);
    WarningsAllMissing(files, fs);
  }

  /** With every file present, leaving missing files out changes nothing. */
  lemma OmittingAllPresent(files: seq<string>, fs: map<string, string>)
    requires files != []
    requires forall k :: 0 <= k < |files| ==> files[k] in fs
    ensures PrepareContextOmitting(Some(files), fs) == PrepareContext(Some(files), fs)
  {
    PresentAll(files, fs);
  }

  /** An existing file then a missing one: only the first file's block, and one warning. */
  lemma OmittingMixed(a: string, b: string, fs: map<string, string>)
    requires a in fs && b !in fs
    ensures PrepareContextOmitting(Some([a, b]), fs) == Prepared(Intro + Block(a, fs[a]), [Warning(b)])
  {
    assert [a, b][1..] == [b];
    assert Present([b], fs) == [];
    assert Present([a, b], fs) == [a];
    assert ReadContexts([a], fs) == [Block(a, fs[a])];
    assert Warnings([b], fs) == [Warning(b)] + Warnings([], fs);
  }
}

=== FILE: conversions.dfy ===
/**
 * The three refactors that convert an RSpec spec into a Minitest test:
 * each runs the spec first, generates the test, runs it, and succeeds when
 * the test passes with the same example, failure and pending counts.
 */
module Conversions {
  import opened Wrappers
  import opened Text
  import opened Chat
  import opened Files
  import opened TestRunResult
  import opened TestRunDiffReport
  import opened Runs
  import TestRunners
  import FileProcessor
  import Refactors
  import LegacyRefactor

  /** `default_output_path`: "_spec.rb" becomes "_test.rb", then "spec/" becomes "test/". */
  function TestPathFor(inputFile: string): string {
    ReplaceAll(ReplaceAll(inputFile, "_spec.rb", "_test.rb"), "spec/", "test/")
  }

  /** A spec directly under `spec/` maps to the test of the same name under `test/`. */
  lemma SpecDirToTestDir(name: string)
    requires '_' !in name && '/' !in name
    ensures TestPathFor("spec/" + name + "_spec.rb") == "test/" + name + "_test.rb"
  {
    var a := "spec/" + name;
    assert '_' !in a by {
      assert forall k :: 0 <= k < |a| ==> a[k] == if k < 5 then "spec/"[k] else name[k - 5];
    }
    ReplaceTrailing(a, "_spec.rb", "_test.rb");
    var b := name + "_test.rb";
    assert a + "_test.rb" == "spec/" + b;
    ReplaceAllHead("spec/", b, "test/");
    NoSlashNoSpecDir(name, "_test.rb");
    ReplaceAllAbsent(b, "spec/", "test/");
  }

  lemma NoSlashNoSpecDir(name: string, tail: string)
    requires '/' !in name && '/' !in tail
    ensures !Contains(name + tail, "spec/")
  {
    var s := name + tail;
    assert '/' !in s by {
      assert forall k :: 0 <= k < |s| ==> s[k] == if k < |name| then name[k] else tail[k - |name|];
    }
    forall i | 0 <= i <= |s| ensures !OccursAt(s, i, "spec/") {
      if i + 5 <= |s| {
        assert s[i..i + 5][4] == s[i + 4] != '/';
      }
    }
  }

  /** The block the Rails conversion passes to `process!`: both kinds of fence removed. */
  const StripBlock: string -> string := (c: string) => Refactors.StripTicks(c)

  /** The block the other two conversions pass: every "```" removed. */
  function DropFences(content: string): (r: string)
    ensures !Contains(r, Refactors.Fence)
  {
    Refactors.FenceFree(content);
    ReplaceAll(content, Refactors.Fence, "")
  }

  // ---------------------------------------------------------------------
  // The Rails conversion built on the newer base class

  /**
   * `Rails::Minitest::RspecToMinitest#run`: a failing spec stops the run;
   * `process!` strips the fences; any error it raises makes the run false;
   * a declined overwrite does not stop the run; the output path is then
   * tested and compared with the spec.
   */
  function RailsConversion(s: Refactors.Setup, files: map<string, string>, inputContent: Option<string>,
                           env: Refactors.Env, sh: Shell): (r: RunStep)
  {
    var spec := SpecRun(sh, s.inputFile, files);
    match Failed(spec)
    case Failure(e) => RunStep(Raised(e), None, files)
    case Success(failed) =>
      if failed then RunStep(Verdict(false), Some(RSpecFailed), files)
      else
        var step := Refactors.ProcessSpec(s, files, inputContent, env, Some(StripBlock), true);
        var after := AfterProcess(files, step);
        if step.outcome.Failure? then RunStep(Verdict(false), step.message, after)
        else
          match step.outputPath
          case None => RunStep(Raised(NilPath), step.message, after)
          case Some(path) =>
            var c := Compare(spec, MinitestRun(sh, TestRunners.DefaultMinitestTemplate, path, after), after);
            RunStep(c.result, Recorded(step.message, c.message), after)
  }

  /** `run`, step by step on the refactor object and the file system. */
  method RailsRspecToMinitest(r: Refactors.BaseRefactor, fs: FileSystem, env: Refactors.Env, sh: Shell)
    returns (result: RunResult)
    requires r.Valid()
    modifies r, fs
    ensures r.Valid()
    ensures var step := RailsConversion(r.setup, old(fs.files), old(r.inputContent), env, sh);
            result == step.result && fs.files == step.files
            && r.failedMessage == Recorded(old(r.failedMessage), step.message)
  {
    var spec := SpecRun(sh, r.setup.inputFile, fs.files);
    var specFailed := Failed(spec);
    if specFailed.Failure? {
      return Raised(specFailed.error);
    }
    if specFailed.value {
      r.failedMessage := Some(RSpecFailed);
      return Verdict(false);
    }
    var processed := r.Process(fs, env, Some(StripBlock), true);
    if processed.Failure? {
      return Verdict(false);
    }
    var path := r.OutputFilePath();
    if path.value.None? {
      return Raised(NilPath);
    }
    var test := MinitestRun(sh, TestRunners.DefaultMinitestTemplate, path.value.value, fs.files);
    if Failed(test).value {
      r.failedMessage := Some(TestFailed);
      return Verdict(false);
    }
    if NoDifferences(Report(spec, test)) {
      return Verdict(true);
    }
    r.failedMessage := Some(RunsDiffer);
    return Verdict(false);
  }

  /** A spec that fails stops the run: false, its reason recorded, nothing generated or written. */
  lemma RailsSpecFailureStops(s: Refactors.Setup, files: map<string, string>, inputContent: Option<string>,
                              env: Refactors.Env, sh: Shell)
    requires Failed(SpecRun(sh, s.inputFile, files)) == Success(true)
    ensures RailsConversion(s, files, inputContent, env, sh) == RunStep(Verdict(false), Some(RSpecFailed), files)
  {
  }

  /**
   * The run is true exactly when the spec passes, `process!` succeeds, and
   * the test at the output path, run on the files as `process!` left them,
   * passes with the spec's counts.
   */
  lemma RailsConversionTrueIff(s: Refactors.Setup, files: map<string, string>, inputContent: Option<string>,
                               env: Refactors.Env, sh: Shell)
    ensures var spec := SpecRun(sh, s.inputFile, files);
            var step := Refactors.ProcessSpec(s, files, inputContent, env, Some(StripBlock), true);
            var after := AfterProcess(files, step);
            RailsConversion(s, files, inputContent, env, sh).result == Verdict(true) <==>
              Failed(spec) == Success(false) && step.outcome.Success? && step.outputPath.Some?
              && !Failed(MinitestRun(sh, TestRunners.DefaultMinitestTemplate, step.outputPath.value, after)).value
              && NoDifferences(Report(spec, MinitestRun(sh, TestRunners.DefaultMinitestTemplate, step.outputPath.value, after)))
  {
  }

  /**
   * Declining to overwrite does not end the run: the existing output is
   * left as it was and is the test that runs and is compared.
   */
  lemma RailsDeclinedStillCompared(s: Refactors.Setup, files: map<string, string>, inputContent: Option<string>,
                                   env: Refactors.Env, sh: Shell)
    requires Failed(SpecRun(sh, s.inputFile, files)) == Success(false)
    requires Refactors.ProcessSpec(s, files, inputContent, env, Some(StripBlock), true).outcome == Success(Refactors.Declined)
    ensures var path := Refactors.DetermineOutputFilePath(s).value;
            var r := RailsConversion(s, files, inputContent, env, sh);
            path.Some? && path.value in files && r.files == files
            && r.result == Compare(SpecRun(sh, s.inputFile, files),
                                   MinitestRun(sh, TestRunners.DefaultMinitestTemplate, path.value, files), files).result
  {
  }

  /**
   * With its own default output path the output path is never `nil`, so
   * the only error the run lets escape is `failed?` raising on the spec's
   * error count.
   */
  lemma RailsRaisesOnlyOnSpecErrors(s: Refactors.Setup, files: map<string, string>, inputContent: Option<string>,
                                    env: Refactors.Env, sh: Shell)
    requires s.defaultOutputPath == Some(TestPathFor(s.inputFile))
    ensures RailsConversion(s, files, inputContent, env, sh).result.Raised? <==>
              Failed(SpecRun(sh, s.inputFile, files)).Failure?
  {
    var step := Refactors.ProcessSpec(s, files, inputContent, env, Some(StripBlock), true);
    if Failed(SpecRun(sh, s.inputFile, files)) == Success(false) && step.outcome.Success? {
      assert step.outputPath.Some?;
    }
  }

  // ---------------------------------------------------------------------
  // The two conversions with their own processor

  /**
   * The run of `RspecToMinitestRails` and of the older `RspecToMinitest`:
   * a failing spec stops it; an existing output needs `decision` (whose
   * error escapes); generation drops every fence, and its failure or empty
   * output makes the run false; then the generated test runs and is
   * compared with the spec.
   */
  function Conversion(inputFile: string, messages: seq<Message>, processing: FileProcessor.Options,
                      decision: Result<bool, string>, backend: FileProcessor.ChatRequest -> OpenAIResponse,
                      sh: Shell, files: map<string, string>): (r: RunStep)
  {
    var spec := SpecRun(sh, inputFile, files);
    match Failed(spec)
    case Failure(e) => RunStep(Raised(e), None, files)
    case Success(failed) =>
      if failed then RunStep(Verdict(false), Some(RSpecFailed), files)
      else
        var path := TestPathFor(inputFile);
        if path in files && decision != Success(true) then
          (match decision
           case Failure(e) => RunStep(Raised(e), None, files)
           case Success(_) => RunStep(Verdict(false), Some(Refactors.SkippedExists), files))
        else ConvertAndCompare(spec, FileProcessor.Processor(messages, Some(path), processing), backend, sh, files)
  }

  /** Generation into the processor's output path, then the test run and the comparison. */
  function ConvertAndCompare(spec: TestRunResult, p: FileProcessor.Processor,
                             backend: FileProcessor.ChatRequest -> OpenAIResponse,
                             sh: Shell, files: map<string, string>): (r: RunStep)
    requires p.outputPath.Some?
  {
    var run := FileProcessor.ProcessSpec(p, backend, Some(DropFences));
    var after := if run.written.Some? then files[p.outputPath.value := run.written.value] else files;
    match run.outcome
    case Failure(_) => RunStep(Verdict(false), Some(Refactors.RequestFailed), after)
    case Success(processed) =>
      if processed.content.None? || |processed.content.value| == 0 then
        RunStep(Verdict(false), Some(Refactors.NoOutputGenerated), after)
      else Compare(spec, MinitestRun(sh, TestRunners.DefaultMinitestTemplate, p.outputPath.value, after), after)
  }

  /** `RspecToMinitestRails#run`, on the refactor object (its failure reasons) and the file system. */
  method RspecToMinitestRails(r: Refactors.BaseRefactor, fs: FileSystem, messages: seq<Message>,
                              env: Refactors.Env, sh: Shell)
    returns (result: RunResult)
    modifies r, fs
    ensures r.outputPathMemo == old(r.outputPathMemo) && r.inputContent == old(r.inputContent)
    ensures var step := Conversion(r.setup.inputFile, messages, r.setup.options.processing,
                                   Refactors.OverwriteDecision(r.setup.options.overwrite, env.answer),
                                   env.backend, sh, old(fs.files));
            result == step.result && fs.files == step.files
            && r.failedMessage == Recorded(old(r.failedMessage), step.message)
  {
    var spec := SpecRun(sh, r.setup.inputFile, fs.files);
    var specFailed := Failed(spec);
    if specFailed.Failure? {
      return Raised(specFailed.error);
    }
    if specFailed.value {
      r.failedMessage := Some(RSpecFailed);
      return Verdict(false);
    }
    var path := TestPathFor(r.setup.inputFile);
    var p := FileProcessor.Processor(messages, Some(path), r.setup.options.processing);
    if FileProcessor.OutputExists(p, fs) {
      var yes := r.OverwriteExistingOutput(env.answer);
      if yes.Failure? {
        return Raised(yes.error);
      }
      if !yes.value {
        return Verdict(false);
      }
    }
    result := GenerateAndCompare(r, spec, p, fs, env.backend, sh);
  }

  /** The part of `RspecToMinitestRails#run` after the overwrite check. */
  method GenerateAndCompare(r: Refactors.BaseRefactor, spec: TestRunResult, p: FileProcessor.Processor, fs: FileSystem,
                            backend: FileProcessor.ChatRequest -> OpenAIResponse, sh: Shell)
    returns (result: RunResult)
    requires p.outputPath.Some?
    modifies r, fs
    ensures r.outputPathMemo == old(r.outputPathMemo) && r.inputContent == old(r.inputContent)
    ensures var step := ConvertAndCompare(spec, p, backend, sh, old(fs.files));
            result == step.result && fs.files == step.files
            && r.failedMessage == Recorded(old(r.failedMessage), step.message)
  {
    var processed := FileProcessor.Process(p, fs, backend, Some(DropFences));
    if processed.Failure? {
      r.failedMessage := Some(Refactors.RequestFailed);
      return Verdict(false);
    }
    var content := processed.value.content;
    if content.None? || |content.value| == 0 {
      r.failedMessage := Some(Refactors.NoOutputGenerated);
      return Verdict(false);
    }
    var test := MinitestRun(sh, TestRunners.DefaultMinitestTemplate, p.outputPath.value, fs.files);
    if Failed(test).value {
      r.failedMessage := Some(TestFailed);
      return Verdict(false);
    }
    if NoDifferences(Report(spec, test)) {
      return Verdict(true);
    }
    r.failedMessage := Some(RunsDiffer);
    return Verdict(false);
  }

  /**
   * The older `RspecToMinitest#run`: the same steps, asking "y"/"Y" before
   * overwriting and recording no failure reason at all.
   */
  method LegacyRspecToMinitest(inputFile: string, messages: seq<Message>, processing: FileProcessor.Options,
                               fs: FileSystem, answer: Option<string>,
                               backend: FileProcessor.ChatRequest -> OpenAIResponse, sh: Shell)
    returns (result: RunResult)
    modifies fs
    ensures var step := Conversion(inputFile, messages, processing, LegacyRefactor.CanOverwrite(answer),
                                   backend, sh, old(fs.files));
            result == step.result && fs.files == step.files
  {
    var spec := SpecRun(sh, inputFile, fs.files);
    var specFailed := Failed(spec);
    if specFailed.Failure? {
      return Raised(specFailed.error);
    }
    if specFailed.value {
      return Verdict(false);
    }
    var path := TestPathFor(inputFile);
    var p := FileProcessor.Processor(messages, Some(path), processing);
    if FileProcessor.OutputExists(p, fs) {
      var yes := LegacyRefactor.CanOverwrite(answer);
      if yes.Failure? {
        return Raised(yes.error);
      }
      if !yes.value {
        return Verdict(false);
      }
    }
    var processed := FileProcessor.Process(p, fs, backend, Some(DropFences));
    if processed.Failure? {
      return Verdict(false);
    }
    var content := processed.value.content;
    if content.None? || |content.value| == 0 {
      return Verdict(false);
    }
    var test := MinitestRun(sh, TestRunners.DefaultMinitestTemplate, path, fs.files);
    if Failed(test).value {
      return Verdict(false);
    }
    return Verdict(NoDifferences(Report(spec, test)));
  }

  /**
   * A true conversion leaves a test at the output path, generated with no
   * fence in it, that passed with the spec's counts.
   */
  lemma ConversionTrue(inputFile: string, messages: seq<Message>, processing: FileProcessor.Options,
                       decision: Result<bool, string>, backend: FileProcessor.ChatRequest -> OpenAIResponse,
                       sh: Shell, files: map<string, string>)
    requires Conversion(inputFile, messages, processing, decision, backend, sh, files).result == Verdict(true)
    ensures var r := Conversion(inputFile, messages, processing, decision, backend, sh, files);
            var path := TestPathFor(inputFile);
            var spec := SpecRun(sh, inputFile, files);
            var test := MinitestRun(sh, TestRunners.DefaultMinitestTemplate, path, r.files);
            Failed(spec) == Success(false)
            && path in r.files && r.files[path] != [] && !Contains(r.files[path], Refactors.Fence)
            && !Failed(test).value && NoDifferences(Report(spec, test))
            && r.message.None?
  {
    var p := FileProcessor.Processor(messages, Some(TestPathFor(inputFile)), processing);
    if p.options.reviewPrompt {
      FileProcessor.ReviewPromptSkips(p, backend, Some(DropFences));
    } else {
      FileProcessor.ProcessOutcome(p, backend, Some(DropFences));
    }
  }

  /** An existing output the answer does not allow to overwrite: false, and nothing generated or written. */
  lemma ConversionDeclined(inputFile: string, messages: seq<Message>, processing: FileProcessor.Options,
                           backend: FileProcessor.ChatRequest -> OpenAIResponse,
                           sh: Shell, files: map<string, string>)
    requires Failed(SpecRun(sh, inputFile, files)) == Success(false)
    requires TestPathFor(inputFile) in files
    ensures Conversion(inputFile, messages, processing, Success(false), backend, sh, files)
            == RunStep(Verdict(false), Some(Refactors.SkippedExists), files)
  {
  }

  /**
   * Whenever the overwrite option does not settle the question, the older
   * and the newer conversion return the same result and leave the same files.
   */
  lemma LegacyAgreesWithRails(inputFile: string, messages: seq<Message>, processing: FileProcessor.Options,
                              overwrite: Option<string>, answer: Option<string>,
                              backend: FileProcessor.ChatRequest -> OpenAIResponse,
                              sh: Shell, files: map<string, string>)
    requires Refactors.OverwriteOption(overwrite).None?
    ensures Conversion(inputFile, messages, processing, LegacyRefactor.CanOverwrite(answer), backend, sh, files)
            == Conversion(inputFile, messages, processing, Refactors.OverwriteDecision(overwrite, answer), backend, sh, files)
  {
    LegacyRefactor.AgreesWithNewerWhenAsked(overwrite, answer);
  }
}

=== FILE: file_processor.dfy ===
/**
 * The file processor: it sends a prompt's chat messages to the backend,
 * asks it to continue while a reply is cut short by the token limit and
 * attempts remain, stitches the pieces together, and writes the (optionally
 * post-processed) result to the output file.
 */
module FileProcessor {
  import opened Wrappers
  import opened Text
  import opened Chat
  import opened Files

  /** The options the processor reads; absent entries are `None`. */
  datatype Options = Options(reviewPrompt: bool, aiMaxAttempts: Option<int>, aiModel: Option<string>,
                             aiTemperature: Option<string>, aiMaxTokens: Option<int>)

  /** The parameters of one chat call. */
  datatype ChatRequest = ChatRequest(model: string, messages: seq<Message>, temperature: string, maxTokens: int)

  /** What generation produced: the content, the finish reason and the token usage. */
  datatype Generated = Generated(content: Option<string>, finishReason: Option<string>, usage: Option<Usage>)

  /** The outcome of a generation and every request it sent, in order. */
  datatype GenerationRun = GenerationRun(outcome: Result<Generated, string>, requests: seq<ChatRequest>)

  /** `ai_max_attempts`: the option, or 1. */
  function AiMaxAttempts(options: Options): (r: int)
    ensures options.aiMaxAttempts.None? ==> r == 1
    ensures options.aiMaxAttempts.Some? ==> r == options.aiMaxAttempts.value
  {
    options.aiMaxAttempts.GetOr(1)
  }

  /** The chat call for `messages`, with the default model, temperature and token limit where an option is absent. */
  function RequestFor(messages: seq<Message>, options: Options): (r: ChatRequest)
    ensures r.messages == messages
    ensures options.aiModel.None? ==> r.model == "gpt-4-turbo-preview"
    ensures options.aiTemperature.None? ==> r.temperature == "0.7"
    ensures options.aiMaxTokens.None? ==> r.maxTokens == 1500
  {
    ChatRequest(options.aiModel.GetOr("gpt-4-turbo-preview"), messages,
                options.aiTemperature.GetOr("0.7"), options.aiMaxTokens.GetOr(1500))
  }

  /** The assistant messages' contents joined with no separator (a `nil` content joins as ""). */
  function AssistantText(messages: seq<Message>): string {
    if messages == [] then ""
    else (if messages[0].role == AssistantRole then messages[0].content.GetOr("") else "") + AssistantText(messages[1..])
  }

  /** The earlier text followed by the last content, or the last content alone when there is no earlier text. */
  function Stitch(previous: string, content: Option<string>): (r: Option<string>)
    ensures previous == "" ==> r == content
    ensures previous != "" ==> r.Some? && StartsWith(r.value, previous) && r.value[|previous|..] == content.GetOr("")
  {
    if |previous| > 0 then
      var s := previous + content.GetOr("");
      assert s[..|previous|] == previous && s[|previous|..] == content.GetOr("");
      Some(s)
    else content
  }

  /** The pair a continuation appends: the partial reply, then a request to continue. */
  function ContinuationPair(content: Option<string>): seq<Message> {
    [Message(AssistantRole, content), Message(UserRole, Some("Continue"))]
  }

  /**
   * `generate_next_message`: one chat call; an error response raises; a
   * reply cut short (`"length"`) with attempts left is continued with one
   * attempt fewer; otherwise the earlier assistant turns and this reply make
   * the content, with this reply's finish reason and usage.
   */
  function GenerateNextMessage(messages: seq<Message>, options: Options, attemptsLeft: int,
                               backend: ChatRequest -> OpenAIResponse): (run: GenerationRun)
    decreases if attemptsLeft > 0 then attemptsLeft else 0
  {
    var request := RequestFor(messages, options);
    var response := backend(request);
    if response.error.Some? then
      GenerationRun(Failure(OpenAIErrorMessage(response.error.value)), [request])
    else
      var content := FirstContent(response);
      var reason := FirstFinishReason(response);
      if reason == Some("length") && attemptsLeft > 0 then
        var next := GenerateNextMessage(messages + ContinuationPair(content), options, attemptsLeft - 1, backend);
        GenerationRun(next.outcome, [request] + next.requests)
      else
        GenerationRun(Success(Generated(Stitch(AssistantText(messages), content), reason, response.usage)), [request])
  }

  /** At least one call is made, and at most one more than the attempts allowed. */
  lemma {:induction false} CallsBounded(messages: seq<Message>, options: Options, attemptsLeft: int,
                                        backend: ChatRequest -> OpenAIResponse)
    ensures var run := GenerateNextMessage(messages, options, attemptsLeft, backend);
            1 <= |run.requests| <= (if attemptsLeft > 0 then attemptsLeft else 0) + 1
    decreases if attemptsLeft > 0 then attemptsLeft else 0
  {
    var request := RequestFor(messages, options);
    var response := backend(request);
    if response.error.None? && FirstFinishReason(response) == Some("length") && attemptsLeft > 0 {
      CallsBounded(messages + ContinuationPair(FirstContent(response)), options, attemptsLeft - 1, backend);
    }
  }

  /**
   * The conversation grows by exactly one pair per continuation: the first
   * call sends the given messages, and each later call sends the previous
   * call's messages, the previous reply as an assistant turn, and
   * "Continue". Only an error-free reply cut short is continued.
   */
  lemma {:induction false} ContinuationProtocol(messages: seq<Message>, options: Options, attemptsLeft: int,
                                                backend: ChatRequest -> OpenAIResponse)
    ensures var run := GenerateNextMessage(messages, options, attemptsLeft, backend);
            run.requests != [] && run.requests[0] == RequestFor(messages, options)
    ensures var run := GenerateNextMessage(messages, options, attemptsLeft, backend);
            forall k :: 0 <= k < |run.requests| - 1 ==>
              backend(run.requests[k]).error.None?
              && FirstFinishReason(backend(run.requests[k])) == Some("length")
              && run.requests[k + 1] == RequestFor(run.requests[k].messages + ContinuationPair(FirstContent(backend(run.requests[k]))), options)
    decreases if attemptsLeft > 0 then attemptsLeft else 0
  {
    var request := RequestFor(messages, options);
    var response := backend(request);
    if response.error.None? && FirstFinishReason(response) == Some("length") && attemptsLeft > 0 {
      var m' := messages + ContinuationPair(FirstContent(response));
      ContinuationProtocol(m', options, attemptsLeft - 1, backend);
      var next := GenerateNextMessage(m', options, attemptsLeft - 1, backend);
      var reqs := [request] + next.requests;
      forall k | 0 <= k < |reqs| - 1
        ensures backend(reqs[k]).error.None? && FirstFinishReason(backend(reqs[k])) == Some("length")
                && reqs[k + 1] == RequestFor(reqs[k].messages + ContinuationPair(FirstContent(backend(reqs[k]))), options)
      {
        if k > 0 {
          assert reqs[k] == next.requests[k - 1] && reqs[k + 1] == next.requests[k];
        }
      }
    }
  }

  /** The text of the replies to all requests but the last, `nil` counting as "". */
  function EarlierReplies(requests: seq<ChatRequest>, backend: ChatRequest -> OpenAIResponse): string {
    if |requests| <= 1 then "" else FirstContent(backend(requests[0])).GetOr("") + EarlierReplies(requests[1..], backend)
  }

  lemma {:induction false} AssistantTextAppend(messages: seq<Message>, content: Option<string>)
    ensures AssistantText(messages + ContinuationPair(content)) == AssistantText(messages) + content.GetOr("")
  {
    if messages == [] {
      assert messages + ContinuationPair(content) == ContinuationPair(content);
      assert ContinuationPair(content)[1..] == [Message(UserRole, Some("Continue"))];
      assert [Message(UserRole, Some("Continue"))][1..] == [];
    } else {
      assert (messages + ContinuationPair(content))[1..] == messages[1..] + ContinuationPair(content);
      AssistantTextAppend(messages[1..], content);
    }
  }

  /** The first call's reply is continued: it is error-free, cut short, and attempts remain. */
  predicate Continues(messages: seq<Message>, options: Options, attemptsLeft: int, backend: ChatRequest -> OpenAIResponse) {
    var response := backend(RequestFor(messages, options));
    response.error.None? && FirstFinishReason(response) == Some("length") && attemptsLeft > 0
  }

  /** The conversation the continuation of the first reply sends. */
  function Continued(messages: seq<Message>, options: Options, backend: ChatRequest -> OpenAIResponse): seq<Message> {
    messages + ContinuationPair(FirstContent(backend(RequestFor(messages, options))))
  }

  lemma ContinuedRun(messages: seq<Message>, options: Options, attemptsLeft: int, backend: ChatRequest -> OpenAIResponse)
    requires Continues(messages, options, attemptsLeft, backend)
    ensures var next := GenerateNextMessage(Continued(messages, options, backend), options, attemptsLeft - 1, backend);
            GenerateNextMessage(messages, options, attemptsLeft, backend)
            == GenerationRun(next.outcome, [RequestFor(messages, options)] + next.requests)
  {
  }

  lemma FinalRun(messages: seq<Message>, options: Options, attemptsLeft: int, backend: ChatRequest -> OpenAIResponse)
    requires !Continues(messages, options, attemptsLeft, backend)
    ensures var run := GenerateNextMessage(messages, options, attemptsLeft, backend);
            var response := backend(RequestFor(messages, options));
            run.requests == [RequestFor(messages, options)]
            && run.outcome == if response.error.Some? then Failure(OpenAIErrorMessage(response.error.value))
                              else Success(Generated(Stitch(AssistantText(messages), FirstContent(response)),
                                                     FirstFinishReason(response), response.usage))
  {
  }

  /** The reply to the last request of a run. */
  function LastReply(run: GenerationRun, backend: ChatRequest -> OpenAIResponse): OpenAIResponse
    requires run.requests != []
  {
    backend(run.requests[|run.requests| - 1])
  }

  /**
   * The outcome comes from the last call alone: it fails iff that reply is
   * an error, with that error's message; otherwise its finish reason and
   * usage are returned.
   */
  lemma {:induction false} OutcomeOfLastCall(messages: seq<Message>, options: Options, attemptsLeft: int,
                                             backend: ChatRequest -> OpenAIResponse)
    ensures var run := GenerateNextMessage(messages, options, attemptsLeft, backend);
            run.requests != [] &&
            (run.outcome.Failure? <==> LastReply(run, backend).error.Some?)
            && (run.outcome.Failure? ==> run.outcome.error == OpenAIErrorMessage(LastReply(run, backend).error.value))
            && (run.outcome.Success? ==>
                  run.outcome.value.finishReason == FirstFinishReason(LastReply(run, backend))
                  && run.outcome.value.usage == LastReply(run, backend).usage)
    decreases if attemptsLeft > 0 then attemptsLeft else 0
  {
    if Continues(messages, options, attemptsLeft, backend) {
      ContinuedRun(messages, options, attemptsLeft, backend);
      var m' := Continued(messages, options, backend);
      OutcomeOfLastCall(m', options, attemptsLeft - 1, backend);
      var next := GenerateNextMessage(m', options, attemptsLeft - 1, backend);
      LastOfCons(RequestFor(messages, options), next.requests);
    } else {
      FinalRun(messages, options, attemptsLeft, backend);
    }
  }

  lemma LastOfCons<T>(x: T, s: seq<T>)
    requires s != []
    ensures ([x] + s)[|[x] + s| - 1] == s[|s| - 1]
  {
  }

  /**
   * A successful run's content is the given conversation's assistant turns,
   * every earlier partial reply and the last reply's content, in order
   * (the last content alone when everything before it is empty).
   */
  lemma {:induction false} ContentOfRun(messages: seq<Message>, options: Options, attemptsLeft: int,
                                        backend: ChatRequest -> OpenAIResponse)
    ensures var run := GenerateNextMessage(messages, options, attemptsLeft, backend);
            run.requests != [] &&
            (run.outcome.Success? ==>
               run.outcome.value.content
               == Stitch(AssistantText(messages) + EarlierReplies(run.requests, backend), FirstContent(LastReply(run, backend))))
    decreases if attemptsLeft > 0 then attemptsLeft else 0
  {
    if Continues(messages, options, attemptsLeft, backend) {
      ContinuedRun(messages, options, attemptsLeft, backend);
      var c := FirstContent(backend(RequestFor(messages, options)));
      var m' := Continued(messages, options, backend);
      ContentOfRun(m', options, attemptsLeft - 1, backend);
      var next := GenerateNextMessage(m', options, attemptsLeft - 1, backend);
      LastOfCons(RequestFor(messages, options), next.requests);
      EarlierRepliesCons(RequestFor(messages, options), next.requests, backend);
      AssistantTextAppend(messages, c);
      Reassociate(AssistantText(messages), c.GetOr(""), EarlierReplies(next.requests, backend));
    } else {
      FinalRun(messages, options, attemptsLeft, backend);
      assert EarlierReplies([RequestFor(messages, options)], backend) == "";
      assert AssistantText(messages) + "" == AssistantText(messages);
    }
  }

  lemma EarlierRepliesCons(request: ChatRequest, requests: seq<ChatRequest>, backend: ChatRequest -> OpenAIResponse)
    requires requests != []
    ensures EarlierReplies([request] + requests, backend)
            == FirstContent(backend(request)).GetOr("") + EarlierReplies(requests, backend)
  {
    assert ([request] + requests)[1..] == requests;
  }

  lemma Reassociate(a: string, b: string, c: string)
    ensures (a + b) + c == a + (b + c)
  {
  }

  /** A reply cut short is not continued once the attempts are used up: the partial content is returned. */
  lemma NoAttemptsLeft(messages: seq<Message>, options: Options, attemptsLeft: int,
                       backend: ChatRequest -> OpenAIResponse)
    requires attemptsLeft <= 0
    ensures |GenerateNextMessage(messages, options, attemptsLeft, backend).requests| == 1
  {
  }

  // ---------------------------------------------------------------------
  // Processing one file

  /** A processor: the prompt's chat messages, the output path if any, and the options. */
  datatype Processor = Processor(messages: seq<Message>, outputPath: Option<string>, options: Options)

  /** What `process!` returns: the content, the finish reason (or a note) and the usage. */
  datatype Processed = Processed(content: Option<string>, finishReason: Option<string>, usage: Option<Usage>)

  /** The outcome of `process!`, the chat calls it made, and what it wrote to the output path. */
  datatype ProcessRun = ProcessRun(outcome: Result<Processed, string>, requests: seq<ChatRequest>, written: Option<string>)

  const ReviewSkipped := "Skipped as review prompt was requested"

  /** `output_exists?`: there is an output path and a file at it. */
  predicate OutputExists(p: Processor, fs: FileSystem)
    reads fs
  {
    p.outputPath.Some? && fs.Exists(p.outputPath.value)
  }

  /** The content after the caller's block, when one is given. */
  function PostProcess(content: string, block: Option<string -> string>): string {
    match block
    case None => content
    case Some(f) => f(content)
  }

  /**
   * What `process!` does: a review of the prompt returns a note and calls
   * nothing; otherwise the content generated with the attempt budget,
   * post-processed and written to the output path when it is non-empty.
   */
  function ProcessSpec(p: Processor, backend: ChatRequest -> OpenAIResponse, block: Option<string -> string>): (r: ProcessRun)
    ensures r.written.Some? ==> p.outputPath.Some?
  {
    if p.options.reviewPrompt then ProcessRun(Success(Processed(None, Some(ReviewSkipped), None)), [], None)
    else
      var run := GenerateNextMessage(p.messages, p.options, AiMaxAttempts(p.options), backend);
      match run.outcome
      case Failure(e) => ProcessRun(Failure(e), run.requests, None)
      case Success(g) =>
        if g.content.Some? && |g.content.value| > 0 then
          var processed := PostProcess(g.content.value, block);
          ProcessRun(Success(Processed(Some(processed), g.finishReason, g.usage)), run.requests,
                     if p.outputPath.Some? then Some(processed) else None)
        else ProcessRun(Success(Processed(None, g.finishReason, g.usage)), run.requests, None)
  }

  /** `process!`: the outcome of `ProcessSpec`, and the output file holds what it wrote. */
  method Process(p: Processor, fs: FileSystem, backend: ChatRequest -> OpenAIResponse, block: Option<string -> string>)
    returns (r: Result<Processed, string>)
    modifies fs
    ensures r == ProcessSpec(p, backend, block).outcome
    ensures ProcessSpec(p, backend, block).written.Some? ==>
              fs.files == old(fs.files)[p.outputPath.value := ProcessSpec(p, backend, block).written.value]
    ensures ProcessSpec(p, backend, block).written.None? ==> fs.files == old(fs.files)
  {
    if p.options.reviewPrompt {
      return Success(Processed(None, Some(ReviewSkipped), None));
    }
    var run := GenerateNextMessage(p.messages, p.options, AiMaxAttempts(p.options), backend);
    if run.outcome.Failure? {
      return Failure(run.outcome.error);
    }
    var g := run.outcome.value;
    if g.content.Some? && |g.content.value| > 0 {
      var processed := PostProcess(g.content.value, block);
      if p.outputPath.Some? {
        fs.Write(p.outputPath.value, processed);
      }
      return Success(Processed(Some(processed), g.finishReason, g.usage));
    }
    return Success(Processed(None, g.finishReason, g.usage));
  }

  /** Reviewing the prompt skips generation: a note, no chat call, nothing written. */
  lemma ReviewPromptSkips(p: Processor, backend: ChatRequest -> OpenAIResponse, block: Option<string -> string>)
    requires p.options.reviewPrompt
    ensures ProcessSpec(p, backend, block).outcome == Success(Processed(None, Some(ReviewSkipped), None))
    ensures ProcessSpec(p, backend, block).requests == []
    ensures ProcessSpec(p, backend, block).written.None?
  {
  }

  /**
   * Without a review, the chat calls stay within the attempt budget (at most
   * two by default); the result fails iff generation fails; a non-empty
   * content is post-processed and returned, and written iff there is an
   * output path; a missing or empty content is returned as `None` and not
   * written.
   */
  lemma ProcessOutcome(p: Processor, backend: ChatRequest -> OpenAIResponse, block: Option<string -> string>)
    requires !p.options.reviewPrompt
    ensures var r := ProcessSpec(p, backend, block);
            var run := GenerateNextMessage(p.messages, p.options, AiMaxAttempts(p.options), backend);
            r.requests == run.requests
            && 1 <= |r.requests| <= (if AiMaxAttempts(p.options) > 0 then AiMaxAttempts(p.options) else 0) + 1
            && (p.options.aiMaxAttempts.None? ==> |r.requests| <= 2)
            && (r.outcome.Failure? <==> run.outcome.Failure?)
            && (run.outcome.Success? ==>
                  var g := run.outcome.value;
                  r.outcome.value.finishReason == g.finishReason
                  && r.outcome.value.usage == g.usage
                  && (r.outcome.value.content.Some? <==> g.content.Some? && g.content.value != "")
                  && (r.outcome.value.content.Some? ==> r.outcome.value.content.value == PostProcess(g.content.value, block))
                  && (r.written.Some? <==> p.outputPath.Some? && r.outcome.value.content.Some?)
                  && (r.written.Some? ==> r.written == r.outcome.value.content))
            && (run.outcome.Failure? ==> r.written.None?)
  {
    CallsBounded(p.messages, p.options, AiMaxAttempts(p.options), backend);
  }
}

=== FILE: files.dfy ===
/**
 * The file system the tool reads and writes, as a mutable map from path to
 * contents; a path missing from the map does not exist. Directories are
 * created on demand by the writes they precede, so they are not tracked.
 */
module Files {

  class FileSystem {
    var files: map<string, string>

    constructor (initial: map<string, string>)
      ensures files == initial
    {
      files := initial;
    }

    /** `File.exist?(path)`. */
    predicate Exists(path: string)
      reads this
    {
      path in files
    }

    /** `File.write(path, content)`: the file now holds `content`; no other file changes. */
    method Write(path: string, content: string)
      modifies this
      ensures files == old(files)[path := content]
      ensures Exists(path) && files[path] == content
      ensures forall q :: q != path ==> (q in files <==> q in old(files)) && (q in files ==> files[q] == old(files)[q])
    {
      files := files[path := content];
    }
  }
}

=== FILE: generic.dfy ===
/**
 * The base of the generic refactors. Its naming is in the Naming module;
 * its `run` is left to subclasses.
 */
module Generic {
  import opened Wrappers

  const NotImplemented := "Not implemented"

  /** `run` of the base class raises "Not implemented" and so returns no verdict. */
  function Run(): (r: Result<bool, string>)
    ensures r.Failure? && r.error == NotImplemented
  {
    Failure(NotImplemented)
  }
}

=== FILE: legacy_refactor.dfy ===
/**
 * The older base class of the refactors: it asks before overwriting an
 * output (only "y" or "Y" agrees), remembers why a refactor failed, and
 * leaves `run` to its subclasses.
 */
module LegacyRefactor {
  import opened Wrappers
  import Refactors
  import Naming

  const NotImplemented := "NotImplementedError"
  /** What calling a String method on the `nil` left by a class name with no segment raises. */
  const NilName := "NoMethodError"

  /** `can_overwrite_output_file?`: the answer read, without its line break, must be "y" or "Y". */
  function CanOverwrite(answer: Option<string>): (r: Result<bool, string>)
    ensures r.Failure? <==> answer.None?
    ensures answer.Some? ==> r == Success(Refactors.Chomp(answer.value) in ["y", "Y"])
  {
    match answer
    case None => Failure(Refactors.NilAnswer)
    case Some(a) => Success(Refactors.Chomp(a) == "y" || Refactors.Chomp(a) == "Y")
  }

  /**
   * The newer refactors decide the same way whenever their overwrite option
   * does not settle the question: lowercasing the whole answer accepts
   * exactly "y" and "Y".
   */
  lemma AgreesWithNewerWhenAsked(overwrite: Option<string>, answer: Option<string>)
    requires Refactors.OverwriteOption(overwrite).None?
    ensures CanOverwrite(answer) == Refactors.OverwriteDecision(overwrite, answer)
  {
    if answer.Some? {
      Refactors.AnswerDecides(overwrite, answer.value);
    }
  }

  /** The prompt file option is used when it is a non-empty path. */
  predicate UsesOption(promptFile: Option<string>) {
    promptFile.Some? && |promptFile.value| > 0
  }

  /**
   * `prompt_file_path` on the class: the prompt file option when it is
   * non-empty, otherwise `prompts/<refactor_name>.md` beside the source
   * file; a file that does not exist raises, naming the refactor.
   */
  function PromptFilePath(dir: string, className: string, promptFile: Option<string>, onDisk: set<string>): (r: Result<string, string>)
    ensures r.Success? ==> r.value in onDisk
    ensures UsesOption(promptFile) && Naming.LastSegmentName(className).Some? ==>
              (r.Success? <==> promptFile.value in onDisk)
    ensures UsesOption(promptFile) && r.Success? ==> r.value == promptFile.value
    ensures !UsesOption(promptFile) ==>
              (r.Success? <==> Naming.GenericPromptFilePath(dir, className).Some?
                               && Naming.GenericPromptFilePath(dir, className).value in onDisk)
    ensures !UsesOption(promptFile) && r.Success? ==> r.value == Naming.GenericPromptFilePath(dir, className).value
    ensures r.Failure? && Naming.LastSegmentName(className).Some? ==>
              r.error == "No prompt file '" + (if UsesOption(promptFile) then promptFile.value
                                               else Naming.GenericPromptFilePath(dir, className).value)
                         + "' found for " + Naming.LastSegmentName(className).value
  {
    var file := if UsesOption(promptFile) then Some(promptFile.value) else Naming.GenericPromptFilePath(dir, className);
    match file
    case None => Failure(NilName)
    case Some(f) =>
      if f in onDisk then Success(f)
      else match Naming.LastSegmentName(className)
        case None => Failure(NilName)
        case Some(name) => Failure("No prompt file '" + f + "' found for " + name)
  }

  /** `run` of the base class raises. */
  function Run(): (r: Result<bool, string>)
    ensures r.Failure? && r.error == NotImplemented
  {
    Failure(NotImplemented)
  }

  class BaseRefactor {
    const inputFile: string
    /** `@failed_message`. */
    var failedMessage: Option<string>

    constructor (inputFile: string)
      ensures this.inputFile == inputFile && failedMessage.None?
    {
      this.inputFile := inputFile;
      failedMessage := None;
    }

    /** `failed_message`: the recorded reason, or "Reason not specified". */
    function FailedMessage(): (r: string)
      reads this
      ensures r == Refactors.FailedMessageOf(failedMessage)
    {
      failedMessage.GetOr(Refactors.NotSpecified)
    }

    /** `can_overwrite_output_file?`: a refusal records "Skipped as output file already exists". */
    method CanOverwriteOutputFile(answer: Option<string>) returns (r: Result<bool, string>)
      modifies this
      ensures r == CanOverwrite(answer)
      ensures failedMessage == (if r == Success(false) then Some(Refactors.SkippedExists) else old(failedMessage))
    {
      if answer.None? {
        return Failure(Refactors.NilAnswer);
      }
      var chomped := Refactors.Chomp(answer.value);
      if !(chomped == "y" || chomped == "Y") {
        failedMessage := Some(Refactors.SkippedExists);
        return Success(false);
      }
      return Success(true);
    }
  }
}

=== FILE: naming.dfy ===
/**
 * How a refactor's class name becomes its command name: namespace
 * separators become `/`, CamelCase words are split by `_`, `-` becomes
 * `_`, and everything is lowercased ("WriteRBS" becomes "write_rbs").
 */
module Naming {
  import opened Wrappers
  import opened Text

  /** The namespace every refactor class of the newer tree lives under. */
  const RefactorsPrefix := "AIRefactor::Refactors::"

  /** The length of the run of uppercase letters starting at `i`. */
  function UpperRun(s: string, i: nat): (n: nat)
    requires i <= |s|
    ensures i + n <= |s|
    ensures forall k :: i <= k < i + n ==> IsUpper(s[k])
    ensures i + n == |s| || !IsUpper(s[i + n])
    decreases |s| - i
  {
    if i < |s| && IsUpper(s[i]) then 1 + UpperRun(s, i + 1) else 0
  }

  /**
   * The first rewrite, `([A-Z]+)([A-Z][a-z])` to `\1_\2`: a run of two or
   * more capitals followed by a lowercase letter gets a `_` before its last
   * capital ("HTMLParser" becomes "HTML_Parser"). The search goes on after
   * the lowercase letter of each match.
   */
  function SplitAcronyms(s: string): (r: string)
    ensures |r| >= |s|
    ensures s != [] ==> r != [] && r[0] == s[0]
    ensures |s| >= 2 ==> r[1] == s[1] || r[1] == '_'
    decreases |s|
  {
    if s == [] then []
    else
      var n := UpperRun(s, 0);
      if 2 <= n < |s| && IsLower(s[n]) then
        var head := s[..n - 1] + "_" + s[n - 1..n + 1];
        assert |head| == n + 2 && head[0] == s[0] && (head[1] == s[1] || head[1] == '_');
        head + SplitAcronyms(s[n + 1..])
      else
        var tail := SplitAcronyms(s[1..]);
        assert |s| >= 2 ==> tail[0] == s[1];
        [s[0]] + tail
  }

  /**
   * The second rewrite, `([a-z\d])([A-Z])` to `\1_\2`: a `_` between a
   * lowercase letter or digit and the capital after it.
   */
  function SplitCamel(s: string): (r: string)
    ensures |r| >= |s|
    ensures s != [] ==> r != [] && r[0] == s[0]
    decreases |s|
  {
    if |s| < 2 then s
    else if (IsLower(s[0]) || IsDigit(s[0])) && IsUpper(s[1]) then
      [s[0], '_', s[1]] + SplitCamel(s[2..])
    else
      [s[0]] + SplitCamel(s[1..])
  }

  /** The common tail of every `refactor_name`: the two splits, `-` to `_`, then lowercase. */
  function Mangle(s: string): (r: string)
    ensures forall k :: 0 <= k < |r| ==> !IsUpper(r[k]) && r[k] != '-'
    ensures |r| >= |s|
  {
    var t := Tr(SplitCamel(SplitAcronyms(s)), '-', '_');
    var r := Lower(t);
    assert forall k :: 0 <= k < |r| ==> t[k] != '-' && r[k] == LowerChar(t[k]);
    r
  }

  /** `refactor_name` of the newer refactor tree: the namespace below `Refactors` is kept as a directory. */
  function RefactorName(className: string): (r: string)
    ensures forall k :: 0 <= k < |r| ==> !IsUpper(r[k]) && r[k] != '-'
  {
    Mangle(ReplaceAll(ReplaceAll(className, RefactorsPrefix, ""), "::", "/"))
  }

  /**
   * `refactor_name` of the older refactors and of `Generic`: only the last
   * `::` segment is kept. A name with no segment at all has no last one,
   * and the chain then fails on nil (None).
   */
  function LastSegmentName(className: string): (r: Option<string>)
    ensures r.Some? <==> Split(className, "::") != []
    ensures r.Some? ==> forall k :: 0 <= k < |r.value| ==> !IsUpper(r.value[k]) && r.value[k] != '-'
  {
    var segments := Split(className, "::");
    if segments == [] then None
    else Some(Mangle(ReplaceAll(segments[|segments| - 1], "::", "/")))
  }

  /** `Generic.prompt_file_path`: `prompts/<refactor_name>.md` in the directory `dir` of the source file. */
  function GenericPromptFilePath(dir: string, className: string): (r: Option<string>)
    ensures r.Some? <==> LastSegmentName(className).Some?
    ensures r.Some? ==> r.value == dir + "/prompts/" + LastSegmentName(className).value + ".md"
  {
    match LastSegmentName(className)
    case None => None
    case Some(name) => Some(dir + "/" + "prompts" + "/" + (name + ".md"))
  }

  // ---------------------------------------------------------------------
  // What the splits do

  /** `s` with every `_` removed. */
  function Unscored(s: string): (r: string)
    ensures '_' !in r
  {
    if s == [] then [] else (if s[0] == '_' then [] else [s[0]]) + Unscored(s[1..])
  }

  lemma {:induction false} UnscoredAppend(a: string, b: string)
    ensures Unscored(a + b) == Unscored(a) + Unscored(b)
  {
    if a != [] {
      assert (a + b)[1..] == a[1..] + b;
      UnscoredAppend(a[1..], b);
    } else {
      assert a + b == b;
    }
  }

  /** Underscores vanish, and what remains keeps its order. */
  lemma UnscoredThree(a: string, b: string, c: string)
    ensures Unscored(a + b + c) == Unscored(a) + Unscored(b) + Unscored(c)
  {
    UnscoredAppend(a + b, c);
    UnscoredAppend(a, b);
  }

  lemma UnscoredScore(a: string, b: string, c: string)
    ensures Unscored(a + "_" + b + c) == Unscored(a) + Unscored(b) + Unscored(c)
  {
    var u: string := ['_'];
    assert u[1..] == [];
    assert Unscored(u) == [];
    UnscoredAppend(a + u + b, c);
    UnscoredThree(a, u, b);
  }

  /** Splitting acronyms inserts underscores and nothing else. */
  lemma {:induction false} AcronymsOnlyInsertUnderscores(s: string)
    ensures Unscored(SplitAcronyms(s)) == Unscored(s)
  {
    if s != [] {
      var n := UpperRun(s, 0);
      if 2 <= n < |s| && IsLower(s[n]) {
        var a, b, rest := s[..n - 1], s[n - 1..n + 1], s[n + 1..];
        AcronymsOnlyInsertUnderscores(rest);
        UnscoredScore(a, b, SplitAcronyms(rest));
        assert s == a + b + rest;
        UnscoredThree(a, b, rest);
      } else {
        AcronymsOnlyInsertUnderscores(s[1..]);
        UnscoredAppend([s[0]], SplitAcronyms(s[1..]));
        UnscoredAppend([s[0]], s[1..]);
        assert s == [s[0]] + s[1..];
      }
    }
  }

  /** Splitting CamelCase inserts underscores and nothing else. */
  lemma {:induction false} CamelOnlyInsertsUnderscores(s: string)
    ensures Unscored(SplitCamel(s)) == Unscored(s)
  {
    if |s| >= 2 {
      if (IsLower(s[0]) || IsDigit(s[0])) && IsUpper(s[1]) {
        CamelOnlyInsertsUnderscores(s[2..]);
        UnscoredAppend([s[0], '_', s[1]], SplitCamel(s[2..]));
        UnscoredAppend([s[0], s[1]], s[2..]);
        assert Unscored([s[0], '_', s[1]]) == [s[0], s[1]];
        assert Unscored([s[0], s[1]]) == [s[0], s[1]];
        assert s == [s[0], s[1]] + s[2..];
      } else {
        CamelOnlyInsertsUnderscores(s[1..]);
        UnscoredAppend([s[0]], SplitCamel(s[1..]));
        UnscoredAppend([s[0]], s[1..]);
        assert s == [s[0]] + s[1..];
      }
    }
  }

  /** No lowercase letter or digit is directly followed by a capital. */
  predicate CamelFree(r: string) {
    forall k :: 0 <= k < |r| - 1 ==> !((IsLower(r[k]) || IsDigit(r[k])) && IsUpper(r[k + 1]))
  }

  /** After the CamelCase split no lowercase letter or digit is directly followed by a capital. */
  lemma {:induction false} CamelBoundariesSplit(s: string)
    ensures CamelFree(SplitCamel(s))
  {
    if |s| >= 2 {
      var r := SplitCamel(s);
      if (IsLower(s[0]) || IsDigit(s[0])) && IsUpper(s[1]) {
        var t := SplitCamel(s[2..]);
        CamelBoundariesSplit(s[2..]);
        assert r == [s[0], '_', s[1]] + t;
        forall k | 0 <= k < |r| - 1
          ensures !((IsLower(r[k]) || IsDigit(r[k])) && IsUpper(r[k + 1]))
        {
          if k >= 3 {
            assert r[k] == t[k - 3] && r[k + 1] == t[k - 3 + 1];
          } else if k == 2 {
            assert r[k] == s[1];
          } else {
            assert r[1] == '_';
          }
        }
      } else {
        var t := SplitCamel(s[1..]);
        CamelBoundariesSplit(s[1..]);
        assert r == [s[0]] + t;
        forall k | 0 <= k < |r| - 1
          ensures !((IsLower(r[k]) || IsDigit(r[k])) && IsUpper(r[k + 1]))
        {
          if k >= 1 {
            assert r[k] == t[k - 1] && r[k + 1] == t[k - 1 + 1];
          } else {
            assert r[0] == s[0] && r[1] == t[0] == s[1];
          }
        }
      }
    }
  }

  /** A string without capitals is left alone by both splits. */
  lemma {:induction false} AcronymsWithoutCapitals(s: string)
    requires forall k :: 0 <= k < |s| ==> !IsUpper(s[k])
    ensures SplitAcronyms(s) == s
  {
    if s != [] {
      assert UpperRun(s, 0) == 0;
      AcronymsWithoutCapitals(s[1..]);
    }
  }

  lemma {:induction false} CamelWithoutCapitals(s: string)
    requires forall k :: 0 <= k < |s| ==> !IsUpper(s[k])
    ensures SplitCamel(s) == s
  {
    if |s| >= 2 {
      CamelWithoutCapitals(s[1..]);
    }
  }

  /** Mangling a name that is already mangled changes nothing. */
  lemma MangleIdempotent(s: string)
    ensures Mangle(Mangle(s)) == Mangle(s)
  {
    var m := Mangle(s);
    AcronymsWithoutCapitals(m);
    CamelWithoutCapitals(m);
    var t := Tr(m, '-', '_');
    assert t == m;
    var r := Lower(t);
    assert forall k :: 0 <= k < |m| ==> LowerChar(m[k]) == m[k];
    assert r == m;
  }

  // ---------------------------------------------------------------------
  // CamelCase names made of capitalised words

  /** A capital followed by one or more lowercase letters or digits ("Write", "Rbs", "V2"). */
  predicate CapitalWord(w: string) {
    |w| >= 2 && IsUpper(w[0]) && forall k :: 1 <= k < |w| ==> IsLower(w[k]) || IsDigit(w[k])
  }

  predicate AllCapitalWords(words: seq<string>) {
    forall i :: 0 <= i < |words| ==> CapitalWord(words[i])
  }

  /** No capital is directly followed by another. */
  predicate NoDoubleCapital(s: string) {
    forall k :: 0 <= k < |s| - 1 ==> !(IsUpper(s[k]) && IsUpper(s[k + 1]))
  }

  lemma {:induction false} AcronymsWithoutDoubleCapitals(s: string)
    requires NoDoubleCapital(s)
    ensures SplitAcronyms(s) == s
  {
    if s != [] {
      assert |s| > 1 ==> !(IsUpper(s[0]) && IsUpper(s[1]));
      assert NoDoubleCapital(s[1..]) by {
        forall k | 0 <= k < |s[1..]| - 1 ensures !(IsUpper(s[1..][k]) && IsUpper(s[1..][k + 1])) {
          assert s[1..][k] == s[k + 1] && s[1..][k + 1] == s[k + 2];
        }
      }
      AcronymsWithoutDoubleCapitals(s[1..]);
    }
  }

  lemma {:induction false} ConcatStartsWithCapital(words: seq<string>)
    requires words != [] && AllCapitalWords(words)
    ensures Concat(words) != [] && Concat(words)[0] == words[0][0]
  {
  }

  lemma {:induction false} ConcatNoDoubleCapital(words: seq<string>)
    requires AllCapitalWords(words)
    ensures NoDoubleCapital(Concat(words))
  {
    if words != [] {
      var w, rest := words[0], Concat(words[1..]);
      assert AllCapitalWords(words[1..]) by {
        forall i | 0 <= i < |words[1..]| ensures CapitalWord(words[1..][i]) {
          assert words[1..][i] == words[i + 1];
        }
      }
      ConcatNoDoubleCapital(words[1..]);
      var s := w + rest;
      forall k | 0 <= k < |s| - 1 ensures !(IsUpper(s[k]) && IsUpper(s[k + 1])) {
        if k + 1 < |w| {
          assert s[k + 1] == w[k + 1];
        } else if k + 1 == |w| {
          assert s[k] == w[k];
        } else {
          assert s[k] == rest[k - |w|] && s[k + 1] == rest[k - |w| + 1];
        }
      }
    }
  }

  /** Lowercase letters and digits before a capital: one `_` goes in after them. */
  lemma {:induction false} CamelTail(x: string, t: string)
    requires x != [] && forall k :: 0 <= k < |x| ==> IsLower(x[k]) || IsDigit(x[k])
    requires t != [] && IsUpper(t[0])
    ensures SplitCamel(x + t) == x + "_" + SplitCamel(t)
  {
    var s := x + t;
    if |x| == 1 {
      assert s[0] == x[0] && s[1] == t[0] && s[2..] == t[1..];
      assert SplitCamel(s) == [x[0], '_', t[0]] + SplitCamel(t[1..]);
      assert SplitCamel(t) == [t[0]] + SplitCamel(t[1..]);
      assert x == [x[0]];
    } else {
      assert s[0] == x[0] && s[1] == x[1] && s[1..] == x[1..] + t;
      assert !IsUpper(s[1]);
      assert SplitCamel(s) == [x[0]] + SplitCamel(x[1..] + t);
      CamelTail(x[1..], t);
      assert x == [x[0]] + x[1..];
    }
  }

  lemma CamelWord(w: string, t: string)
    requires CapitalWord(w)
    requires t != [] && IsUpper(t[0])
    ensures SplitCamel(w + t) == w + "_" + SplitCamel(t)
  {
    var s := w + t;
    assert s[1..] == w[1..] + t;
    CamelTail(w[1..], t);
    assert w == [w[0]] + w[1..];
  }

  lemma CamelLastWord(w: string)
    requires CapitalWord(w)
    ensures SplitCamel(w) == w
  {
    CamelWithoutCapitals(w[1..]);
    assert w == [w[0]] + w[1..];
  }

  /** A name made of capitalised words is split into those words. */
  lemma {:induction false} CamelWords(words: seq<string>)
    requires words != [] && AllCapitalWords(words)
    ensures SplitCamel(Concat(words)) == Join(words, "_")
  {
    assert Concat(words) == words[0] + Concat(words[1..]);
    if |words| == 1 {
      assert Concat(words) == words[0];
      CamelLastWord(words[0]);
    } else {
      assert AllCapitalWords(words[1..]) by {
        forall i | 0 <= i < |words[1..]| ensures CapitalWord(words[1..][i]) {
          assert words[1..][i] == words[i + 1];
        }
      }
      ConcatStartsWithCapital(words[1..]);
      CamelWord(words[0], Concat(words[1..]));
      CamelWords(words[1..]);
    }
  }

  lemma {:induction false} NoDashInWords(words: seq<string>)
    requires AllCapitalWords(words)
    ensures '-' !in Join(words, "_")
  {
    if |words| > 1 {
      assert AllCapitalWords(words[1..]) by {
        forall i | 0 <= i < |words[1..]| ensures CapitalWord(words[1..][i]) {
          assert words[1..][i] == words[i + 1];
        }
      }
      NoDashInWords(words[1..]);
      assert '-' !in words[0];
    } else if |words| == 1 {
      assert '-' !in words[0];
    }
  }

  /**
   * A CamelCase name made of capitalised words becomes those words joined
   * by `_` and lowercased ("WriteTestForClass" becomes "write_test_for_class").
   */
  lemma SnakeCaseOfWords(words: seq<string>)
    requires words != [] && AllCapitalWords(words)
    ensures Mangle(Concat(words)) == Lower(Join(words, "_"))
  {
    ConcatNoDoubleCapital(words);
    AcronymsWithoutDoubleCapitals(Concat(words));
    CamelWords(words);
    NoDashInWords(words);
    var j := Join(words, "_");
    assert Tr(j, '-', '_') == j;
  }

  /** The run of capitals ends at the first character that is not one. */
  lemma {:induction false} UpperRunTo(s: string, i: nat, j: nat)
    requires i <= j < |s| && !IsUpper(s[j])
    requires forall k :: i <= k < j ==> IsUpper(s[k])
    ensures UpperRun(s, i) == j - i
    decreases j - i
  {
    if i < j {
      UpperRunTo(s, i + 1, j);
    }
  }

  /**
   * Capitals run into a capitalised word: the `_` goes before the word's
   * capital ("HTML" and "Parser" give "HTML_Parser").
   */
  lemma AcronymBeforeWord(a: string, w: string)
    requires a != [] && forall k :: 0 <= k < |a| ==> IsUpper(a[k])
    requires CapitalWord(w) && IsLower(w[1])
    ensures SplitAcronyms(a + w) == a + "_" + w
  {
    var s := a + w;
    var n := |a| + 1;
    AcronymRun(a, w);
    WordTailKept(w);
    AcronymStep(s, n);
    assert s[..n - 1] == a && s[n - 1..n + 1] == w[..2] && s[n + 1..] == w[2..];
    Rejoin(a + "_", w, 2);
  }

  /** The capitals and the word's own capital form one run, ended by its lowercase letter. */
  lemma AcronymRun(a: string, w: string)
    requires a != [] && forall k :: 0 <= k < |a| ==> IsUpper(a[k])
    requires CapitalWord(w) && IsLower(w[1])
    ensures |a| + 1 < |a + w| && IsLower((a + w)[|a| + 1]) && UpperRun(a + w, 0) == |a| + 1
  {
    var s := a + w;
    var n := |a| + 1;
    forall k | 0 <= k < n ensures IsUpper(s[k]) {
      if k < |a| { assert s[k] == a[k]; } else { assert s[k] == w[0]; }
    }
    assert s[n] == w[1];
    UpperRunTo(s, 0, n);
  }

  /** After its first two letters a capitalised word has no capital left to split. */
  lemma WordTailKept(w: string)
    requires CapitalWord(w)
    ensures SplitAcronyms(w[2..]) == w[2..]
  {
    forall k | 0 <= k < |w[2..]| ensures !IsUpper(w[2..][k]) {
      assert w[2..][k] == w[k + 2];
    }
    AcronymsWithoutCapitals(w[2..]);
  }

  lemma Rejoin(p: string, w: string, i: nat)
    requires i <= |w|
    ensures p + w[..i] + w[i..] == p + w
  {
    assert w[..i] + w[i..] == w;
  }

  lemma AcronymStep(s: string, n: nat)
    requires 2 <= n < |s| && IsLower(s[n]) && UpperRun(s, 0) == n
    ensures SplitAcronyms(s) == s[..n - 1] + "_" + s[n - 1..n + 1] + SplitAcronyms(s[n + 1..])
  {
  }

  // ---------------------------------------------------------------------
  // Namespaces

  /** A pattern holding a character the text lacks does not occur in it. */
  lemma AbsentChar(s: string, p: string, i: nat)
    requires i < |p| && p[i] !in s
    ensures !Contains(s, p)
  {
    forall j | 0 <= j <= |s| ensures !OccursAt(s, j, p) {
      if j + |p| <= |s| {
        assert s[j..j + |p|][i] == s[j + i];
        assert s[j + i] in s;
      }
    }
  }

  /** A segment without `:` goes through the `::` rewrite unchanged. */
  lemma SegmentUnchanged(a: string)
    requires ':' !in a
    ensures ReplaceAll(a, "::", "/") == a
  {
    AbsentChar(a, "::", 0);
    ReplaceAllAbsent(a, "::", "/");
  }

  /** The older naming keeps the last segment of a namespaced class name. */
  lemma NamespacedLastSegment(segments: seq<string>)
    requires segments != [] && segments[|segments| - 1] != []
    requires forall k :: 0 <= k < |segments| ==> ':' !in segments[k]
    ensures LastSegmentName(Join(segments, "::")) == Some(Mangle(segments[|segments| - 1]))
  {
    SplitOfJoin(segments, "::");
    SegmentUnchanged(segments[|segments| - 1]);
  }

  /** Removing the prefix from the front of a text that holds no other copy of it. */
  lemma DropPrefix(x: string)
    requires !Contains(x, RefactorsPrefix)
    ensures ReplaceAll(RefactorsPrefix + x, RefactorsPrefix, "") == x
  {
    ReplaceAllHead(RefactorsPrefix, x, "");
    ReplaceAllAbsent(x, RefactorsPrefix, "");
    assert "" + x == x;
  }

  /** The newer naming drops the `AIRefactor::Refactors::` prefix of a class directly under it. */
  lemma RefactorNameTopLevel(a: string)
    requires ':' !in a
    ensures RefactorName(RefactorsPrefix + a) == Mangle(a)
  {
    assert RefactorsPrefix[10] == ':';
    AbsentChar(a, RefactorsPrefix, 10);
    DropPrefix(a);
    SegmentUnchanged(a);
  }

  /** `A::B` with colon-free parts holds only one `::`, so not the two-`::` prefix. */
  lemma PrefixNotInNested(a: string, b: string)
    requires ':' !in a && ':' !in b
    ensures !Contains(a + "::" + b, RefactorsPrefix)
  {
    var x := a + "::" + b;
    assert RefactorsPrefix[10] == ':' && RefactorsPrefix[21] == ':';
    forall j | 0 <= j <= |x| ensures !OccursAt(x, j, RefactorsPrefix) {
      if j + |RefactorsPrefix| <= |x| {
        var w := x[j..j + |RefactorsPrefix|];
        assert w[10] == x[j + 10] && w[21] == x[j + 21];
        if j + 10 < |a| {
          assert x[j + 10] == a[j + 10];
          assert a[j + 10] in a;
        } else {
          assert j + 21 >= |a| + 2;
          assert x[j + 21] == b[j + 21 - |a| - 2];
          assert b[j + 21 - |a| - 2] in b;
        }
      }
    }
  }

  /** The `::` between two colon-free parts becomes `/`. */
  lemma NestedSeparator(a: string, b: string)
    requires ':' !in a && ':' !in b
    ensures ReplaceAll(a + "::" + b, "::", "/") == a + "/" + b
  {
    NoOccurrenceWithoutFirstChar(a, "::" + b, "::");
    assert a + "::" + b == a + ("::" + b);
    ReplaceAllSkip(a, "::" + b, "::", "/");
    ReplaceAllHead("::", b, "/");
    SegmentUnchanged(b);
  }

  /** One namespace below the prefix becomes a directory: `A::B` gives the mangled `A/B`. */
  lemma RefactorNameNested(a: string, b: string)
    requires ':' !in a && ':' !in b
    ensures RefactorName(RefactorsPrefix + (a + "::" + b)) == Mangle(a + "/" + b)
  {
    PrefixNotInNested(a, b);
    DropPrefix(a + "::" + b);
    NestedSeparator(a, b);
  }
}

=== FILE: patterns.dfy ===
/**
 * The regular expressions the test runners match against a test command's
 * output: a sequence of captured digit runs `(\d+)`, literal text and
 * optional characters `c?`, matched with a regular-expression engine's
 * leftmost, greedy, backtracking semantics.
 */
module Patterns {
  import opened Wrappers
  import opened Text

  datatype Atom = Digits | Lit(text: string) | Opt(c: char)

  type Pattern = seq<Atom>

  /** The captures of a match of `pat` that starts at `i`, trying longer digit runs and present optional characters first. */
  function MatchFrom(s: string, i: nat, pat: Pattern): Option<seq<string>>
    requires i <= |s|
    decreases |pat|, 1, 0
  {
    if pat == [] then Some([])
    else match pat[0]
      case Lit(t) => if OccursAt(s, i, t) then MatchFrom(s, i + |t|, pat[1..]) else None
      case Opt(c) =>
        if i < |s| && s[i] == c && MatchFrom(s, i + 1, pat[1..]).Some? then MatchFrom(s, i + 1, pat[1..])
        else MatchFrom(s, i, pat[1..])
      case Digits => DigitsFrom(s, i, DigitRunEnd(s, i), pat[1..])
  }

  /** A captured run of digits from `i`, at most up to `j`, longest first. */
  function DigitsFrom(s: string, i: nat, j: nat, rest: Pattern): Option<seq<string>>
    requires i <= j <= |s|
    decreases |rest| + 1, 0, j - i
  {
    if j == i then None
    else match MatchFrom(s, j, rest)
      case Some(caps) => Some([s[i..j]] + caps)
      case None => DigitsFrom(s, i, j - 1, rest)
  }

  /** The leftmost match at or after `i`. */
  function Search(s: string, pat: Pattern, i: nat): (r: Option<seq<string>>)
    requires i <= |s|
    ensures r.Some? ==> exists k :: i <= k <= |s| && MatchFrom(s, k, pat) == r &&
                          forall j :: i <= j < k ==> MatchFrom(s, j, pat).None?
    ensures r.None? ==> forall k :: i <= k <= |s| ==> MatchFrom(s, k, pat).None?
    decreases |s| - i
  {
    if MatchFrom(s, i, pat).Some? then MatchFrom(s, i, pat)
    else if i == |s| then None
    else Search(s, pat, i + 1)
  }

  /** `s.match(pat)`: the captures of the leftmost match, if any. */
  function Match(s: string, pat: Pattern): Option<seq<string>> {
    Search(s, pat, 0)
  }

  /** A match at the start is the leftmost match. */
  lemma MatchAtStart(s: string, pat: Pattern)
    requires MatchFrom(s, 0, pat).Some?
    ensures Match(s, pat) == MatchFrom(s, 0, pat)
  {
  }

  /** The search passes over every position where the pattern does not match and stops at the first where it does. */
  /** The pattern matches at no position of `s` from `i` up to, not including, `k`. */
  predicate NoMatchBetween(s: string, pat: Pattern, i: nat, k: nat)
    requires k <= |s|
  {
    forall j :: i <= j < k ==> MatchFrom(s, j, pat).None?
  }

  lemma {:induction false} SearchSkips(s: string, pat: Pattern, i: nat, k: nat)
    requires i <= k <= |s|
    requires NoMatchBetween(s, pat, i, k)
    requires MatchFrom(s, k, pat).Some?
    ensures Search(s, pat, i) == MatchFrom(s, k, pat)
    decreases k - i
  {
    if i < k {
      assert MatchFrom(s, i, pat).None?;
      SearchSkips(s, pat, i + 1, k);
    }
  }

  /** A literal that is there is stepped over. */
  lemma LitStep(s: string, i: nat, t: string, rest: Pattern)
    requires i <= |s| && OccursAt(s, i, t)
    ensures MatchFrom(s, i, [Lit(t)] + rest) == MatchFrom(s, i + |t|, rest)
  {
    assert ([Lit(t)] + rest)[1..] == rest;
  }

  /** An optional character that is there and lets the rest match is taken. */
  lemma OptTaken(s: string, i: nat, c: char, rest: Pattern)
    requires i < |s| && s[i] == c && MatchFrom(s, i + 1, rest).Some?
    ensures MatchFrom(s, i, [Opt(c)] + rest) == MatchFrom(s, i + 1, rest)
  {
    assert ([Opt(c)] + rest)[1..] == rest;
  }

  /** An optional character that is not there is skipped. */
  lemma OptSkipped(s: string, i: nat, c: char, rest: Pattern)
    requires i <= |s| && (i == |s| || s[i] != c)
    ensures MatchFrom(s, i, [Opt(c)] + rest) == MatchFrom(s, i, rest)
  {
    assert ([Opt(c)] + rest)[1..] == rest;
  }

  /** A whole run of digits that lets the rest match is captured. */
  lemma DigitsStep(s: string, i: nat, j: nat, rest: Pattern)
    requires i < j <= |s| && DigitRunEnd(s, i) == j && MatchFrom(s, j, rest).Some?
    ensures MatchFrom(s, i, [Digits] + rest) == Some([s[i..j]] + MatchFrom(s, j, rest).value)
  {
    assert ([Digits] + rest)[1..] == rest;
  }

  /** A pattern that starts with digits does not match where there is no digit. */
  lemma NoDigitNoMatch(s: string, i: nat, rest: Pattern)
    requires i <= |s| && (i == |s| || !IsDigit(s[i]))
    ensures MatchFrom(s, i, [Digits] + rest).None?
  {
    assert ([Digits] + rest)[1..] == rest;
  }

  /** A text without digits matches no pattern that starts with digits. */
  lemma NoDigitsNoMatch(s: string, rest: Pattern)
    requires forall k :: 0 <= k < |s| ==> !IsDigit(s[k])
    ensures Match(s, [Digits] + rest).None?
  {
    forall k | 0 <= k <= |s| ensures MatchFrom(s, k, [Digits] + rest).None? {
      NoDigitNoMatch(s, k, rest);
    }
  }

  /** A text found at `i` splits into its two parts, found one after the other. */
  lemma OccursSplit(s: string, i: nat, a: string, b: string)
    requires OccursAt(s, i, a + b)
    ensures OccursAt(s, i, a) && OccursAt(s, i + |a|, b)
  {
    assert s[i..i + |a|] == (a + b)[..|a|];
    assert s[i + |a|..i + |a| + |b|] == (a + b)[|a|..];
  }

  /** A printed number at `i`, followed by a non-digit that lets the rest match, is captured whole. */
  lemma NumberAt(s: string, i: nat, n: nat, rest: Pattern)
    requires OccursAt(s, i, NatToString(n))
    requires i + |NatToString(n)| == |s| || !IsDigit(s[i + |NatToString(n)|])
    requires MatchFrom(s, i + |NatToString(n)|, rest).Some?
    ensures MatchFrom(s, i, [Digits] + rest) == Some([NatToString(n)] + MatchFrom(s, i + |NatToString(n)|, rest).value)
  {
    var d := NatToString(n);
    forall k | i <= k < i + |d| ensures IsDigit(s[k]) {
      assert s[k] == s[i..i + |d|][k - i] == d[k - i];
    }
    DigitRunEndAt(s, i, i + |d|);
    DigitsStep(s, i, i + |d|, rest);
    assert s[i..i + |d|] == d;
  }
}

=== FILE: prompt.dfy ===
/**
 * The two chat messages sent for one input file: a system prompt built from
 * a template by marker replacement, and a user prompt holding the file's
 * contents. The files the prompt reads are given as texts.
 */
module Prompt {
  import opened Wrappers
  import opened Text
  import opened Chat

  const HeaderMarker := "__{{prompt_header}}__"
  const FooterMarker := "__{{prompt_footer}}__"
  const ContentMarker := "__{{content}}__"

  /** A prompt's settings: the input file, the system template file, an optional header and footer, and the diff flag. */
  datatype Prompt = Prompt(inputPath: string, promptFilePath: string, header: Option<string>, footer: Option<string>, diff: bool)

  /**
   * The texts the prompt reads: the system template (at `promptFilePath`),
   * the bundled `diff.md` and `input.md`, and the input file itself.
   */
  datatype PromptFiles = PromptFiles(systemTemplate: string, diffPrompt: string, inputPrompt: string, inputContent: string)

  /** `expand_prompt`: every occurrence of the marker becomes the content. */
  function ExpandPrompt(prompt: string, marker: string, content: string): string {
    ReplaceAll(prompt, marker, content)
  }

  /** The footer of the system prompt: the footer, the diff instructions, both (footer first), or nothing. */
  function SystemPromptFooter(p: Prompt, diffPrompt: string): (r: string)
    ensures p.diff ==> EndsWith(r, diffPrompt)
    ensures p.footer.Some? ==> StartsWith(r, p.footer.value)
    ensures p.diff && p.footer.Some? ==> OccursAt(r, |p.footer.value|, "\n\n")
    ensures p.diff && p.footer.Some? ==> |r| == |p.footer.value| + 2 + |diffPrompt|
    ensures !p.diff && p.footer.Some? ==> r == p.footer.value
    ensures p.diff && p.footer.None? ==> r == diffPrompt
    ensures !p.diff && p.footer.None? ==> r == ""
  {
    if p.diff && p.footer.Some? then p.footer.value + "\n\n" + diffPrompt
    else if p.diff then diffPrompt
    else if p.footer.Some? then p.footer.value
    else ""
  }

  /** The header markers become the header ("" without one); then the footer markers become the footer. */
  function SystemPrompt(p: Prompt, files: PromptFiles): string {
    var prompt := ExpandPrompt(files.systemTemplate, HeaderMarker, p.header.GetOr(""));
    ExpandPrompt(prompt, FooterMarker, SystemPromptFooter(p, files.diffPrompt))
  }

  /** The input template with every content marker replaced by the input file's contents. */
  function UserPrompt(files: PromptFiles): string {
    ExpandPrompt(files.inputPrompt, ContentMarker, files.inputContent)
  }

  /** `chat_messages`: the system message, then the user message. */
  function ChatMessages(p: Prompt, files: PromptFiles): (r: seq<Message>)
    ensures |r| == 2
    ensures r[0] == Message(SystemRole, Some(SystemPrompt(p, files)))
    ensures r[1] == Message(UserRole, Some(UserPrompt(files)))
  {
    [Message(SystemRole, Some(SystemPrompt(p, files))), Message(UserRole, Some(UserPrompt(files)))]
  }

  /** A text without the marker is left as it is. */
  lemma ExpandAbsent(prompt: string, marker: string, content: string)
    requires marker != [] && !Contains(prompt, marker)
    ensures ExpandPrompt(prompt, marker, content) == prompt
  {
    ReplaceAllAbsent(prompt, marker, content);
  }

  /** Text before, between and after markers is kept: a marker between two marker-free parts is replaced in place. */
  lemma ExpandBetween(a: string, marker: string, b: string, content: string)
    requires marker != [] && marker[0] !in a && !Contains(b, marker)
    ensures ExpandPrompt(a + marker + b, marker, content) == a + content + b
  {
    NoOccurrenceWithoutFirstChar(a, marker + b, marker);
    assert a + marker + b == a + (marker + b);
    ReplaceAllSkip(a, marker + b, marker, content);
    ReplaceAllHead(marker, b, content);
    ReplaceAllAbsent(b, marker, content);
  }

  /** A system template with neither marker is sent unchanged. */
  lemma SystemPromptWithoutMarkers(p: Prompt, files: PromptFiles)
    requires !Contains(files.systemTemplate, HeaderMarker) && !Contains(files.systemTemplate, FooterMarker)
    ensures SystemPrompt(p, files) == files.systemTemplate
  {
    ExpandAbsent(files.systemTemplate, HeaderMarker, p.header.GetOr(""));
    ExpandAbsent(files.systemTemplate, FooterMarker, SystemPromptFooter(p, files.diffPrompt));
  }

  /**
   * Header markers are replaced before footer markers, so a footer marker
   * that the header brings in is expanded too.
   */
  lemma HeaderBringsFooterMarker(p: Prompt, files: PromptFiles, a: string, b: string)
    requires files.systemTemplate == a + HeaderMarker + b
    requires '_' !in a && '_' !in b
    requires p.header == Some(FooterMarker)
    ensures SystemPrompt(p, files) == a + SystemPromptFooter(p, files.diffPrompt) + b
  {
    NoMarker(b, HeaderMarker);
    ExpandBetween(a, HeaderMarker, b, FooterMarker);
    NoMarker(b, FooterMarker);
    ExpandBetween(a, FooterMarker, b, SystemPromptFooter(p, files.diffPrompt));
  }

  /** A text without `_` contains no marker. */
  lemma NoMarker(s: string, marker: string)
    requires marker != [] && marker[0] == '_' && '_' !in s
    ensures !Contains(s, marker)
  {
    forall i | 0 <= i <= |s| ensures !OccursAt(s, i, marker) {
      if i + |marker| <= |s| {
        assert s[i..i + |marker|][0] == s[i] != '_';
      }
    }
  }

  /** The user prompt is the input template around the file's contents. */
  lemma UserPromptAround(files: PromptFiles, a: string, b: string)
    requires files.inputPrompt == a + ContentMarker + b
    requires '_' !in a && '_' !in b
    ensures UserPrompt(files) == a + files.inputContent + b
  {
    NoMarker(b, ContentMarker);
    ExpandBetween(a, ContentMarker, b, files.inputContent);
  }

  /** A template with one header marker: the header takes its place and no footer is added. */
  lemma HeaderOnly(p: Prompt, files: PromptFiles, a: string, b: string)
    requires files.systemTemplate == a + HeaderMarker + b
    requires '_' !in a && '_' !in b && '_' !in p.header.GetOr("")
    ensures SystemPrompt(p, files) == a + p.header.GetOr("") + b
  {
    var h := p.header.GetOr("");
    NoMarker(b, HeaderMarker);
    ExpandBetween(a, HeaderMarker, b, h);
    NoMarker(a + h + b, FooterMarker);
    ExpandAbsent(a + h + b, FooterMarker, SystemPromptFooter(p, files.diffPrompt));
  }

  /** A template with one footer marker: the chosen footer takes its place. */
  lemma FooterOnly(p: Prompt, files: PromptFiles, a: string, b: string)
    requires files.systemTemplate == a + FooterMarker + b
    requires '_' !in a && '_' !in b
    ensures SystemPrompt(p, files) == a + SystemPromptFooter(p, files.diffPrompt) + b
  {
    FooterHasNoHeader(a, b);
    ExpandAbsent(files.systemTemplate, HeaderMarker, p.header.GetOr(""));
    NoMarker(b, FooterMarker);
    ExpandBetween(a, FooterMarker, b, SystemPromptFooter(p, files.diffPrompt));
  }

  /** The footer marker, between texts without `_`, does not form a header marker. */
  lemma FooterHasNoHeader(a: string, b: string)
    requires '_' !in a && '_' !in b
    ensures !Contains(a + FooterMarker + b, HeaderMarker)
  {
    var s := a + FooterMarker + b;
    forall i | 0 <= i <= |s| ensures !OccursAt(s, i, HeaderMarker) {
      if i + |HeaderMarker| <= |s| {
        var w := s[i..i + |HeaderMarker|];
        if i < |a| {
          assert w[0] == a[i] != HeaderMarker[0];
        } else if i > |a| {
          assert w[20] == b[i + 20 - |a| - |FooterMarker|] != HeaderMarker[20];
        } else {
          assert w[11] == FooterMarker[11] != HeaderMarker[11];
        }
      }
    }
  }
}

=== FILE: ruby_file.dfy ===
/**
 * The path helpers of Ruby's `File` class that the tool uses, for paths
 * written with `/` and without trailing or repeated separators.
 */
module RubyFile {
  import opened Wrappers

  /** The index of the last `c` in `s`, if any. */
  function LastIndexOf(s: string, c: char): (r: Option<nat>)
    ensures r.Some? ==> r.value < |s| && s[r.value] == c && c !in s[r.value + 1..]
    ensures r.None? ==> c !in s
  {
    if s == [] then None
    else if s[|s| - 1] == c then Some(|s| - 1)
    else
      var r := LastIndexOf(s[..|s| - 1], c);
      assert r.Some? ==> s[r.value + 1..] == s[..|s| - 1][r.value + 1..] + [s[|s| - 1]];
      assert r.None? ==> s == s[..|s| - 1] + [s[|s| - 1]];
      r
  }

  /** `File.basename(path)`: the part after the last `/`. */
  function Basename(path: string): (r: string)
    ensures '/' !in r
    ensures EndsWithPart(path, r)
  {
    match LastIndexOf(path, '/')
    case None => path
    case Some(i) => path[i + 1..]
  }

  /** `File.dirname(path)`: the part before the last `/`; "." without one, "/" for a root entry. */
  function Dirname(path: string): string {
    match LastIndexOf(path, '/')
    case None => "."
    case Some(i) => if i == 0 then "/" else path[..i]
  }

  /** Some character of `s` before index `i` is not a `.`. */
  predicate NonDotBefore(s: string, i: nat)
    requires i <= |s|
  {
    exists j :: 0 <= j < i && s[j] != '.'
  }

  /**
   * `File.extname(path)`: from the last `.` of the basename, once the
   * basename's leading dots are skipped; "" when no `.` follows them.
   */
  function Extname(path: string): (r: string)
    ensures r == [] || (r[0] == '.' && '.' !in r[1..])
    ensures EndsWithPart(Basename(path), r)
    ensures r != [] ==> NonDotBefore(Basename(path), |Basename(path)| - |r|)
    ensures r == [] ==> forall i :: 0 <= i < |Basename(path)| && Basename(path)[i] == '.' ==> !NonDotBefore(Basename(path), i)
  {
    var b := Basename(path);
    match LastIndexOf(b, '.')
    case Some(i) =>
      if NonDotBefore(b, i) then
        assert b[i..][1..] == b[i + 1..];
        b[i..]
      else
        assert forall k :: i < k < |b| ==> b[k] == b[i + 1..][k - i - 1];
        []
    case None => []
  }

  predicate EndsWithPart(s: string, suffix: string) {
    |suffix| <= |s| && s[|s| - |suffix|..] == suffix
  }

  /** `File.basename(path, ".*")`: the basename without its extension. */
  function BasenameWithoutExt(path: string): string {
    var b := Basename(path);
    b[..|b| - |Extname(path)|]
  }

  /** `File.join(a, b)` for two relative parts. */
  function Join(a: string, b: string): string {
    a + "/" + b
  }

  /** The name and the extension make up the basename; the name is never empty unless the basename is. */
  lemma BasenameSplits(path: string)
    ensures BasenameWithoutExt(path) + Extname(path) == Basename(path)
    ensures Basename(path) != [] ==> BasenameWithoutExt(path) != []
  {
    var b := Basename(path);
    assert b == b[..|b| - |Extname(path)|] + b[|b| - |Extname(path)|..];
  }

  /** A path below a directory is its dirname, a `/` and its basename. */
  lemma DirnameBasename(path: string)
    requires LastIndexOf(path, '/').Some? && LastIndexOf(path, '/').value > 0
    ensures Dirname(path) + "/" + Basename(path) == path
  {
    var i := LastIndexOf(path, '/').value;
    assert Dirname(path) == path[..i] && Basename(path) == path[i + 1..];
    assert "/" == [path[i]];
    SplitAt(path, i);
  }

  lemma SplitAt(s: string, i: nat)
    requires i < |s|
    ensures s[..i] + [s[i]] + s[i + 1..] == s
  {
  }

  /** The last `c` is found where it is, whatever precedes it. */
  lemma {:induction false} LastIndexOfAt(a: string, c: char, b: string)
    requires c !in b
    ensures LastIndexOf(a + [c] + b, c) == Some(|a|)
  {
    var s := a + [c] + b;
    if b != [] {
      assert s[|s| - 1] == b[|b| - 1];
      assert s[..|s| - 1] == a + [c] + b[..|b| - 1];
      LastIndexOfAt(a, c, b[..|b| - 1]);
    }
  }

  /** A path `dir/base` has basename `base` and dirname `dir`. */
  lemma PathOf(dir: string, base: string)
    requires dir != [] && '/' !in base
    ensures Basename(dir + "/" + base) == base
    ensures Dirname(dir + "/" + base) == dir
  {
    LastIndexOfAt(dir, '/', base);
    assert (dir + "/" + base)[|dir| + 1..] == base;
  }

  /** A basename `NAME.EXT`, NAME not only dots, splits at the dot that starts its extension. */
  lemma ExtnameOfBasename(path: string, name: string, ext: string)
    requires NonDotBefore(name, |name|)
    requires ext != [] && ext[0] == '.' && '.' !in ext[1..]
    requires Basename(path) == name + ext
    ensures Extname(path) == ext
    ensures BasenameWithoutExt(path) == name
  {
    var b := Basename(path);
    assert b == name + ['.'] + ext[1..];
    LastIndexOfAt(name, '.', ext[1..]);
    assert LastIndexOf(b, '.') == Some(|name|);
    var j :| 0 <= j < |name| && name[j] != '.';
    assert b[j] == name[j];
    assert Extname(path) == b[|name|..];
    assert b[|name|..] == ext;
  }

  /** A basename of leading dots and a dot-free rest, such as `..rb`, has no extension. */
  lemma {:induction false} LeadingDotsNoExtname(path: string, dots: string, rest: string)
    requires forall k :: 0 <= k < |dots| ==> dots[k] == '.'
    requires '.' !in rest
    requires Basename(path) == dots + rest
    ensures Extname(path) == []
    ensures BasenameWithoutExt(path) == Basename(path)
  {
    var b := Basename(path);
    forall k | 0 <= k < |b| ensures b[k] == '.' <==> k < |dots| {
      if k < |dots| { assert b[k] == dots[k]; } else { assert b[k] == rest[k - |dots|]; }
    }
  }

  /** `File.extname("..rb")` is "" and `File.basename("..rb", ".*")` is "..rb". */
  lemma DotDotRb()
    ensures Extname("..rb") == []
    ensures BasenameWithoutExt("..rb") == "..rb"
  {
    assert LastIndexOf("..rb", '/') == None;
    assert ".." + "rb" == "..rb";
    LeadingDotsNoExtname("..rb", "..", "rb");
  }

  /** The path `DIR/NAME.EXT` read back through its parts. */
  lemma ExtnameOf(dir: string, name: string, ext: string)
    requires dir != [] && NonDotBefore(name, |name|) && '/' !in name && '/' !in ext
    requires ext != [] && ext[0] == '.' && '.' !in ext[1..]
    ensures Basename(dir + "/" + name + ext) == name + ext
    ensures Dirname(dir + "/" + name + ext) == dir
    ensures Extname(dir + "/" + name + ext) == ext
    ensures BasenameWithoutExt(dir + "/" + name + ext) == name
  {
    var base := name + ext;
    var path := dir + "/" + name + ext;
    assert path == dir + "/" + base;
    assert '/' !in base by {
      forall i | 0 <= i < |base| ensures base[i] != '/' {
        if i < |name| { assert base[i] == name[i]; }
        else { assert base[i] == ext[i - |name|]; }
      }
    }
    PathOf(dir, base);
    ExtnameOfBasename(path, name, ext);
  }
}

=== FILE: run_configuration.dfy ===
/**
 * The configuration of one run: a bag of options, each stored in an
 * instance variable that its setter writes. Most setters store what they
 * are given; the list setters append, the context text setter
 * concatenates, some setters put a default in place of `nil` or `false`,
 * and gem context paths are resolved against the installed gems.
 */
module RunConfiguration {
  import opened Wrappers

  /** The Ruby values an option can hold (a Float is kept as its literal). */
  datatype Value = Nil | Bool(b: bool) | Int(i: int) | Float(literal: string) | Str(s: string)
                 | List(items: seq<Value>) | Hash(entries: seq<(string, Value)>)

  /** Ruby truthiness: everything but `nil` and `false`. */
  predicate Truthy(v: Value) {
    !(v.Nil? || v == Bool(false))
  }

  // ---------------------------------------------------------------------
  // Hashes

  /** `hash[key]`: the value of the first entry with `key`, or `nil`. */
  function Lookup(entries: seq<(string, Value)>, key: string): (r: Value)
    ensures r != Nil ==> exists k :: 0 <= k < |entries| && entries[k] == (key, r)
  {
    if entries == [] then Nil
    else if entries[0].0 == key then entries[0].1
    else
      var r := Lookup(entries[1..], key);
      assert r != Nil ==> exists k :: 0 <= k < |entries[1..]| && entries[1..][k] == (key, r);
      r
  }

  /** `hash[key] = value`: an existing entry keeps its place, a new one goes last. */
  function Store(entries: seq<(string, Value)>, key: string, value: Value): (r: seq<(string, Value)>)
    ensures |r| == |entries| || |r| == |entries| + 1
  {
    if entries == [] then [(key, value)]
    else if entries[0].0 == key then [(key, value)] + entries[1..]
    else [entries[0]] + Store(entries[1..], key, value)
  }

  /** `merge!`: the other hash's entries stored one by one. */
  function Merge(a: seq<(string, Value)>, b: seq<(string, Value)>): seq<(string, Value)>
    decreases |b|
  {
    if b == [] then a else Merge(Store(a, b[0].0, b[0].1), b[1..])
  }

  /** Storing sets the key and no other. */
  lemma {:induction false} StoreLookup(entries: seq<(string, Value)>, key: string, value: Value, other: string)
    ensures Lookup(Store(entries, key, value), key) == value
    ensures other != key ==> Lookup(Store(entries, key, value), other) == Lookup(entries, other)
  {
    if entries != [] && entries[0].0 != key {
      StoreLookup(entries[1..], key, value, other);
      assert ([entries[0]] + Store(entries[1..], key, value))[1..] == Store(entries[1..], key, value);
    } else if entries != [] {
      assert ([(key, value)] + entries[1..])[1..] == entries[1..];
    }
  }

  /** A key the merged-in hash does not hold keeps its value. */
  lemma {:induction false} MergeKeeps(a: seq<(string, Value)>, b: seq<(string, Value)>, key: string)
    requires forall k :: 0 <= k < |b| ==> b[k].0 != key
    ensures Lookup(Merge(a, b), key) == Lookup(a, key)
    decreases |b|
  {
    if b != [] {
      StoreLookup(a, b[0].0, b[0].1, key);
      MergeKeeps(Store(a, b[0].0, b[0].1), b[1..], key);
    }
  }

  /** The last entry merged in wins. */
  lemma {:induction false} MergeLast(a: seq<(string, Value)>, b: seq<(string, Value)>, key: string, value: Value)
    ensures Lookup(Merge(a, b + [(key, value)]), key) == value
    decreases |b|
  {
    if b == [] {
      assert ([] + [(key, value)])[1..] == [];
      StoreLookup(a, key, value, key);
    } else {
      assert (b + [(key, value)])[0] == b[0];
      assert (b + [(key, value)])[1..] == b[1..] + [(key, value)];
      MergeLast(Store(a, b[0].0, b[0].1), b[1..], key, value);
    }
  }

  // ---------------------------------------------------------------------
  // Options and their setters

  const InvalidOptionPrefix := "Invalid option: "
  const NoStringConversion := "no implicit conversion into String"
  const NoHashConversion := "no implicit conversion into Hash"

  function GemNotFound(gem: string): string {
    "Gem " + gem + " not found"
  }

  /** Options whose setter stores the value as given. */
  const PlainOptions: set<string> := {"refactor", "description", "output_file_path", "output_template_path",
                                      "review_prompt", "prompt", "prompt_file_path", "rspec_run_command",
                                      "minitest_run_command", "diff", "verbose", "debug"}

  /** Options whose setter appends to a list. */
  const ListOptions: set<string> := {"input_file_paths", "context_file_paths"}

  const ContextText := "context_text"
  const ContextFilePaths := "context_file_paths"
  const ContextGems := "context_file_paths_from_gems"

  /** Options whose setter puts a default in place of `nil` or `false`. */
  const Defaults: map<string, Value> := map["ai_max_attempts" := Int(3), "ai_model" := Str("gpt-4-turbo-preview"),
                                            "ai_temperature" := Float("0.7"), "ai_max_tokens" := Int(1500),
                                            "ai_timeout" := Int(60), "overwrite" := Str("a")]

  const DefaultRSpecCommand := "bundle exec rspec __FILE__"
  const DefaultMinitestCommand := "ruby __FILE__"

  /** There is a setter `key=`. */
  predicate HasSetter(key: string) {
    key in PlainOptions || key in ListOptions || key in Defaults || key == ContextText || key == ContextGems
  }

  /** Options with a plain reader. */
  predicate HasReader(key: string) {
    (key in PlainOptions && key != "rspec_run_command" && key != "minitest_run_command")
    || key in ListOptions || key in Defaults || key == ContextText || key == ContextGems
  }

  /** `paths = [paths] unless paths.is_a?(Array)`. */
  function Wrap(v: Value): seq<Value> {
    if v.List? then v.items else [v]
  }

  /** The list an option holds, `[]` when it holds none yet. */
  function ListAt(vars: map<string, Value>, key: string): seq<Value> {
    if key in vars && vars[key].List? then vars[key].items else []
  }

  /** The context text, `""` when there is none yet. */
  function TextAt(vars: map<string, Value>): string {
    if ContextText in vars && vars[ContextText].Str? then vars[ContextText].s else ""
  }

  /** The gem table, `{}` when there is none yet. */
  function HashAt(vars: map<string, Value>, key: string): seq<(string, Value)> {
    if key in vars && vars[key].Hash? then vars[key].entries else []
  }

  /** The options after a setter, and the error it raised, if any. */
  datatype Applied = Applied(vars: map<string, Value>, error: Option<string>)

  /** The paths to resolve: for each gem, each of its paths, in order. */
  function GemPaths(gem: string, paths: seq<Value>): seq<(string, Value)> {
    if paths == [] then [] else [(gem, paths[0])] + GemPaths(gem, paths[1..])
  }

  function AllGemPaths(entries: seq<(string, Value)>): seq<(string, Value)> {
    if entries == [] then [] else GemPaths(entries[0].0, Wrap(entries[0].1)) + AllGemPaths(entries[1..])
  }

  /** The paths resolved so far and the error that stopped the resolution, if any. */
  datatype Resolved = Resolved(paths: seq<Value>, error: Option<string>)

  /**
   * Each path joined to its gem's directory and appended; an unknown gem
   * or a path that is not a String stops the resolution, keeping what was
   * appended before it.
   */
  function Resolve(acc: seq<Value>, pairs: seq<(string, Value)>, gemDirs: map<string, string>): (r: Resolved)
    ensures acc <= r.paths
    decreases |pairs|
  {
    if pairs == [] then Resolved(acc, None)
    else if pairs[0].0 !in gemDirs then Resolved(acc, Some(GemNotFound(pairs[0].0)))
    else if !pairs[0].1.Str? then Resolved(acc, Some(NoStringConversion))
    else Resolve(acc + [Str(gemDirs[pairs[0].0] + "/" + pairs[0].1.s)], pairs[1..], gemDirs)
  }

  /** `context_file_paths_from_gems=`: the table is merged first, then each path is resolved and appended. */
  function GemsSpec(vars: map<string, Value>, gemDirs: map<string, string>, value: Value): (r: Applied)
    ensures ContextFilePaths in r.vars && ContextGems in r.vars
  {
    var vars1 := vars[ContextFilePaths := List(ListAt(vars, ContextFilePaths))];
    var vars2 := vars1[ContextGems := Hash(HashAt(vars1, ContextGems))];
    if !value.Hash? then Applied(vars2, Some(NoHashConversion))
    else
      var vars3 := vars2[ContextGems := Hash(Merge(HashAt(vars2, ContextGems), value.entries))];
      var resolved := Resolve(ListAt(vars3, ContextFilePaths), AllGemPaths(value.entries), gemDirs);
      Applied(vars3[ContextFilePaths := List(resolved.paths)], resolved.error)
  }

  /** `send("#{key}=", value)` as `set!` does it: an option without a setter raises "Invalid option". */
  function SetSpec(vars: map<string, Value>, gemDirs: map<string, string>, key: string, value: Value): (r: Applied)
    ensures r.error.None? <==> HasSetter(key) && (key == ContextText ==> value.Str?)
                               && (key == ContextGems ==> GemsSpec(vars, gemDirs, value).error.None?)
    ensures r.error.None? ==> key in r.vars
    ensures !HasSetter(key) ==> r == Applied(vars, Some(InvalidOptionPrefix + key))
  {
    if key in PlainOptions then Applied(vars[key := value], None)
    else if key in Defaults then Applied(vars[key := if Truthy(value) then value else Defaults[key]], None)
    else if key in ListOptions then Applied(vars[key := List(ListAt(vars, key) + Wrap(value))], None)
    else if key == ContextText then
      if value.Str? then Applied(vars[key := Str(TextAt(vars) + value.s)], None)
      else Applied(vars[key := Str(TextAt(vars))], Some(NoStringConversion))
    else if key == ContextGems then GemsSpec(vars, gemDirs, value)
    else Applied(vars, Some(InvalidOptionPrefix + key))
  }

  /** `set!`: the setters in order, stopping at the first error. */
  function SetAllSpec(vars: map<string, Value>, gemDirs: map<string, string>, entries: seq<(string, Value)>): Applied
    decreases |entries|
  {
    if entries == [] then Applied(vars, None)
    else
      var a := SetSpec(vars, gemDirs, entries[0].0, entries[0].1);
      if a.error.Some? then a else SetAllSpec(a.vars, gemDirs, entries[1..])
  }

  /** `self[key]`: a reader's value (`nil` when unset), a run command with its default, or no such method. */
  function IndexIn(vars: map<string, Value>, key: string): (r: Result<Value, string>)
    ensures r.Success? <==> HasReader(key) || key == "rspec_run_command" || key == "minitest_run_command"
  {
    if key == "rspec_run_command" then Success(CommandOr(vars, key, DefaultRSpecCommand))
    else if key == "minitest_run_command" then Success(CommandOr(vars, key, DefaultMinitestCommand))
    else if HasReader(key) then Success(if key in vars then vars[key] else Nil)
    else Failure("undefined method '" + key + "'")
  }

  /** A run command: the one set unless it is `nil` or `false`, else the default. */
  function CommandOr(vars: map<string, Value>, key: string, default: string): Value {
    if key in vars && Truthy(vars[key]) then vars[key] else Str(default)
  }

  // ---------------------------------------------------------------------
  // What the setters promise

  /** A stored option reads back as stored; a defaulting option reads back its default for `nil` or `false`. */
  lemma SetThenRead(vars: map<string, Value>, gemDirs: map<string, string>, key: string, value: Value)
    requires key in PlainOptions || key in Defaults
    ensures var after := SetSpec(vars, gemDirs, key, value).vars;
            (key in PlainOptions && HasReader(key) ==> IndexIn(after, key) == Success(value))
            && (key in Defaults ==> IndexIn(after, key) == Success(if Truthy(value) then value else Defaults[key]))
            && (forall other :: other != key && other in vars ==> other in after && after[other] == vars[other])
  {
  }

  /** The run commands have their defaults until set to something truthy. */
  lemma RunCommandDefaults(vars: map<string, Value>, gemDirs: map<string, string>, value: Value)
    requires "rspec_run_command" !in vars && "minitest_run_command" !in vars
    ensures IndexIn(vars, "rspec_run_command") == Success(Str(DefaultRSpecCommand))
    ensures IndexIn(vars, "minitest_run_command") == Success(Str(DefaultMinitestCommand))
    ensures var after := SetSpec(vars, gemDirs, "rspec_run_command", value).vars;
            IndexIn(after, "rspec_run_command") == Success(if Truthy(value) then value else Str(DefaultRSpecCommand))
  {
  }

  /** Setting a list option twice keeps the first values and adds the second after them. */
  lemma ListSettersAppend(vars: map<string, Value>, gemDirs: map<string, string>, key: string, first: Value, second: Value)
    requires key in ListOptions
    ensures var once := SetSpec(vars, gemDirs, key, first).vars;
            var twice := SetSpec(once, gemDirs, key, second).vars;
            IndexIn(twice, key) == Success(List(ListAt(vars, key) + Wrap(first) + Wrap(second)))
  {
  }

  /** Setting the context text twice concatenates, starting from "". */
  lemma ContextTextConcatenates(gemDirs: map<string, string>, first: string, second: string)
    ensures var once := SetSpec(map[], gemDirs, ContextText, Str(first)).vars;
            var twice := SetSpec(once, gemDirs, ContextText, Str(second)).vars;
            IndexIn(twice, ContextText) == Success(Str(first + second))
  {
    var once := SetSpec(map[], gemDirs, ContextText, Str(first)).vars;
    assert TextAt(once) == first;
  }

  /**
   * Gem paths that all resolve are appended in order, one per path, each
   * joined to its gem's directory.
   */
  lemma {:induction false} ResolveAll(acc: seq<Value>, pairs: seq<(string, Value)>, gemDirs: map<string, string>)
    requires forall k :: 0 <= k < |pairs| ==> pairs[k].0 in gemDirs && pairs[k].1.Str?
    ensures var r := Resolve(acc, pairs, gemDirs);
            r.error.None? && |r.paths| == |acc| + |pairs|
            && forall k :: 0 <= k < |pairs| ==> r.paths[|acc| + k] == Str(gemDirs[pairs[k].0] + "/" + pairs[k].1.s)
    decreases |pairs|
  {
    if pairs != [] {
      var acc' := acc + [Str(gemDirs[pairs[0].0] + "/" + pairs[0].1.s)];
      assert forall k :: 0 <= k < |pairs[1..]| ==> pairs[1..][k] == pairs[k + 1];
      ResolveAll(acc', pairs[1..], gemDirs);
      var r := Resolve(acc', pairs[1..], gemDirs);
      assert r.paths[|acc|] == acc'[|acc|];
    }
  }

  /** A missing gem stops the resolution with its name, keeping the paths appended before it. */
  lemma {:induction false} ResolveStopsAtMissingGem(acc: seq<Value>, before: seq<(string, Value)>, gem: string, path: Value,
                                                    after: seq<(string, Value)>, gemDirs: map<string, string>)
    requires forall k :: 0 <= k < |before| ==> before[k].0 in gemDirs && before[k].1.Str?
    requires gem !in gemDirs
    ensures var r := Resolve(acc, before + [(gem, path)] + after, gemDirs);
            r.error == Some(GemNotFound(gem)) && r.paths == Resolve(acc, before, gemDirs).paths
    decreases |before|
  {
    if before == [] {
      assert before + [(gem, path)] + after == [(gem, path)] + after;
    } else {
      var acc' := acc + [Str(gemDirs[before[0].0] + "/" + before[0].1.s)];
      assert (before + [(gem, path)] + after)[0] == before[0];
      assert (before + [(gem, path)] + after)[1..] == before[1..] + [(gem, path)] + after;
      assert forall k :: 0 <= k < |before[1..]| ==> before[1..][k] == before[k + 1];
      ResolveStopsAtMissingGem(acc', before[1..], gem, path, after, gemDirs);
    }
  }

  /** A `set!` that raises nothing had a setter for every key, and every key now has a value. */
  lemma {:induction false} SetAllSucceeds(vars: map<string, Value>, gemDirs: map<string, string>, entries: seq<(string, Value)>)
    requires SetAllSpec(vars, gemDirs, entries).error.None?
    ensures forall k :: 0 <= k < |entries| ==> HasSetter(entries[k].0)
    ensures forall k :: 0 <= k < |entries| ==> entries[k].0 in SetAllSpec(vars, gemDirs, entries).vars
    decreases |entries|
  {
    if entries != [] {
      var a := SetSpec(vars, gemDirs, entries[0].0, entries[0].1);
      SetAllSucceeds(a.vars, gemDirs, entries[1..]);
      SetAllKeeps(a.vars, gemDirs, entries[1..], entries[0].0);
      assert forall k :: 1 <= k < |entries| ==> entries[k] == entries[1..][k - 1];
    }
  }

  /** Setters only add or replace values: an option once set stays set. */
  lemma {:induction false} SetAllKeeps(vars: map<string, Value>, gemDirs: map<string, string>, entries: seq<(string, Value)>, key: string)
    requires key in vars
    ensures key in SetAllSpec(vars, gemDirs, entries).vars
    decreases |entries|
  {
    if entries != [] {
      var a := SetSpec(vars, gemDirs, entries[0].0, entries[0].1);
      if a.error.None? {
        SetAllKeeps(a.vars, gemDirs, entries[1..], key);
      }
    }
  }

  /** The first key without a setter stops `set!`: the options set before it stay set. */
  lemma {:induction false} SetAllStopsAtInvalid(vars: map<string, Value>, gemDirs: map<string, string>,
                                                before: seq<(string, Value)>, key: string, value: Value,
                                                after: seq<(string, Value)>)
    requires SetAllSpec(vars, gemDirs, before).error.None?
    requires !HasSetter(key)
    ensures SetAllSpec(vars, gemDirs, before + [(key, value)] + after)
            == Applied(SetAllSpec(vars, gemDirs, before).vars, Some(InvalidOptionPrefix + key))
    decreases |before|
  {
    if before == [] {
      assert before + [(key, value)] + after == [(key, value)] + after;
    } else {
      var a := SetSpec(vars, gemDirs, before[0].0, before[0].1);
      assert (before + [(key, value)] + after)[0] == before[0];
      assert (before + [(key, value)] + after)[1..] == before[1..] + [(key, value)] + after;
      SetAllStopsAtInvalid(a.vars, gemDirs, before[1..], key, value, after);
    }
  }

  // ---------------------------------------------------------------------
  // The configuration object

  class RunConfiguration {
    /** The instance variables set so far, by option name. */
    var vars: map<string, Value>
    /** The install directory of each gem in the bundle. */
    const gemDirs: map<string, string>

    constructor (gemDirs: map<string, string>)
      ensures vars == map[] && this.gemDirs == gemDirs
    {
      vars := map[];
      this.gemDirs := gemDirs;
    }

    /** `self[key]`. */
    function Index(key: string): (r: Result<Value, string>)
      reads this
      ensures r == IndexIn(vars, key)
    {
      IndexIn(vars, key)
    }

    /** `to_options`: every option set so far, by name. */
    function ToOptions(): (r: map<string, Value>)
      reads this
      ensures forall key :: key in r ==> key in vars && r[key] == vars[key]
      ensures forall key :: key in vars ==> key in r
    {
      vars
    }

    /** One setter, as `set!` sends it. */
    method SetOption(key: string, value: Value) returns (error: Option<string>)
      modifies this
      ensures Applied(vars, error) == SetSpec(old(vars), gemDirs, key, value)
    {
      if key in PlainOptions {
        vars := vars[key := value];
      } else if key in Defaults {
        vars := vars[key := if Truthy(value) then value else Defaults[key]];
      } else if key in ListOptions {
        var list := ListAt(vars, key);
        vars := vars[key := List(list + Wrap(value))];
      } else if key == ContextText {
        var text := TextAt(vars);
        vars := vars[key := Str(text)];
        if !value.Str? {
          return Some(NoStringConversion);
        }
        vars := vars[key := Str(text + value.s)];
      } else if key == ContextGems {
        error := SetGems(value);
        return;
      } else {
        return Some(InvalidOptionPrefix + key);
      }
      return None;
    }

    /** `context_file_paths_from_gems=`: merge the table, then resolve each gem's paths in turn. */
    method SetGems(value: Value) returns (error: Option<string>)
      modifies this
      ensures Applied(vars, error) == GemsSpec(old(vars), gemDirs, value)
    {
      vars := vars[ContextFilePaths := List(ListAt(vars, ContextFilePaths))];
      vars := vars[ContextGems := Hash(HashAt(vars, ContextGems))];
      if !value.Hash? {
        return Some(NoHashConversion);
      }
      vars := vars[ContextGems := Hash(Merge(HashAt(vars, ContextGems), value.entries))];
      var r := ResolveGems(ListAt(vars, ContextFilePaths), value.entries, gemDirs);
      vars := vars[ContextFilePaths := List(r.paths)];
      return r.error;
    }

    /** `set!`: each key's setter in order; a key without one raises "Invalid option" and stops. */
    method Set(entries: seq<(string, Value)>) returns (error: Option<string>)
      modifies this
      ensures Applied(vars, error) == SetAllSpec(old(vars), gemDirs, entries)
    {
      var i := 0;
      while i < |entries|
        invariant 0 <= i <= |entries|
        invariant SetAllSpec(vars, gemDirs, entries[i..]) == SetAllSpec(old(vars), gemDirs, entries)
      {
        assert entries[i..][0] == entries[i] && entries[i..][1..] == entries[i + 1..];
        var e := SetOption(entries[i].0, entries[i].1);
        if e.Some? {
          return e;
        }
        i := i + 1;
      }
      return None;
    }
  }

  /** Every gem's paths in turn, stopping at the first failure. */
  method ResolveGems(paths: seq<Value>, entries: seq<(string, Value)>, gemDirs: map<string, string>) returns (r: Resolved)
    ensures r == Resolve(paths, AllGemPaths(entries), gemDirs)
  {
    var acc := paths;
    var i := 0;
    while i < |entries|
      invariant 0 <= i <= |entries|
      invariant Resolve(acc, AllGemPaths(entries[i..]), gemDirs) == Resolve(paths, AllGemPaths(entries), gemDirs)
    {
      assert AllGemPaths(entries[i..]) == GemPaths(entries[i].0, Wrap(entries[i].1)) + AllGemPaths(entries[i + 1..]) by {
        assert entries[i..][1..] == entries[i + 1..];
      }
      r := ResolveGemPaths(acc, entries[i].0, Wrap(entries[i].1), AllGemPaths(entries[i + 1..]), gemDirs);
      if r.error.Some? {
        return;
      }
      acc := r.paths;
      i := i + 1;
    }
    assert AllGemPaths(entries[i..]) == [];
    return Resolved(acc, None);
  }

  /**
   * One gem's paths, each joined to the gem's directory and appended; the
   * first failure stops it, keeping what was appended before.
   */
  method ResolveGemPaths(paths: seq<Value>, gem: string, gemPaths: seq<Value>, rest: seq<(string, Value)>,
                         gemDirs: map<string, string>) returns (r: Resolved)
    ensures r.error.Some? ==> r == Resolve(paths, GemPaths(gem, gemPaths) + rest, gemDirs)
    ensures r.error.None? ==> Resolve(r.paths, rest, gemDirs) == Resolve(paths, GemPaths(gem, gemPaths) + rest, gemDirs)
  {
    var acc := paths;
    var j := 0;
    while j < |gemPaths|
      invariant 0 <= j <= |gemPaths|
      invariant Resolve(acc, GemPaths(gem, gemPaths[j..]) + rest, gemDirs) == Resolve(paths, GemPaths(gem, gemPaths) + rest, gemDirs)
    {
      GemPathsStep(gem, gemPaths, j);
      ResolveStep(acc, (gem, gemPaths[j]), GemPaths(gem, gemPaths[j + 1..]) + rest, gemDirs);
      assert GemPaths(gem, gemPaths[j..]) + rest == [(gem, gemPaths[j])] + (GemPaths(gem, gemPaths[j + 1..]) + rest);
      if gem !in gemDirs {
        return Resolved(acc, Some(GemNotFound(gem)));
      }
      if !gemPaths[j].Str? {
        return Resolved(acc, Some(NoStringConversion));
      }
      acc := acc + [Str(gemDirs[gem] + "/" + gemPaths[j].s)];
      j := j + 1;
    }
    assert GemPaths(gem, gemPaths[j..]) + rest == rest;
    return Resolved(acc, None);
  }

  lemma GemPathsStep(gem: string, paths: seq<Value>, j: nat)
    requires j < |paths|
    ensures GemPaths(gem, paths[j..]) == [(gem, paths[j])] + GemPaths(gem, paths[j + 1..])
  {
    assert paths[j..][1..] == paths[j + 1..];
  }

  lemma ResolveStep(acc: seq<Value>, pair: (string, Value), rest: seq<(string, Value)>, gemDirs: map<string, string>)
    ensures Resolve(acc, [pair] + rest, gemDirs) ==
            if pair.0 !in gemDirs then Resolved(acc, Some(GemNotFound(pair.0)))
            else if !pair.1.Str? then Resolved(acc, Some(NoStringConversion))
            else Resolve(acc + [Str(gemDirs[pair.0] + "/" + pair.1.s)], rest, gemDirs)
  {
    assert ([pair] + rest)[0] == pair;
    assert ([pair] + rest)[1..] == rest;
  }
}

=== FILE: runs.dfy ===
/**
 * What the refactors' `run` methods share: the shell they run test
 * commands in, the result a run returns, and the comparison of a
 * generated test's run with the original spec's run.
 */
module Runs {
  import opened Wrappers
  import opened TestRunResult
  import opened TestRunDiffReport
  import TestRunners
  import Text
  import Refactors

  /** What a command prints and how it exits. */
  datatype ShellOutput = ShellOutput(stdout: string, stderr: string, status: Status)

  /** Running a command line against the files on disk at that moment. */
  type Shell = (string, map<string, string>) -> ShellOutput

  /** What `run` gives back: true or false, the generated content, or an error it let escape. */
  datatype RunResult = Verdict(ok: bool) | Content(text: string) | Raised(error: string)

  /**
   * One `run`: its result, the last failure reason it recorded (None when
   * it recorded none) and the files once it is over.
   */
  datatype RunStep = RunStep(result: RunResult, message: Option<string>, files: map<string, string>)

  const RSpecFailed := "Failed to run RSpec file, has errors"
  const TestFailed := "Generated test file failed to run correctly"
  const RunsDiffer := "Generated test file run output did not match original RSpec spec run output"
  const RbsFailed := "Generated RBS file failed to pass checks"
  /** What a runner raises when its file path is `nil`. */
  const NilPath := "no implicit conversion of nil into String"

  /** The failure reason after a later step that may record its own. */
  function Recorded(before: Option<string>, later: Option<string>): Option<string> {
    if later.Some? then later else before
  }

  /** The files once `process!` has written what it wrote. */
  function AfterProcess(files: map<string, string>, step: Refactors.ProcessStep): map<string, string>
    requires step.written.Some? ==> step.outputPath.Some?
  {
    if step.written.Some? then files[step.outputPath.value := step.written.value] else files
  }

  /** The RSpec runner on `file` with its default command. */
  function SpecRun(sh: Shell, file: string, files: map<string, string>): TestRunResult
  {
    var o := sh(TestRunners.Command(TestRunners.DefaultRSpecTemplate, file, None), files);
    TestRunners.RSpecResult(o.stdout, o.stderr, o.status)
  }

  /**
   * A Minitest runner on `file` with `template`: its counts are Strings or
   * `nil`, never Arrays, so asking whether it failed never raises.
   */
  function MinitestRun(sh: Shell, template: string, file: string, files: map<string, string>): (r: TestRunResult)
    ensures Failed(r).Success?
    ensures Failed(r).value <==> !r.status.success
                                 || (r.errored.Str? && Text.ToI(r.errored.s) > 0)
    ensures r.status == sh(TestRunners.Command(template, file, None), files).status
  {
    var o := sh(TestRunners.Command(template, file, None), files);
    TestRunners.MinitestResult(o.stdout, o.stderr, o.status)
  }

  /** The Steep runner on `file` with `template`: it failed exactly when the command did not succeed. */
  function SteepRun(sh: Shell, template: string, file: string, files: map<string, string>): (r: TestRunResult)
    ensures Failed(r) == Success(!sh(TestRunners.Command(template, file, None), files).status.success)
  {
    var o := sh(TestRunners.Command(template, file, None), files);
    TestRunners.SteepResult(o.stdout, o.stderr, o.status)
  }

  /**
   * The end of a conversion: a failing generated test records why, a
   * passing one is true exactly when its counts match the spec's, and a
   * mismatch records that instead. Nothing is written.
   */
  function Compare(spec: TestRunResult, test: TestRunResult, files: map<string, string>): (r: RunStep)
    requires Failed(test).Success?
    ensures r.files == files && r.result.Verdict?
    ensures r.result.ok <==> !Failed(test).value && NoDifferences(Report(spec, test))
    ensures r.result.ok <==> r.message.None?
    ensures Failed(test).value ==> r.message == Some(TestFailed)
  {
    if Failed(test).value then RunStep(Verdict(false), Some(TestFailed), files)
    else if NoDifferences(Report(spec, test)) then RunStep(Verdict(true), None, files)
    else RunStep(Verdict(false), Some(RunsDiffer), files)
  }

  /** Only an RSpec run whose error count was captured as an Array can make `failed?` raise. */
  lemma SpecRaisesOnlyOnCapturedErrors(sh: Shell, file: string, files: map<string, string>)
    ensures var spec := SpecRun(sh, file, files);
            Failed(spec).Failure? <==> spec.status.success && spec.errored.StrArray?
    ensures var spec := SpecRun(sh, file, files);
            Failed(spec).Failure? ==> Failed(spec).error == ArrayToIError
  {
    var o := sh(TestRunners.Command(TestRunners.DefaultRSpecTemplate, file, None), files);
    var spec := TestRunners.RSpecResult(o.stdout, o.stderr, o.status);
    assert SpecRun(sh, file, files) == spec;
    assert spec.status == o.status && (spec.errored == Str("0") || spec.errored.StrArray?);
  }
}

=== FILE: templated_path.dfy ===
/**
 * The output-path template language: a template is literal text with
 * placeholders `[FILE]`, `[NAME]`, `[DIR]`, `[REFACTOR]` and `[EXT]`, each
 * optionally written `[KIND|OLD|NEW]` so that every OLD in the placeholder's
 * value becomes NEW before the value is inserted.
 */
module TemplatedPath {
  import opened Wrappers
  import opened Text
  import RubyFile

  datatype Kind = File | Name | Dir | Refactor | Ext

  function KindName(k: Kind): string {
    match k
    case File => "FILE"
    case Name => "NAME"
    case Dir => "DIR"
    case Refactor => "REFACTOR"
    case Ext => "EXT"
  }

  datatype Modifier = Modifier(search: string, replacement: string)

  datatype Placeholder = Placeholder(kind: Kind, modifier: Option<Modifier>) {
    /** The literal text `[KIND]` or `[KIND|OLD|NEW]` this placeholder is written as. */
    function Token(): string {
      "[" + KindName(kind)
      + (match modifier
         case None => ""
         case Some(m) => "|" + m.search + "|" + m.replacement)
      + "]"
    }
  }

  /** The placeholder kind whose name starts `s` (the names start with distinct letters). */
  function KindAt(s: string): (r: Option<Kind>)
    ensures r.Some? ==> StartsWith(s, KindName(r.value))
  {
    if StartsWith(s, "FILE") then Some(File)
    else if StartsWith(s, "NAME") then Some(Name)
    else if StartsWith(s, "DIR") then Some(Dir)
    else if StartsWith(s, "REFACTOR") then Some(Refactor)
    else if StartsWith(s, "EXT") then Some(Ext)
    else None
  }

  /** The first index at or after `from` holding `c`. */
  function IndexOf(s: string, c: char, from: nat): (r: Option<nat>)
    requires from <= |s|
    ensures r.Some? ==> from <= r.value < |s| && s[r.value] == c
    decreases |s| - from
  {
    if from == |s| then None
    else if s[from] == c then Some(from)
    else IndexOf(s, c, from + 1)
  }

  lemma {:induction false} IndexOfAt(s: string, c: char, from: nat, k: nat)
    requires from <= k < |s| && s[k] == c
    requires forall n :: from <= n < k ==> s[n] != c
    ensures IndexOf(s, c, from) == Some(k)
    decreases k - from
  {
    if from < k {
      IndexOfAt(s, c, from + 1, k);
    }
  }

  /** The text after the kind name when the placeholder carries a modifier, or `]` when it does not. */
  function Tail(m: Option<Modifier>): string {
    match m
    case None => "]"
    case Some(md) => "|" + md.search + "|" + md.replacement + "]"
  }

  lemma TokenTail(p: Placeholder)
    ensures p.Token() == "[" + KindName(p.kind) + Tail(p.modifier)
    ensures p.Token()[1..] == KindName(p.kind) + Tail(p.modifier)
  {
    assert p.Token() == "[" + KindName(p.kind) + Tail(p.modifier);
  }

  /**
   * The `|OLD|NEW]` part starting at index `j` of `t`: OLD runs to the next
   * `|` and must be non-empty, NEW runs to the next `]`.
   */
  function ModifierAt(t: string, j: nat): (r: Option<Modifier>)
    requires j < |t| && t[j] == '|'
    ensures r.Some? ==> j + |Tail(r)| <= |t| && t[j..j + |Tail(r)|] == Tail(r)
  {
    match IndexOf(t, '|', j + 1)
    case None => None
    case Some(q) =>
      if q == j + 1 then None
      else match IndexOf(t, ']', q + 1)
        case None => None
        case Some(e) =>
          var m := Modifier(t[j + 1..q], t[q + 1..e]);
          SliceParts(t, j, q, e);
          Some(m)
  }

  lemma SliceParts(t: string, j: nat, q: nat, e: nat)
    requires j < q < e < |t|
    ensures t[j..e + 1] == [t[j]] + t[j + 1..q] + [t[q]] + t[q + 1..e] + [t[e]]
  {
    assert t[j..e + 1] == t[j..q] + t[q..e + 1];
    assert t[j..q] == [t[j]] + t[j + 1..q];
    assert t[q..e + 1] == [t[q]] + t[q + 1..e] + [t[e]];
  }

  lemma TokenPrefix(t: string, k: Kind, tail: string)
    requires t != [] && t[0] == '[' && StartsWith(t[1..], KindName(k))
    requires 1 + |KindName(k)| + |tail| <= |t|
    requires t[1 + |KindName(k)|..1 + |KindName(k)| + |tail|] == tail
    ensures StartsWith(t, "[" + KindName(k) + tail)
  {
    var j := 1 + |KindName(k)|;
    assert t[1..j] == t[1..][..|KindName(k)|];
    assert t[..j + |tail|] == [t[0]] + t[1..j] + t[j..j + |tail|];
  }

  /**
   * The placeholder that the pattern
   * `\[(FILE|NAME|DIR|REFACTOR|EXT)(\|([^|]+)\|([^\]]*))?\]` matches at the
   * start of `t`; when the modifier part does not match, the name must be
   * followed by `]` directly.
   */
  function MatchAt(t: string): (r: Option<Placeholder>)
    ensures r.Some? ==> StartsWith(t, r.value.Token())
  {
    if t == [] || t[0] != '[' then None
    else match KindAt(t[1..])
      case None => None
      case Some(k) =>
        var j := 1 + |KindName(k)|;
        var m := if j < |t| && t[j] == '|' then ModifierAt(t, j) else None;
        if m.Some? then
          TokenPrefix(t, k, Tail(m));
          TokenTail(Placeholder(k, m));
          Some(Placeholder(k, m))
        else if j < |t| && t[j] == ']' then
          TokenPrefix(t, k, Tail(None));
          TokenTail(Placeholder(k, None));
          Some(Placeholder(k, None))
        else None
  }

  /** Each kind name is read back as its own kind. */
  lemma KindAtName(k: Kind, rest: string)
    ensures KindAt(KindName(k) + rest) == Some(k)
  {
    var s := KindName(k) + rest;
    assert s[0] == KindName(k)[0];
    assert s[..|KindName(k)|] == KindName(k);
  }

  /** Ruby's `template.scan(...)`: the placeholders found left to right, without overlap. */
  function Scan(t: string): seq<Placeholder>
    decreases |t|
  {
    if t == [] then []
    else match MatchAt(t)
      case Some(p) => [p] + Scan(t[|p.Token()|..])
      case None => Scan(t[1..])
  }

  /** The value a placeholder kind stands for, before any modifier. */
  function Value(k: Kind, inputFile: string, refactorName: string): string {
    match k
    case File => RubyFile.Basename(inputFile)
    case Name => RubyFile.BasenameWithoutExt(inputFile)
    case Dir => RubyFile.Dirname(inputFile)
    case Refactor => refactorName
    case Ext => RubyFile.Extname(inputFile)
  }

  /** The text a placeholder is replaced with: its value, with every OLD turned into NEW. */
  function Resolve(p: Placeholder, inputFile: string, refactorName: string): string {
    var v := Value(p.kind, inputFile, refactorName);
    match p.modifier
    case None => v
    case Some(m) => ReplaceAll(v, m.search, m.replacement)
  }

  /** Replace, in order, every occurrence of each found token by its resolved text. */
  function ApplyAll(path: string, ps: seq<Placeholder>, inputFile: string, refactorName: string): string
    decreases |ps|
  {
    if ps == [] then path
    else ApplyAll(ReplaceAll(path, ps[0].Token(), Resolve(ps[0], inputFile, refactorName)), ps[1..], inputFile, refactorName)
  }

  /** A path template bound to one input file and one refactor name. */
  datatype TemplatedPath = TemplatedPath(inputFile: string, refactorName: string, template: string)

  /** `TemplatedPath.new`: raises ArgumentError for an empty template. */
  function New(inputFile: string, refactorName: string, template: string): (r: Result<TemplatedPath, string>)
    ensures r.Success? <==> |template| > 0
    ensures r.Success? ==> r.value.template == template && r.value.inputFile == inputFile
                           && r.value.refactorName == refactorName
  {
    if |template| > 0 then Success(TemplatedPath(inputFile, refactorName, template))
    else Failure("ArgumentError")
  }

  /** What `generate` returns for a templated path. */
  function PathFromTemplate(tp: TemplatedPath): string {
    ApplyAll(tp.template, Scan(tp.template), tp.inputFile, tp.refactorName)
  }

  /**
   * `generate`: a copy of the template is rewritten, token by token, with
   * every occurrence of the token replaced; the template itself is untouched.
   */
  method Generate(tp: TemplatedPath) returns (path: string)
    ensures path == PathFromTemplate(tp)
  {
    path := tp.template;
    var matches := Scan(tp.template);
    var i := 0;
    while i < |matches|
      invariant 0 <= i <= |matches|
      invariant ApplyAll(path, matches[i..], tp.inputFile, tp.refactorName) == PathFromTemplate(tp)
    {
      var m := matches[i];
      var value := Value(m.kind, tp.inputFile, tp.refactorName);
      if m.modifier.Some? {
        value := ReplaceAll(value, m.modifier.value.search, m.modifier.value.replacement);
      }
      path := ReplaceAll(path, m.Token(), value);
      assert matches[i..][1..] == matches[i + 1..];
      i := i + 1;
    }
  }

  // ---------------------------------------------------------------------
  // Reading tokens back

  /** A placeholder whose token the pattern reads back as that same placeholder. */
  predicate Parsable(p: Placeholder) {
    match p.modifier
    case None => true
    case Some(m) => m.search != [] && '|' !in m.search && ']' !in m.replacement
  }

  /** The first `c` at or after `from` is at `to` when the text between holds none. */
  lemma IndexOfSpan(t: string, c: char, from: nat, to: nat)
    requires from <= to < |t| && t[to] == c && c !in t[from..to]
    ensures IndexOf(t, c, from) == Some(to)
  {
    forall n | from <= n < to ensures t[n] != c {
      assert t[n] == t[from..to][n - from];
    }
    IndexOfAt(t, c, from, to);
  }

  /** A modifier written with a non-empty, `|`-free OLD and a `]`-free NEW is read back as itself. */
  lemma ModifierAtTail(pre: string, m: Modifier, rest: string)
    requires m.search != [] && '|' !in m.search && ']' !in m.replacement
    ensures var t := pre + Tail(Some(m)) + rest;
            |pre| < |t| && t[|pre|] == '|' && ModifierAt(t, |pre|) == Some(m)
  {
    var t := pre + Tail(Some(m)) + rest;
    var j := |pre|;
    var q := j + 1 + |m.search|;
    var e := q + 1 + |m.replacement|;
    TailLayout(pre, m, rest);
    ModifierAtFound(t, j, m);
  }

  /** Where the separators of `|OLD|NEW]` fall. */
  lemma TailLayout(pre: string, m: Modifier, rest: string)
    ensures var t := pre + Tail(Some(m)) + rest;
            var q := |pre| + 1 + |m.search|;
            var e := q + 1 + |m.replacement|;
            && e < |t| && t[|pre|] == '|' && t[q] == '|' && t[e] == ']'
            && t[|pre| + 1..q] == m.search && t[q + 1..e] == m.replacement
  {
    var t := pre + Tail(Some(m)) + rest;
    var q := |pre| + 1 + |m.search|;
    var e := q + 1 + |m.replacement|;
    assert t == pre + "|" + m.search + "|" + m.replacement + "]" + rest;
    assert t[|pre| + 1..q] == m.search;
    assert t[q + 1..e] == m.replacement;
  }

  /** `|OLD|NEW]` laid out from index `j` of `t` is read as that modifier. */
  lemma ModifierAtFound(t: string, j: nat, m: Modifier)
    requires m.search != [] && '|' !in m.search && ']' !in m.replacement
    requires j + 2 + |m.search| + |m.replacement| < |t|
    requires t[j] == '|' && t[j + 1 + |m.search|] == '|' && t[j + 2 + |m.search| + |m.replacement|] == ']'
    requires t[j + 1..j + 1 + |m.search|] == m.search
    requires t[j + 2 + |m.search|..j + 2 + |m.search| + |m.replacement|] == m.replacement
    ensures ModifierAt(t, j) == Some(m)
  {
    var q := j + 1 + |m.search|;
    var e := q + 1 + |m.replacement|;
    IndexOfSpan(t, '|', j + 1, q);
    IndexOfSpan(t, ']', q + 1, e);
    assert Modifier(t[j + 1..q], t[q + 1..e]) == m;
  }

  /** A parsable placeholder's token is matched as exactly that placeholder, whatever follows it. */
  lemma MatchToken(p: Placeholder, rest: string)
    requires Parsable(p)
    ensures MatchAt(p.Token() + rest) == Some(p)
  {
    var pre := "[" + KindName(p.kind);
    var t := p.Token() + rest;
    TokenTail(p);
    assert t == pre + Tail(p.modifier) + rest;
    assert t[1..] == KindName(p.kind) + (Tail(p.modifier) + rest);
    KindAtName(p.kind, Tail(p.modifier) + rest);
    if p.modifier.Some? {
      ModifierAtTail(pre, p.modifier.value, rest);
    } else {
      assert t[|pre|] == ']';
    }
  }

  /** The empty OLD of `[KIND||NEW]` is outside the grammar: nothing matches there. */
  lemma EmptyOldIsNotAPlaceholder(k: Kind, rest: string)
    ensures MatchAt("[" + KindName(k) + "||" + rest) == None
  {
    var t := "[" + KindName(k) + "||" + rest;
    var j := 1 + |KindName(k)|;
    assert t[1..] == KindName(k) + ("||" + rest);
    KindAtName(k, "||" + rest);
    assert t[j] == '|' && t[j + 1] == '|';
    IndexOfAt(t, '|', j + 1, j + 1);
  }

  /** Text without `[` holds no placeholder, so scanning skips it. */
  lemma {:induction false} ScanPlain(a: string, rest: string)
    requires '[' !in a
    ensures Scan(a + rest) == Scan(rest)
  {
    if a != [] {
      assert (a + rest)[0] == a[0];
      assert (a + rest)[1..] == a[1..] + rest;
      ScanPlain(a[1..], rest);
    } else {
      assert a + rest == rest;
    }
  }

  /** A template without `[` is returned unchanged. */
  lemma PlainTemplateUnchanged(tp: TemplatedPath)
    requires '[' !in tp.template
    ensures PathFromTemplate(tp) == tp.template
  {
    ScanPlain(tp.template, []);
    assert tp.template + [] == tp.template;
  }

  // ---------------------------------------------------------------------
  // Templates built from literal text and placeholders

  datatype Segment = Literal(text: string) | Slot(p: Placeholder)

  function Slots(segs: seq<Segment>): seq<Placeholder> {
    if segs == [] then []
    else if segs[0].Slot? then [segs[0].p] + Slots(segs[1..])
    else Slots(segs[1..])
  }

  /** One segment of the template text, a placeholder in `done` already replaced by its resolved text. */
  function Piece(seg: Segment, done: set<Placeholder>, inputFile: string, refactorName: string): string {
    match seg
    case Literal(s) => s
    case Slot(p) => if p in done then Resolve(p, inputFile, refactorName) else p.Token()
  }

  /** The template text, with the placeholders in `done` already replaced by their resolved text. */
  function Render(segs: seq<Segment>, done: set<Placeholder>, inputFile: string, refactorName: string): string {
    if segs == [] then []
    else Piece(segs[0], done, inputFile, refactorName) + Render(segs[1..], done, inputFile, refactorName)
  }

  /** One segment as the generated path should hold it. */
  function Expanded(seg: Segment, inputFile: string, refactorName: string): string {
    match seg
    case Literal(s) => s
    case Slot(p) => Resolve(p, inputFile, refactorName)
  }

  /** The text the template describes: literals as they are, every placeholder resolved. */
  function Expand(segs: seq<Segment>, inputFile: string, refactorName: string): string {
    if segs == [] then []
    else Expanded(segs[0], inputFile, refactorName) + Expand(segs[1..], inputFile, refactorName)
  }

  /**
   * The template is unambiguous: literals hold no `[`, and no placeholder
   * holds a `[` after its first character or produces one.
   */
  predicate Tidy(segs: seq<Segment>, inputFile: string, refactorName: string) {
    segs == [] || (TidySegment(segs[0], inputFile, refactorName) && Tidy(segs[1..], inputFile, refactorName))
  }

  /** The modifier texts hold no `[`. */
  predicate BracketFree(p: Placeholder) {
    match p.modifier
    case None => true
    case Some(m) => '[' !in m.search && '[' !in m.replacement
  }

  /** The only `[` of a bracket-free placeholder's token is its first character. */
  lemma TokenOpensOnce(p: Placeholder)
    requires BracketFree(p)
    ensures '[' !in p.Token()[1..]
  {
    TokenTail(p);
    KindNameUnbracketed(p.kind);
    TailUnbracketed(p.modifier);
  }

  lemma KindNameUnbracketed(k: Kind)
    ensures '[' !in KindName(k)
  {
  }

  lemma TailUnbracketed(m: Option<Modifier>)
    requires m.Some? ==> '[' !in m.value.search && '[' !in m.value.replacement
    ensures '[' !in Tail(m)
  {
  }

  predicate TidySegment(seg: Segment, inputFile: string, refactorName: string) {
    match seg
    case Literal(s) => '[' !in s
    case Slot(p) =>
      && Parsable(p)
      && BracketFree(p)
      && '[' !in Resolve(p, inputFile, refactorName)
  }

  lemma {:induction false} ScanRender(segs: seq<Segment>, inputFile: string, refactorName: string)
    requires Tidy(segs, inputFile, refactorName)
    ensures Scan(Render(segs, {}, inputFile, refactorName)) == Slots(segs)
  {
    if segs != [] {
      var rest := Render(segs[1..], {}, inputFile, refactorName);
      ScanRender(segs[1..], inputFile, refactorName);
      match segs[0]
      case Literal(s) =>
        assert '[' !in s by { assert Tidy(segs, inputFile, refactorName) && segs[0] == Literal(s); }
        ScanPlain(s, rest);
      case Slot(p) =>
        assert Parsable(p) by { assert Tidy(segs, inputFile, refactorName) && segs[0] == Slot(p); }
        MatchToken(p, rest);
        assert (p.Token() + rest)[|p.Token()|..] == rest;
    }
  }

  /** One `gsub!` of a token resolves exactly the placeholders equal to it. */
  lemma {:induction false} ApplyOne(segs: seq<Segment>, done: set<Placeholder>, p: Placeholder,
                                    inputFile: string, refactorName: string)
    requires Tidy(segs, inputFile, refactorName) && Parsable(p)
    ensures ReplaceAll(Render(segs, done, inputFile, refactorName), p.Token(), Resolve(p, inputFile, refactorName))
            == Render(segs, done + {p}, inputFile, refactorName)
  {
    var tok := p.Token();
    var v := Resolve(p, inputFile, refactorName);
    if segs == [] {
      assert ReplaceAll([], tok, v) == [];
    } else {
      ApplyOne(segs[1..], done, p, inputFile, refactorName);
      var rest := Render(segs[1..], done, inputFile, refactorName);
      match segs[0]
      case Literal(s) =>
        assert '[' !in s by { assert Tidy(segs, inputFile, refactorName) && segs[0] == Literal(s); }
        UnbracketedSkip(s, rest, p, v);
      case Slot(q) =>
        assert Parsable(q) && BracketFree(q) && '[' !in Resolve(q, inputFile, refactorName) by {
          assert Tidy(segs, inputFile, refactorName) && segs[0] == Slot(q);
        }
        if q in done {
          UnbracketedSkip(Resolve(q, inputFile, refactorName), rest, p, v);
        } else if q == p {
          ReplaceAllHead(tok, rest, v);
        } else {
          OtherTokenSkip(q, rest, p, v);
        }
    }
  }

  /** Text without `[` holds no token: replacing a token copies it unchanged. */
  lemma UnbracketedSkip(a: string, rest: string, p: Placeholder, v: string)
    requires '[' !in a
    ensures ReplaceAll(a + rest, p.Token(), v) == a + ReplaceAll(rest, p.Token(), v)
  {
    assert p.Token()[0] == '[';
    NoOccurrenceWithoutFirstChar(a, rest, p.Token());
    ReplaceAllSkip(a, rest, p.Token(), v);
  }

  /** Replacing one token leaves the token of a different placeholder in place. */
  lemma OtherTokenSkip(q: Placeholder, rest: string, p: Placeholder, v: string)
    requires Parsable(p) && Parsable(q) && BracketFree(q) && q != p
    ensures ReplaceAll(q.Token() + rest, p.Token(), v) == q.Token() + ReplaceAll(rest, p.Token(), v)
  {
    var qt, tok := q.Token(), p.Token();
    assert tok[0] == '[';
    TokenOpensOnce(q);
    forall i | 0 <= i < |qt| ensures !OccursAt(qt + rest, i, tok) {
      if i == 0 {
        if OccursAt(qt + rest, 0, tok) {
          var t := qt + rest;
          assert t == tok + t[|tok|..];
          MatchToken(p, t[|tok|..]);
          MatchToken(q, rest);
        }
      } else {
        assert qt[1..][i - 1] == qt[i];
        assert (qt + rest)[i] == qt[i];
      }
    }
    ReplaceAllSkip(qt, rest, tok, v);
  }

  function Elems(ps: seq<Placeholder>): set<Placeholder> {
    set k | 0 <= k < |ps| :: ps[k]
  }

  lemma ElemsCons(ps: seq<Placeholder>)
    requires ps != []
    ensures Elems(ps) == {ps[0]} + Elems(ps[1..])
  {
    forall x | x in Elems(ps) ensures x in {ps[0]} + Elems(ps[1..]) {
      var k :| 0 <= k < |ps| && ps[k] == x;
      if k > 0 { assert ps[1..][k - 1] == x; }
    }
  }

  lemma {:induction false} ApplyAllRender(segs: seq<Segment>, done: set<Placeholder>, ps: seq<Placeholder>,
                                          inputFile: string, refactorName: string)
    requires Tidy(segs, inputFile, refactorName)
    requires forall k :: 0 <= k < |ps| ==> Parsable(ps[k])
    ensures ApplyAll(Render(segs, done, inputFile, refactorName), ps, inputFile, refactorName)
            == Render(segs, done + Elems(ps), inputFile, refactorName)
    decreases |ps|
  {
    if ps == [] {
      assert done + Elems(ps) == done;
    } else {
      var next := done + {ps[0]};
      ApplyOne(segs, done, ps[0], inputFile, refactorName);
      assert forall k :: 0 <= k < |ps[1..]| ==> Parsable(ps[1..][k]) by {
        forall k | 0 <= k < |ps[1..]| ensures Parsable(ps[1..][k]) { assert ps[1..][k] == ps[k + 1]; }
      }
      ApplyAllRender(segs, next, ps[1..], inputFile, refactorName);
      ElemsCons(ps);
      assert next + Elems(ps[1..]) == done + Elems(ps);
      calc {
        ApplyAll(Render(segs, done, inputFile, refactorName), ps, inputFile, refactorName);
        ApplyAll(ReplaceAll(Render(segs, done, inputFile, refactorName), ps[0].Token(), Resolve(ps[0], inputFile, refactorName)),
                 ps[1..], inputFile, refactorName);
        ApplyAll(Render(segs, next, inputFile, refactorName), ps[1..], inputFile, refactorName);
        Render(segs, next + Elems(ps[1..]), inputFile, refactorName);
      }
    }
  }

  lemma {:induction false} RenderAllDone(segs: seq<Segment>, done: set<Placeholder>, inputFile: string, refactorName: string)
    requires forall k :: 0 <= k < |Slots(segs)| ==> Slots(segs)[k] in done
    ensures Render(segs, done, inputFile, refactorName) == Expand(segs, inputFile, refactorName)
  {
    if segs != [] {
      if segs[0].Slot? {
        assert Slots(segs)[0] == segs[0].p;
        forall k | 0 <= k < |Slots(segs[1..])| ensures Slots(segs[1..])[k] in done {
          assert Slots(segs)[k + 1] == Slots(segs[1..])[k];
        }
      } else {
        assert Slots(segs) == Slots(segs[1..]);
      }
      RenderAllDone(segs[1..], done, inputFile, refactorName);
    }
  }

  lemma {:induction false} SlotsParsable(segs: seq<Segment>, inputFile: string, refactorName: string)
    requires Tidy(segs, inputFile, refactorName)
    ensures forall k :: 0 <= k < |Slots(segs)| ==> Parsable(Slots(segs)[k])
  {
    if segs != [] {
      SlotsParsable(segs[1..], inputFile, refactorName);
      assert segs[0].Slot? ==> Parsable(segs[0].p) by {
        assert Tidy(segs, inputFile, refactorName);
      }
    }
  }

  /**
   * Generating from an unambiguous template gives the literal text with every
   * placeholder, each occurrence of it, replaced by its resolved value.
   */
  lemma TemplateResolves(segs: seq<Segment>, inputFile: string, refactorName: string)
    requires Tidy(segs, inputFile, refactorName)
    ensures PathFromTemplate(TemplatedPath(inputFile, refactorName, Render(segs, {}, inputFile, refactorName)))
            == Expand(segs, inputFile, refactorName)
  {
    var ps := Slots(segs);
    ScanRender(segs, inputFile, refactorName);
    SlotsParsable(segs, inputFile, refactorName);
    ApplyAllRender(segs, {}, ps, inputFile, refactorName);
    assert {} + Elems(ps) == Elems(ps);
    RenderAllDone(segs, Elems(ps), inputFile, refactorName);
  }

  /** The name and extension placeholders split the file placeholder; the directory and file rebuild the path. */
  lemma ValueParts(inputFile: string, refactorName: string)
    ensures Value(Name, inputFile, refactorName) + Value(Ext, inputFile, refactorName)
            == Value(File, inputFile, refactorName)
    ensures '/' !in Value(File, inputFile, refactorName)
    ensures RubyFile.LastIndexOf(inputFile, '/').Some? && RubyFile.LastIndexOf(inputFile, '/').value > 0 ==>
            Value(Dir, inputFile, refactorName) + "/" + Value(File, inputFile, refactorName) == inputFile
    ensures Value(Refactor, inputFile, refactorName) == refactorName
  {
    RubyFile.BasenameSplits(inputFile);
    if RubyFile.LastIndexOf(inputFile, '/').Some? && RubyFile.LastIndexOf(inputFile, '/').value > 0 {
      RubyFile.DirnameBasename(inputFile);
    }
  }

  lemma RenderCons(seg: Segment, rest: seq<Segment>, inputFile: string, refactorName: string)
    ensures Render([seg] + rest, {}, inputFile, refactorName)
            == Piece(seg, {}, inputFile, refactorName) + Render(rest, {}, inputFile, refactorName)
  {
    assert ([seg] + rest)[1..] == rest;
  }

  lemma ExpandCons(seg: Segment, rest: seq<Segment>, inputFile: string, refactorName: string)
    ensures Expand([seg] + rest, inputFile, refactorName)
            == Expanded(seg, inputFile, refactorName) + Expand(rest, inputFile, refactorName)
  {
    assert ([seg] + rest)[1..] == rest;
  }

  lemma TidyCons(seg: Segment, rest: seq<Segment>, inputFile: string, refactorName: string)
    requires TidySegment(seg, inputFile, refactorName) && Tidy(rest, inputFile, refactorName)
    ensures Tidy([seg] + rest, inputFile, refactorName)
  {
    assert ([seg] + rest)[1..] == rest;
  }

  // ---------------------------------------------------------------------
  // The documented examples, for any input file of the same shape

  /** The segments `A[P]` followed by `rest`. */
  function Then(a: string, p: Placeholder, rest: seq<Segment>): seq<Segment> {
    [Literal(a), Slot(p)] + rest
  }

  lemma RenderThen(a: string, p: Placeholder, rest: seq<Segment>, inputFile: string, refactorName: string)
    ensures Render(Then(a, p, rest), {}, inputFile, refactorName)
            == a + (p.Token() + Render(rest, {}, inputFile, refactorName))
  {
    assert Then(a, p, rest) == [Literal(a)] + ([Slot(p)] + rest);
    RenderCons(Slot(p), rest, inputFile, refactorName);
    RenderCons(Literal(a), [Slot(p)] + rest, inputFile, refactorName);
  }

  lemma ExpandThen(a: string, p: Placeholder, rest: seq<Segment>, inputFile: string, refactorName: string)
    ensures Expand(Then(a, p, rest), inputFile, refactorName)
            == a + (Resolve(p, inputFile, refactorName) + Expand(rest, inputFile, refactorName))
  {
    assert Then(a, p, rest) == [Literal(a)] + ([Slot(p)] + rest);
    ExpandCons(Slot(p), rest, inputFile, refactorName);
    ExpandCons(Literal(a), [Slot(p)] + rest, inputFile, refactorName);
  }

  lemma TidyThen(a: string, p: Placeholder, rest: seq<Segment>, inputFile: string, refactorName: string)
    requires '[' !in a && Parsable(p) && BracketFree(p) && '[' !in Resolve(p, inputFile, refactorName)
    requires Tidy(rest, inputFile, refactorName)
    ensures Tidy(Then(a, p, rest), inputFile, refactorName)
  {
    assert Then(a, p, rest) == [Literal(a)] + ([Slot(p)] + rest);
    TidyCons(Slot(p), rest, inputFile, refactorName);
    TidyCons(Literal(a), [Slot(p)] + rest, inputFile, refactorName);
  }

  /** `A[P]B[Q]`, for literals without `[`, resolves to `A` + P's value + `B` + Q's value. */
  lemma TwoPlaceholders(a: string, p: Placeholder, b: string, q: Placeholder,
                        inputFile: string, refactorName: string)
    requires '[' !in a && '[' !in b
    requires Parsable(p) && BracketFree(p) && '[' !in Resolve(p, inputFile, refactorName)
    requires Parsable(q) && BracketFree(q) && '[' !in Resolve(q, inputFile, refactorName)
    ensures PathFromTemplate(TemplatedPath(inputFile, refactorName, a + (p.Token() + (b + q.Token()))))
            == a + (Resolve(p, inputFile, refactorName) + (b + Resolve(q, inputFile, refactorName)))
  {
    var last: seq<Segment> := [];
    var segs := Then(a, p, Then(b, q, last));
    assert Render(last, {}, inputFile, refactorName) == [] && Expand(last, inputFile, refactorName) == [];
    assert Tidy(last, inputFile, refactorName);
    RenderThen(b, q, last, inputFile, refactorName);
    RenderThen(a, p, Then(b, q, last), inputFile, refactorName);
    ExpandThen(b, q, last, inputFile, refactorName);
    ExpandThen(a, p, Then(b, q, last), inputFile, refactorName);
    TidyThen(b, q, last, inputFile, refactorName);
    TidyThen(a, p, Then(b, q, last), inputFile, refactorName);
    assert q.Token() + [] == q.Token();
    assert Resolve(q, inputFile, refactorName) + [] == Resolve(q, inputFile, refactorName);
    TemplateResolves(segs, inputFile, refactorName);
  }

  /** `A[P]B[Q]C[R]`, for literals without `[`, resolves each placeholder in place. */
  lemma ThreePlaceholders(a: string, p: Placeholder, b: string, q: Placeholder, c: string, r: Placeholder,
                          inputFile: string, refactorName: string)
    requires '[' !in a && '[' !in b && '[' !in c
    requires Parsable(p) && BracketFree(p) && '[' !in Resolve(p, inputFile, refactorName)
    requires Parsable(q) && BracketFree(q) && '[' !in Resolve(q, inputFile, refactorName)
    requires Parsable(r) && BracketFree(r) && '[' !in Resolve(r, inputFile, refactorName)
    ensures PathFromTemplate(TemplatedPath(inputFile, refactorName, a + (p.Token() + (b + (q.Token() + (c + r.Token()))))))
            == a + (Resolve(p, inputFile, refactorName) + (b + (Resolve(q, inputFile, refactorName)
               + (c + Resolve(r, inputFile, refactorName)))))
  {
    var last: seq<Segment> := [];
    var segs := Then(a, p, Then(b, q, Then(c, r, last)));
    assert Render(last, {}, inputFile, refactorName) == [] && Expand(last, inputFile, refactorName) == [];
    assert Tidy(last, inputFile, refactorName);
    RenderThen(c, r, last, inputFile, refactorName);
    RenderThen(b, q, Then(c, r, last), inputFile, refactorName);
    RenderThen(a, p, Then(b, q, Then(c, r, last)), inputFile, refactorName);
    ExpandThen(c, r, last, inputFile, refactorName);
    ExpandThen(b, q, Then(c, r, last), inputFile, refactorName);
    ExpandThen(a, p, Then(b, q, Then(c, r, last)), inputFile, refactorName);
    TidyThen(c, r, last, inputFile, refactorName);
    TidyThen(b, q, Then(c, r, last), inputFile, refactorName);
    TidyThen(a, p, Then(b, q, Then(c, r, last)), inputFile, refactorName);
    assert r.Token() + [] == r.Token();
    assert Resolve(r, inputFile, refactorName) + [] == Resolve(r, inputFile, refactorName);
    TemplateResolves(segs, inputFile, refactorName);
  }

  /** `path/to/[DIR]/[FILE]/[REFACTOR]` for the input `DIR/FILE`. */
  lemma PlainPlaceholdersExample(dir: string, base: string, refactorName: string)
    requires dir != [] && '/' !in base
    requires '[' !in dir && '[' !in base && '[' !in refactorName
    ensures PathFromTemplate(TemplatedPath(dir + "/" + base, refactorName,
                                           "path/to/" + ("[DIR]" + ("/" + ("[FILE]" + ("/" + "[REFACTOR]"))))))
            == "path/to/" + (dir + ("/" + (base + ("/" + refactorName))))
  {
    RubyFile.PathOf(dir, base);
    var p, q, r := Placeholder(Dir, None), Placeholder(File, None), Placeholder(Refactor, None);
    assert p.Token() == "[DIR]" && q.Token() == "[FILE]" && r.Token() == "[REFACTOR]";
    ThreePlaceholders("path/to/", p, "/", q, "/", r, dir + "/" + base, refactorName);
  }

  /** A value made of a prefix and one trailing OLD resolves to the prefix and NEW. */
  lemma ModifiedValue(k: Kind, inputFile: string, refactorName: string, a: string, search: string, replacement: string)
    requires Value(k, inputFile, refactorName) == a + search
    requires search != [] && search[0] !in a
    ensures Resolve(Placeholder(k, Some(Modifier(search, replacement))), inputFile, refactorName) == a + replacement
  {
    ReplaceTrailing(a, search, replacement);
  }

  lemma ModifierValues(stem: string, name: string, refactorName: string)
    requires name != [] && '/' !in name && '.' !in name && 'r' !in stem
    ensures Resolve(Placeholder(Dir, Some(Modifier("r", "-r"))), stem + "r" + "/" + name + ".ext", refactorName) == stem + "-r"
    ensures Resolve(Placeholder(File, Some(Modifier(".ext", ".txt"))), stem + "r" + "/" + name + ".ext", refactorName) == name + ".txt"
  {
    var input := stem + "r" + "/" + name + ".ext";
    assert name[0] != '.';
    RubyFile.ExtnameOf(stem + "r", name, ".ext");
    ModifiedValue(Dir, input, refactorName, stem, "r", "-r");
    ModifiedValue(File, input, refactorName, name, ".ext", ".txt");
  }

  /**
   * `path/to/[DIR|r|-r]/[FILE|.ext|.txt]/[REFACTOR]`: the `r` ending the
   * directory becomes `-r`, the `.ext` of the file becomes `.txt`.
   */
  lemma ModifierExample(stem: string, name: string, refactorName: string)
    requires name != [] && '/' !in name && '.' !in name && 'r' !in stem
    requires '[' !in stem && '[' !in name && '[' !in refactorName
    ensures PathFromTemplate(TemplatedPath(stem + "r" + "/" + name + ".ext", refactorName,
                                           "path/to/" + ("[DIR|r|-r]" + ("/" + ("[FILE|.ext|.txt]" + ("/" + "[REFACTOR]"))))))
            == "path/to/" + ((stem + "-r") + ("/" + ((name + ".txt") + ("/" + refactorName))))
  {
    ModifierValues(stem, name, refactorName);
    ModifierTokens();
    var p, q, r := Placeholder(Dir, Some(Modifier("r", "-r"))), Placeholder(File, Some(Modifier(".ext", ".txt"))),
                   Placeholder(Refactor, None);
    assert '[' !in stem + "-r" && '[' !in name + ".txt";
    ThreePlaceholders("path/to/", p, "/", q, "/", r, stem + "r" + "/" + name + ".ext", refactorName);
  }

  lemma ModifierTokens()
    ensures Placeholder(Dir, Some(Modifier("r", "-r"))).Token() == "[DIR|r|-r]"
    ensures Placeholder(File, Some(Modifier(".ext", ".txt"))).Token() == "[FILE|.ext|.txt]"
    ensures Placeholder(Refactor, None).Token() == "[REFACTOR]"
    ensures Parsable(Placeholder(Dir, Some(Modifier("r", "-r"))))
    ensures BracketFree(Placeholder(Dir, Some(Modifier("r", "-r"))))
    ensures Parsable(Placeholder(File, Some(Modifier(".ext", ".txt"))))
    ensures BracketFree(Placeholder(File, Some(Modifier(".ext", ".txt"))))
    ensures '[' !in "path/to/" && '[' !in "/" && '[' !in "-r" && '[' !in ".txt"
  {
  }

  lemma SlashInReplacementValues(name: string, ext: string, refactorName: string)
    requires RubyFile.NonDotBefore(name, |name|) && '/' !in name && '/' !in ext
    requires ext != [] && ext[0] == '.' && '.' !in ext[1..]
    ensures Resolve(Placeholder(Dir, Some(Modifier("dir", "app/new"))), "dir" + "/" + name + ext, refactorName) == "app/new"
    ensures Resolve(Placeholder(Name, None), "dir" + "/" + name + ext, refactorName) == name
  {
    RubyFile.ExtnameOf("dir", name, ext);
    ReplaceTrailing([], "dir", "app/new");
    assert [] + "dir" == "dir";
  }

  /** `path/to/[DIR|dir|app/new]-[NAME]` for the input `dir/NAME.EXT`, NAME not only dots: the new text may hold `/`. */
  lemma SlashInReplacementExample(name: string, ext: string, refactorName: string)
    requires RubyFile.NonDotBefore(name, |name|) && '/' !in name && '/' !in ext && '[' !in name
    requires ext != [] && ext[0] == '.' && '.' !in ext[1..]
    ensures PathFromTemplate(TemplatedPath("dir" + "/" + name + ext, refactorName,
                                           "path/to/" + ("[DIR|dir|app/new]" + ("-" + "[NAME]"))))
            == "path/to/" + ("app/new" + ("-" + name))
  {
    SlashInReplacementValues(name, ext, refactorName);
    SlashInReplacementTokens();
    var p, q := Placeholder(Dir, Some(Modifier("dir", "app/new"))), Placeholder(Name, None);
    TwoPlaceholders("path/to/", p, "-", q, "dir" + "/" + name + ext, refactorName);
  }

  lemma SlashInReplacementTokens()
    ensures Placeholder(Dir, Some(Modifier("dir", "app/new"))).Token() == "[DIR|dir|app/new]"
    ensures Placeholder(Name, None).Token() == "[NAME]"
    ensures Parsable(Placeholder(Dir, Some(Modifier("dir", "app/new"))))
    ensures BracketFree(Placeholder(Dir, Some(Modifier("dir", "app/new"))))
    ensures '[' !in "path/to/" && '[' !in "-" && '[' !in "app/new"
  {
  }

  /** `[KIND||NEW]` (an empty OLD) is not a placeholder and stays in the path as written. */
  lemma EmptyOldStaysExample(tp: TemplatedPath, k: Kind, rest: string)
    requires tp.template == "[" + KindName(k) + "||" + rest && '[' !in rest
    ensures PathFromTemplate(tp) == tp.template
  {
    assert Scan(tp.template) == [] by {
      EmptyOldScan(k, rest);
    }
  }

  lemma EmptyOldScan(k: Kind, rest: string)
    requires '[' !in rest
    ensures Scan("[" + KindName(k) + "||" + rest) == []
  {
    var t := "[" + KindName(k) + "||" + rest;
    EmptyOldIsNotAPlaceholder(k, rest);
    var u := KindName(k) + "||" + rest;
    assert t[1..] == u;
    KindNameUnbracketed(k);
    ScanPlain(u, []);
    assert u + [] == u;
  }
}

=== FILE: test_run_diff_report.dfy ===
/**
 * The comparison of a test run before and after a conversion: the example,
 * failure and pending counts must agree; other fields are not consulted.
 */
module TestRunDiffReport {
  import opened Text
  import opened TestRunResult

  /** A report on a previous and a current run. */
  datatype Report = Report(previous: TestRunResult, current: TestRunResult)

  /** `no_differences?`: the three counts are equal (Ruby `==` on the stored values). */
  predicate NoDifferences(r: Report) {
    r.current.exampleCount == r.previous.exampleCount
    && r.current.failureCount == r.previous.failureCount
    && r.current.pendingCount == r.previous.pendingCount
  }

  /** A String element as `Array#inspect` shows it (the captures hold only digits). */
  function Quoted(s: string): string {
    "\"" + s + "\""
  }

  function QuotedAll(items: seq<string>): (r: seq<string>)
    ensures |r| == |items|
  {
    if items == [] then [] else [Quoted(items[0])] + QuotedAll(items[1..])
  }

  /** A count as string interpolation shows it. */
  function Show(c: Count): string {
    match c
    case Int(n) => IntToString(n)
    case Str(s) => s
    case Nil => ""
    case StrArray(items) => "[" + Join(QuotedAll(items), ", ") + "]"
  }

  /** The text of one mismatch. */
  function Mismatch(kind: string, current: string, previous: string): string {
    kind + " count mismatch: " + current + " != " + previous
  }

  /** The segment for one kind of count: empty when the counts agree. */
  function Segment(kind: string, current: Count, previous: Count): (r: string)
    ensures current == previous <==> r == ""
  {
    if current != previous then Mismatch(kind, Show(current), Show(previous)) else ""
  }

  /** A mismatch names the kind, then shows the current value before the previous one. */
  lemma MismatchShows(kind: string, current: string, previous: string)
    ensures StartsWith(Mismatch(kind, current, previous), kind + " count mismatch: " + current + " != ")
    ensures EndsWith(Mismatch(kind, current, previous), " != " + previous)
  {
    var head := kind + " count mismatch: " + current;
    var r := Mismatch(kind, current, previous);
    assert r == (head + " != ") + previous;
    assert r == head + (" != " + previous);
    assert r[..|head + " != "|] == head + " != ";
    assert r[|r| - |" != " + previous|..] == " != " + previous;
  }

  /** The example, failure and pending segments, in that order, with no separator. */
  function DiffText(r: Report): string {
    Segment("Example", r.current.exampleCount, r.previous.exampleCount)
    + Segment("Failure", r.current.failureCount, r.previous.failureCount)
    + Segment("Pending", r.current.pendingCount, r.previous.pendingCount)
  }

  /** `diff`: the report is built up one segment at a time. */
  method Diff(r: Report) returns (report: string)
    ensures report == DiffText(r)
  {
    var example := Segment("Example", r.current.exampleCount, r.previous.exampleCount);
    var failure := Segment("Failure", r.current.failureCount, r.previous.failureCount);
    var pending := Segment("Pending", r.current.pendingCount, r.previous.pendingCount);
    report := "";
    if r.current.exampleCount != r.previous.exampleCount {
      report := report + example;
    }
    assert report == example;
    if r.current.failureCount != r.previous.failureCount {
      report := report + failure;
    }
    assert report == example + failure;
    if r.current.pendingCount != r.previous.pendingCount {
      report := report + pending;
    }
    assert report == example + failure + pending;
  }

  /** The diff is empty exactly when there are no differences. */
  lemma DiffEmptyIff(r: Report)
    ensures DiffText(r) == "" <==> NoDifferences(r)
  {
  }

  /** Swapping the two runs does not change whether they differ. */
  lemma NoDifferencesSymmetric(previous: TestRunResult, current: TestRunResult)
    ensures NoDifferences(Report(previous, current)) <==> NoDifferences(Report(current, previous))
  {
  }

  /** Only the three counts are compared: output, status and errors play no part. */
  lemma OnlyCountsCompared(r: Report, stdout: string, stderr: string, status: Status, errored: Count)
    ensures var current := r.current.(stdout := stdout, stderr := stderr, status := status, errored := errored);
            NoDifferences(Report(r.previous, current)) == NoDifferences(r)
            && DiffText(Report(r.previous, current)) == DiffText(r)
  {
  }

  /** When only the failure counts differ, the diff is that one segment. */
  lemma OnlyFailuresDiffer(r: Report)
    requires r.current.exampleCount == r.previous.exampleCount
    requires r.current.failureCount != r.previous.failureCount
    requires r.current.pendingCount == r.previous.pendingCount
    ensures DiffText(r) == "Failure count mismatch: " + Show(r.current.failureCount) + " != " + Show(r.previous.failureCount)
  {
  }

  /** String counts appear as captured: `Example count mismatch: 3 != 2` for "3" now and "2" before. */
  lemma OnlyExamplesDiffer(r: Report, now: string, before: string)
    requires r.current.exampleCount == Str(now) && r.previous.exampleCount == Str(before) && now != before
    requires r.current.failureCount == r.previous.failureCount && r.current.pendingCount == r.previous.pendingCount
    ensures DiffText(r) == "Example count mismatch: " + now + " != " + before
  {
  }

  /** A count captured as an Array never equals the same count captured as a String. */
  lemma ArrayNeverEqualsString(d: string)
    ensures StrArray([d]) != Str(d)
    ensures Show(StrArray([d])) == "[\"" + d + "\"]"
  {
    assert QuotedAll([d]) == [Quoted(d)];
  }
}

=== FILE: test_run_result.dfy ===
/**
 * The outcome of one run of a test command: its output, its exit status and
 * the counts read from its output. The counts are whatever the runner
 * captured, so they are modelled as the Ruby values they can be.
 */
module TestRunResult {
  import opened Wrappers
  import opened Text

  /**
   * A count as the runners store it: an Integer (the defaults), a String
   * capture, `nil` (no match), or the one-element Array that `values_at`
   * returns.
   */
  datatype Count = Int(n: int) | Str(s: string) | Nil | StrArray(items: seq<string>)

  /** The process status: whether it succeeded, and its exit status. */
  datatype Status = Status(success: bool, exitStatus: int)

  /** A test run result; its fields are only ever read after construction. */
  datatype TestRunResult = TestRunResult(stdout: string, stderr: string, status: Status,
                                         exampleCount: Count, failureCount: Count, pendingCount: Count, errored: Count)

  /** `TestRunResult.new(stdout, stderr, status)`: every count and `errored` default to 0. */
  function NewWithDefaults(stdout: string, stderr: string, status: Status): (r: TestRunResult)
    ensures r.stdout == stdout && r.stderr == stderr && r.status == status
    ensures r.exampleCount == Int(0) && r.failureCount == Int(0) && r.pendingCount == Int(0) && r.errored == Int(0)
  {
    TestRunResult(stdout, stderr, status, Int(0), Int(0), Int(0), Int(0))
  }

  const ArrayToIError := "NoMethodError: undefined method 'to_i' for an instance of Array"

  /** `count.to_i`: an Array has no `to_i` and raises. */
  function CountToI(c: Count): (r: Result<int, string>)
    ensures r.Failure? <==> c.StrArray?
  {
    match c
    case Int(n) => Success(n)
    case Str(s) => Success(ToI(s))
    case Nil => Success(0)
    case StrArray(_) => Failure(ArrayToIError)
  }

  /**
   * `failed?`: failed when the status is not a success; otherwise failed
   * when `errored` is present and its integer value is positive.
   */
  function Failed(r: TestRunResult): (f: Result<bool, string>)
    ensures !r.status.success ==> f == Success(true)
    ensures r.status.success && r.errored.Nil? ==> f == Success(false)
    ensures r.status.success && !r.errored.Nil? ==>
              (f.Failure? <==> CountToI(r.errored).Failure?)
              && (f.Success? ==> f.value == (CountToI(r.errored).value > 0))
  {
    if !r.status.success then Success(true)
    else if r.errored.Nil? then Success(false)
    else
      var n :- CountToI(r.errored);
      Success(n > 0)
  }

  /** A result built with the defaults failed exactly when its status is not a success. */
  lemma DefaultsFailOnlyOnStatus(stdout: string, stderr: string, status: Status)
    ensures Failed(NewWithDefaults(stdout, stderr, status)) == Success(!status.success)
  {
  }

  /** On a successful status, a printed error count makes the run failed iff it is positive. */
  lemma PrintedErrorCount(r: TestRunResult, n: nat)
    requires r.status.success && r.errored == Str(NatToString(n))
    ensures Failed(r) == Success(n > 0)
  {
    ToIOfNatToString(n, "");
    assert NatToString(n) + "" == NatToString(n);
  }
}

=== FILE: test_runners.dfy ===
/**
 * The test runners: each builds a shell command from a template and reads
 * the counts from the command's output. The command's output and status
 * are inputs; running it is not modelled.
 */
module TestRunners {
  import opened Wrappers
  import opened Text
  import opened Patterns
  import opened TestRunResult

  const FileMarker := "__FILE__"
  const DefaultRSpecTemplate := "bundle exec rspec __FILE__"
  const DefaultMinitestTemplate := "bundle exec rails test __FILE__"
  const DefaultSteepTemplate := "bundle exec steep __FILE__"

  /** `command`: every `__FILE__` becomes the path, behind `cd DIR && ` when there is a working directory. */
  function Command(template: string, filePath: string, workingDir: Option<string>): (r: string)
    ensures workingDir.None? ==> r == ReplaceAll(template, FileMarker, filePath)
    ensures workingDir.Some? ==> r == "cd " + workingDir.value + " && " + ReplaceAll(template, FileMarker, filePath)
  {
    var command := ReplaceAll(template, FileMarker, filePath);
    if workingDir.Some? then "cd " + workingDir.value + " && " + command else command
  }

  /** A template with the marker at its end runs the command on the path. */
  lemma CommandOnPath(prefix: string, filePath: string, workingDir: Option<string>)
    requires '_' !in prefix
    ensures Command(prefix + FileMarker, filePath, workingDir)
            == (if workingDir.Some? then "cd " + workingDir.value + " && " else "") + prefix + filePath
  {
    ReplaceTrailing(prefix, FileMarker, filePath);
  }

  /** The default RSpec template runs RSpec on the path. */
  lemma DefaultRSpecCommand(filePath: string)
    ensures Command(DefaultRSpecTemplate, filePath, None) == "bundle exec rspec " + filePath
  {
    var prefix := "bundle exec rspec ";
    assert DefaultRSpecTemplate == prefix + FileMarker;
    assert '_' !in prefix;
    CommandOnPath(prefix, filePath, None);
  }

  /** The default Minitest template runs Rails' test task on the path. */
  lemma DefaultMinitestCommand(filePath: string)
    ensures Command(DefaultMinitestTemplate, filePath, None) == "bundle exec rails test " + filePath
  {
    var prefix := "bundle exec rails test ";
    assert DefaultMinitestTemplate == prefix + FileMarker;
    assert '_' !in prefix;
    CommandOnPath(prefix, filePath, None);
  }

  /** The default Steep template runs Steep on the path. */
  lemma DefaultSteepCommand(filePath: string)
    ensures Command(DefaultSteepTemplate, filePath, None) == "bundle exec steep " + filePath
  {
    var prefix := "bundle exec steep ";
    assert DefaultSteepTemplate == prefix + FileMarker;
    assert '_' !in prefix;
    CommandOnPath(prefix, filePath, None);
  }

  // ---------------------------------------------------------------------
  // Summary lines

  /** `/(\d+) examples?, (\d+) failures?/` */
  const ExamplesPattern: Pattern := [Digits, Lit(" example"), Opt('s'), Lit(", "), Digits, Lit(" failure"), Opt('s')]
  /** `/(\d+) pending/` */
  const PendingPattern: Pattern := [Digits, Lit(" pending")]
  /** The errors line `, N error(s) occurred outside of examples`, N captured. */
  const ErroredPattern: Pattern := [Lit(", "), Digits, Lit(" error"), Opt('s'), Lit(" occurred outside of examples")]
  /** `/(\d+) runs, (\d+) assertions, (\d+) failures, (\d+) errors, (\d+) skips/` */
  const MinitestPattern: Pattern :=
    [Digits, Lit(" runs, "), Digits, Lit(" assertions, "), Digits, Lit(" failures, "), Digits, Lit(" errors, "), Digits, Lit(" skips")]

  /** Capture `k` of a match as a String, `nil` without a match (`match(..).to_a` destructured). */
  function Capture(m: Option<seq<string>>, k: nat): Count {
    if m.Some? && k < |m.value| then Str(m.value[k]) else Nil
  }

  /** The first capture as a one-element Array (`match(..)&.values_at(1)`), or the String "0". */
  function FirstCaptureOrZero(m: Option<seq<string>>): Count {
    if m.Some? && m.value != [] then StrArray([m.value[0]]) else Str("0")
  }

  /** The RSpec runners' `run`: examples and failures from the summary, pending and errors as Arrays or "0". */
  function RSpecResult(stdout: string, stderr: string, status: Status): (r: TestRunResult)
    ensures r.stdout == stdout && r.stderr == stderr && r.status == status
    ensures Match(stdout, ExamplesPattern).None? ==> r.exampleCount == Nil && r.failureCount == Nil
    ensures Match(stdout, PendingPattern).None? ==> r.pendingCount == Str("0")
    ensures Match(stdout, ErroredPattern).None? ==> r.errored == Str("0")
    ensures r.pendingCount == Str("0") || r.pendingCount.StrArray?
    ensures r.errored == Str("0") || r.errored.StrArray?
  {
    var summary := Match(stdout, ExamplesPattern);
    TestRunResult(stdout, stderr, status, Capture(summary, 0), Capture(summary, 1),
                  FirstCaptureOrZero(Match(stdout, PendingPattern)), FirstCaptureOrZero(Match(stdout, ErroredPattern)))
  }

  /** The Minitest runners' `run`: runs, failures, skips and errors from the summary; assertions are dropped. */
  function MinitestResult(stdout: string, stderr: string, status: Status): (r: TestRunResult)
    ensures r.stdout == stdout && r.stderr == stderr && r.status == status
    ensures Match(stdout, MinitestPattern).None? ==>
              r.exampleCount == Nil && r.failureCount == Nil && r.pendingCount == Nil && r.errored == Nil
  {
    var m := Match(stdout, MinitestPattern);
    TestRunResult(stdout, stderr, status, Capture(m, 0), Capture(m, 2), Capture(m, 4), Capture(m, 3))
  }

  /** The Steep runner's `run`: the output is not read, so every count keeps its default. */
  function SteepResult(stdout: string, stderr: string, status: Status): (r: TestRunResult)
    ensures Failed(r) == Success(!status.success)
  {
    DefaultsFailOnlyOnStatus(stdout, stderr, status);
    NewWithDefaults(stdout, stderr, status)
  }

  // ---------------------------------------------------------------------
  // Reading printed summaries back

  /** Counts printed after words that start with a non-digit. */
  function Line(nums: seq<nat>, words: seq<string>): string
    requires |nums| == |words|
  {
    if nums == [] then "" else NatToString(nums[0]) + (words[0] + Line(nums[1..], words[1..]))
  }

  /** The pattern capturing each count before its word. */
  function PatternOf(words: seq<string>): Pattern {
    if words == [] then [] else [Digits, Lit(words[0])] + PatternOf(words[1..])
  }

  function Printed(nums: seq<nat>): (r: seq<string>)
    ensures |r| == |nums| && forall k :: 0 <= k < |nums| ==> r[k] == NatToString(nums[k])
  {
    if nums == [] then [] else [NatToString(nums[0])] + Printed(nums[1..])
  }

  predicate WordsOk(words: seq<string>) {
    forall k :: 0 <= k < |words| ==> words[k] != [] && !IsDigit(words[k][0])
  }

  lemma WordsOkTail(words: seq<string>)
    requires WordsOk(words) && words != []
    ensures words[0] != [] && !IsDigit(words[0][0]) && WordsOk(words[1..])
  {
    forall k | 0 <= k < |words[1..]| ensures words[1..][k] != [] && !IsDigit(words[1..][k][0]) {
      assert words[1..][k] == words[k + 1];
    }
  }

  /** One count and the word after it are read back, the count captured. */
  lemma CountThenWord(s: string, i: nat, n: nat, w: string, rest: Pattern)
    requires w != [] && !IsDigit(w[0])
    requires OccursAt(s, i, NatToString(n) + w)
    requires MatchFrom(s, i + |NatToString(n)| + |w|, rest).Some?
    ensures MatchFrom(s, i, [Digits, Lit(w)] + rest)
            == Some([NatToString(n)] + MatchFrom(s, i + |NatToString(n)| + |w|, rest).value)
  {
    var d := NatToString(n);
    OccursSplit(s, i, d, w);
    assert s[i + |d|] == w[0] by { assert s[i + |d|..i + |d| + |w|][0] == s[i + |d|]; }
    LitStep(s, i + |d|, w, rest);
    assert [Digits, Lit(w)] + rest == [Digits] + ([Lit(w)] + rest);
    NumberAt(s, i, n, [Lit(w)] + rest);
  }

  /** A printed line of counts is read back as those counts, wherever it starts. */
  lemma {:induction false} LineMatches(s: string, i: nat, nums: seq<nat>, words: seq<string>)
    requires |nums| == |words| && WordsOk(words)
    requires OccursAt(s, i, Line(nums, words))
    ensures MatchFrom(s, i, PatternOf(words)) == Some(Printed(nums))
    decreases |nums|
  {
    if nums != [] {
      var d, w, tail := NatToString(nums[0]), words[0], Line(nums[1..], words[1..]);
      assert Line(nums, words) == (d + w) + tail;
      OccursSplit(s, i, d + w, tail);
      WordsOkTail(words);
      LineMatches(s, i + |d + w|, nums[1..], words[1..]);
      CountThenWord(s, i, nums[0], w, PatternOf(words[1..]));
      assert PatternOf(words) == [Digits, Lit(w)] + PatternOf(words[1..]);
      assert Printed(nums) == [d] + Printed(nums[1..]);
    }
  }

  const MinitestWords := [" runs, ", " assertions, ", " failures, ", " errors, ", " skips"]

  lemma MinitestWordsOk()
    ensures WordsOk(MinitestWords) && PatternOf(MinitestWords) == MinitestPattern
  {
    assert MinitestWords[1..][1..][1..][1..][1..] == [];
  }

  /**
   * A Minitest summary line after output that holds no earlier match (the
   * progress and timing lines) is read back: runs, failures, skips and errors
   * land in the example, failure, pending and errored counts, and the run
   * failed iff its status failed or it had errors.
   */
  lemma MinitestSummary(prefix: string, runs: nat, assertions: nat, failures: nat, errors: nat, skips: nat,
                        rest: string, stderr: string, status: Status)
    requires NoMatchBetween(prefix + Line([runs, assertions, failures, errors, skips], MinitestWords) + rest, MinitestPattern, 0, |prefix|)
    ensures var line := Line([runs, assertions, failures, errors, skips], MinitestWords);
            var r := MinitestResult(prefix + line + rest, stderr, status);
            r.exampleCount == Str(NatToString(runs)) && r.failureCount == Str(NatToString(failures))
            && r.pendingCount == Str(NatToString(skips)) && r.errored == Str(NatToString(errors))
            && Failed(r) == Success(!status.success || errors > 0)
  {
    var nums := [runs, assertions, failures, errors, skips];
    var line := Line(nums, MinitestWords);
    var s := prefix + line + rest;
    MinitestWordsOk();
    assert OccursAt(s, |prefix|, line) by { assert s[|prefix|..|prefix| + |line|] == line; }
    LineMatches(s, |prefix|, nums, MinitestWords);
    SearchSkips(s, MinitestPattern, 0, |prefix|);
    var r := MinitestResult(s, stderr, status);
    if status.success {
      PrintedErrorCount(r, errors);
    }
  }

  /** A word, an optional character that is there, and a word that does not start with it. */
  lemma OptPresent(s: string, k: nat, w: string, c: char, t: string, rest: Pattern)
    requires t != [] && t[0] != c
    requires OccursAt(s, k, w + ([c] + t)) && MatchFrom(s, k + |w| + 1 + |t|, rest).Some?
    ensures MatchFrom(s, k, [Lit(w), Opt(c), Lit(t)] + rest) == MatchFrom(s, k + |w| + 1 + |t|, rest)
  {
    OccursSplit(s, k, w, [c] + t);
    OccursSplit(s, k + |w|, [c], t);
    assert s[k + |w|] == c by { assert s[k + |w|..k + |w| + 1][0] == s[k + |w|]; }
    LitStep(s, k + |w| + 1, t, rest);
    OptTaken(s, k + |w|, c, [Lit(t)] + rest);
    LitStep(s, k, w, [Opt(c)] + ([Lit(t)] + rest));
    assert [Lit(w), Opt(c), Lit(t)] + rest == [Lit(w)] + ([Opt(c)] + ([Lit(t)] + rest));
  }

  /** A word, an optional character that is not there, and a word that does not start with it. */
  lemma OptAbsent(s: string, k: nat, w: string, c: char, t: string, rest: Pattern)
    requires t != [] && t[0] != c
    requires OccursAt(s, k, w + t)
    ensures MatchFrom(s, k, [Lit(w), Opt(c), Lit(t)] + rest) == MatchFrom(s, k + |w| + |t|, rest)
  {
    OccursSplit(s, k, w, t);
    assert s[k + |w|] == t[0] by { assert s[k + |w|..k + |w| + |t|][0] == s[k + |w|]; }
    LitStep(s, k + |w|, t, rest);
    OptSkipped(s, k + |w|, c, [Lit(t)] + rest);
    LitStep(s, k, w, [Opt(c)] + ([Lit(t)] + rest));
    assert [Lit(w), Opt(c), Lit(t)] + rest == [Lit(w)] + ([Opt(c)] + ([Lit(t)] + rest));
  }

  /** A word followed by an optional character at the end of a pattern matches with or without it. */
  lemma OptAtEnd(s: string, k: nat, w: string, c: char)
    requires OccursAt(s, k, w)
    ensures MatchFrom(s, k, [Lit(w), Opt(c)]) == Some([])
  {
    LitStep(s, k, w, [Opt(c)]);
    if k + |w| < |s| && s[k + |w|] == c {
      OptTaken(s, k + |w|, c, []);
    } else {
      OptSkipped(s, k + |w|, c, []);
    }
  }

  /** The summary words of RSpec: `example` and `failure`, each optionally plural. */
  function ExampleWord(plural: bool): string { if plural then " examples, " else " example, " }
  function FailureWord(plural: bool): string { if plural then " failures" else " failure" }

  lemma SummaryWords(pluralE: bool)
    ensures pluralE ==> ExampleWord(pluralE) == " example" + (['s'] + ", ")
    ensures !pluralE ==> ExampleWord(pluralE) == " example" + ", "
  {
  }

  /**
   * A summary `N example(s), M failure(s)` after output that holds no
   * earlier match (the progress and timing lines) gives both counts as
   * printed, singular or plural.
   */
  lemma RSpecSummary(prefix: string, n: nat, m: nat, pluralE: bool, pluralF: bool, rest: string, stderr: string, status: Status)
    requires NoMatchBetween(prefix + (NatToString(n) + (ExampleWord(pluralE) + (NatToString(m) + (FailureWord(pluralF) + rest)))),
                            ExamplesPattern, 0, |prefix|)
    ensures var r := RSpecResult(prefix + (NatToString(n) + (ExampleWord(pluralE) + (NatToString(m) + (FailureWord(pluralF) + rest)))),
                                 stderr, status);
            r.exampleCount == Str(NatToString(n)) && r.failureCount == Str(NatToString(m))
  {
    var s := prefix + (NatToString(n) + (ExampleWord(pluralE) + (NatToString(m) + (FailureWord(pluralF) + rest))));
    var line := NatToString(n) + (ExampleWord(pluralE) + (NatToString(m) + FailureWord(pluralF)));
    assert s == prefix + line + rest;
    assert OccursAt(s, |prefix|, line) by { assert s[|prefix|..|prefix| + |line|] == line; }
    SummaryLineAt(s, |prefix|, n, m, pluralE, pluralF);
    SearchSkips(s, ExamplesPattern, 0, |prefix|);
    RSpecCounts(s, NatToString(n), NatToString(m), stderr, status);
  }

  /** The two captures of the summary become the example and failure counts. */
  lemma RSpecCounts(s: string, examples: string, failures: string, stderr: string, status: Status)
    requires Match(s, ExamplesPattern) == Some([examples, failures])
    ensures RSpecResult(s, stderr, status).exampleCount == Str(examples)
    ensures RSpecResult(s, stderr, status).failureCount == Str(failures)
  {
  }

  /** A summary line that lies at `k` is matched there. */
  lemma SummaryLineAt(s: string, k: nat, n: nat, m: nat, pluralE: bool, pluralF: bool)
    requires OccursAt(s, k, NatToString(n) + (ExampleWord(pluralE) + (NatToString(m) + FailureWord(pluralF))))
    ensures MatchFrom(s, k, ExamplesPattern) == Some([NatToString(n), NatToString(m)])
  {
    SummaryParts(s, k, NatToString(n), ExampleWord(pluralE), NatToString(m), FailureWord(pluralF));
    SummaryAt(s, k, n, m, pluralE, pluralF);
  }

  /** Where the four parts of a summary line lie in the output. */
  lemma SummaryParts(s: string, k: nat, dn: string, e: string, dm: string, f: string)
    requires OccursAt(s, k, dn + (e + (dm + f)))
    ensures OccursAt(s, k, dn) && OccursAt(s, k + |dn|, e) && OccursAt(s, k + |dn| + |e|, dm) && OccursAt(s, k + |dn| + |e| + |dm|, f)
  {
    OccursSplit(s, k, dn, e + (dm + f));
    OccursSplit(s, k + |dn|, e, dm + f);
    OccursSplit(s, k + |dn| + |e|, dm, f);
  }

  /** A summary line laid out at `k` in `s` is matched there, capturing both counts. */
  lemma SummaryAt(s: string, k: nat, n: nat, m: nat, pluralE: bool, pluralF: bool)
    requires OccursAt(s, k, NatToString(n))
    requires OccursAt(s, k + |NatToString(n)|, ExampleWord(pluralE))
    requires OccursAt(s, k + |NatToString(n)| + |ExampleWord(pluralE)|, NatToString(m))
    requires OccursAt(s, k + |NatToString(n)| + |ExampleWord(pluralE)| + |NatToString(m)|, FailureWord(pluralF))
    ensures MatchFrom(s, k, ExamplesPattern) == Some([NatToString(n), NatToString(m)])
  {
    var dn, dm := NatToString(n), NatToString(m);
    FailuresAt(s, k + |dn| + |ExampleWord(pluralE)|, m, pluralF);
    ExamplesAt(s, k, n, pluralE, [Digits, Lit(" failure"), Opt('s')], [dm]);
    ExamplesPatternShape(s, k, [dn] + [dm]);
    assert [dn] + [dm] == [dn, dm];
  }

  lemma ExamplesPatternShape(s: string, k: nat, caps: seq<string>)
    requires k <= |s|
    requires MatchFrom(s, k, [Digits] + ([Lit(" example"), Opt('s'), Lit(", ")] + [Digits, Lit(" failure"), Opt('s')])) == Some(caps)
    ensures MatchFrom(s, k, ExamplesPattern) == Some(caps)
  {
    assert ExamplesPattern == [Digits] + ([Lit(" example"), Opt('s'), Lit(", ")] + [Digits, Lit(" failure"), Opt('s')]);
  }

  /** `N example(s), ` at `k`, followed by what the rest of the pattern matches. */
  lemma ExamplesAt(s: string, k: nat, n: nat, pluralE: bool, rest: Pattern, caps: seq<string>)
    requires OccursAt(s, k, NatToString(n))
    requires OccursAt(s, k + |NatToString(n)|, ExampleWord(pluralE))
    requires MatchFrom(s, k + |NatToString(n)| + |ExampleWord(pluralE)|, rest) == Some(caps)
    ensures MatchFrom(s, k, [Digits] + ([Lit(" example"), Opt('s'), Lit(", ")] + rest)) == Some([NatToString(n)] + caps)
  {
    var dn, e := NatToString(n), ExampleWord(pluralE);
    var middle := [Lit(" example"), Opt('s'), Lit(", ")] + rest;
    SummaryWords(pluralE);
    if pluralE {
      OptPresent(s, k + |dn|, " example", 's', ", ", rest);
    } else {
      OptAbsent(s, k + |dn|, " example", 's', ", ", rest);
    }
    assert s[k + |dn|] == e[0] by { assert s[k + |dn|..k + |dn| + |e|][0] == s[k + |dn|]; }
    NumberAt(s, k, n, middle);
  }

  /** `M failure(s)` at `k` is matched by the second half of the summary pattern. */
  lemma FailuresAt(s: string, k: nat, m: nat, pluralF: bool)
    requires OccursAt(s, k, NatToString(m))
    requires OccursAt(s, k + |NatToString(m)|, FailureWord(pluralF))
    ensures MatchFrom(s, k, [Digits, Lit(" failure"), Opt('s')]) == Some([NatToString(m)])
  {
    var dm, f := NatToString(m), FailureWord(pluralF);
    var j := k + |dm|;
    var tail := [Lit(" failure"), Opt('s')];
    assert f == " failure" + (if pluralF then ['s'] else []);
    OccursSplit(s, j, " failure", if pluralF then ['s'] else []);
    OptAtEnd(s, j, " failure", 's');
    assert s[j] == f[0] by { assert s[j..j + |f|][0] == s[j]; }
    NumberAt(s, k, m, tail);
    assert [dm] + MatchFrom(s, j, tail).value == [dm];
    assert [Digits] + tail == [Digits, Lit(" failure"), Opt('s')];
  }

  /**
   * An RSpec run that reports errors outside of examples captures them as
   * an Array, so asking a successful run whether it failed raises.
   */
  lemma RSpecErrorsRaise(stdout: string, stderr: string, status: Status)
    requires status.success && Match(stdout, ErroredPattern).Some? && Match(stdout, ErroredPattern).value != []
    ensures Failed(RSpecResult(stdout, stderr, status)).Failure?
  {
  }

  /** An RSpec run whose output reports no errors outside of examples failed exactly when its status failed. */
  lemma RSpecNoErrorsLine(stdout: string, stderr: string, status: Status)
    requires Match(stdout, ErroredPattern).None?
    ensures Failed(RSpecResult(stdout, stderr, status)) == Success(!status.success)
  {
    assert ToI("0") == 0 by { DigitRunEndAt("0", 0, 1); }
  }
}

=== FILE: text.dfy ===
/**
 * The Ruby String operations the tool relies on, over `seq<char>`:
 * literal `gsub`, `split`, `join`, `tr`, ASCII `downcase`, `to_s` of
 * integers and `to_i` of digit strings.
 */
module Text {

  /** `p` occurs in `s` starting at index `i`. */
  predicate OccursAt(s: string, i: int, p: string) {
    0 <= i && i + |p| <= |s| && s[i..i + |p|] == p
  }

  predicate Contains(s: string, p: string) {
    exists i | 0 <= i <= |s| :: OccursAt(s, i, p)
  }

  predicate StartsWith(s: string, p: string) {
    |p| <= |s| && s[..|p|] == p
  }

  predicate EndsWith(s: string, p: string) {
    |p| <= |s| && s[|s| - |p|..] == p
  }

  /**
   * Ruby's `s.gsub(p, r)` with a String pattern: every non-overlapping
   * occurrence of `p`, scanning from the left, becomes `r`. An empty pattern
   * matches before every character and at the end, as in Ruby.
   */
  function ReplaceAll(s: string, p: string, r: string): string
    decreases |s|
  {
    if p == [] then
      if s == [] then r else r + [s[0]] + ReplaceAll(s[1..], p, r)
    else if |s| < |p| then s
    else if s[..|p|] == p then r + ReplaceAll(s[|p|..], p, r)
    else [s[0]] + ReplaceAll(s[1..], p, r)
  }

  /** With nothing to replace, `gsub` returns its receiver unchanged. */
  lemma {:induction false} ReplaceAllAbsent(s: string, p: string, r: string)
    requires p != [] && !Contains(s, p)
    ensures ReplaceAll(s, p, r) == s
  {
    if |s| >= |p| {
      assert !OccursAt(s, 0, p);
      forall i ensures !OccursAt(s[1..], i, p) {
        if OccursAt(s[1..], i, p) {
          assert s[1..][i..i + |p|] == s[i + 1..i + 1 + |p|];
          assert OccursAt(s, i + 1, p);
        }
      }
      ReplaceAllAbsent(s[1..], p, r);
    }
  }

  /** Replacing a pattern by itself changes nothing. */
  lemma {:induction false} ReplaceAllIdentity(s: string, p: string)
    requires p != []
    ensures ReplaceAll(s, p, p) == s
  {
    if |s| >= |p| {
      if s[..|p|] == p {
        ReplaceAllIdentity(s[|p|..], p);
        assert s == s[..|p|] + s[|p|..];
      } else {
        ReplaceAllIdentity(s[1..], p);
        assert s == [s[0]] + s[1..];
      }
    }
  }

  /** A leading occurrence of the pattern is the first one replaced. */
  lemma ReplaceAllHead(p: string, b: string, r: string)
    requires p != []
    ensures ReplaceAll(p + b, p, r) == r + ReplaceAll(b, p, r)
  {
    assert (p + b)[..|p|] == p;
    assert (p + b)[|p|..] == b;
  }

  /**
   * A prefix in which no occurrence of the pattern starts is copied
   * unchanged, and replacement resumes right after it.
   */
  lemma {:induction false} ReplaceAllSkip(a: string, b: string, p: string, r: string)
    requires p != []
    requires forall i :: 0 <= i < |a| ==> !OccursAt(a + b, i, p)
    ensures ReplaceAll(a + b, p, r) == a + ReplaceAll(b, p, r)
  {
    if a == [] {
      assert a + b == b;
    } else {
      var s := a + b;
      assert s[1..] == a[1..] + b;
      NoOccurrenceLater(a, b, p);
      ReplaceAllSkip(a[1..], b, p, r);
      ReplaceAllStep(s, p, r);
      assert s[0] == a[0];
      HeadTail(a, ReplaceAll(b, p, r));
    }
  }

  lemma HeadTail(a: string, c: string)
    requires a != []
    ensures [a[0]] + (a[1..] + c) == a + c
  {
    assert a == [a[0]] + a[1..];
  }

  lemma NoOccurrenceLater(a: string, b: string, p: string)
    requires a != []
    requires forall i :: 0 <= i < |a| ==> !OccursAt(a + b, i, p)
    ensures !OccursAt(a + b, 0, p)
    ensures forall i :: 0 <= i < |a[1..]| ==> !OccursAt(a[1..] + b, i, p)
  {
    assert (a + b)[1..] == a[1..] + b;
    forall i | 0 <= i < |a[1..]| ensures !OccursAt(a[1..] + b, i, p) {
      assert !OccursAt(a + b, i + 1, p);
    }
  }

  /** Where no occurrence starts, the first character is copied. */
  lemma ReplaceAllStep(s: string, p: string, r: string)
    requires p != [] && s != [] && !OccursAt(s, 0, p)
    ensures ReplaceAll(s, p, r) == [s[0]] + ReplaceAll(s[1..], p, r)
  {
    if |s| < |p| {
      assert s == [s[0]] + s[1..];
    }
  }

  /** A character found in neither the receiver nor the replacement is not in the result. */
  lemma {:induction false} ReplaceAllAvoids(s: string, p: string, r: string, c: char)
    requires c !in s && c !in r
    ensures c !in ReplaceAll(s, p, r)
    decreases |s|
  {
    if p == [] {
      if s != [] {
        ReplaceAllAvoids(s[1..], p, r, c);
      }
    } else if |s| >= |p| {
      if s[..|p|] == p {
        ReplaceAllAvoids(s[|p|..], p, r, c);
      } else {
        ReplaceAllAvoids(s[1..], p, r, c);
      }
    }
  }

  /** No occurrence can start at a character that is not the pattern's first. */
  lemma NoOccurrenceWithoutFirstChar(a: string, b: string, p: string)
    requires p != [] && p[0] !in a
    ensures forall i :: 0 <= i < |a| ==> !OccursAt(a + b, i, p)
  {
    forall i | 0 <= i < |a| ensures !OccursAt(a + b, i, p) {
      assert (a + b)[i] == a[i];
    }
  }

  /**
   * A template whose only occurrence of the pattern is one trailing copy:
   * `gsub` puts the replacement in its place.
   */
  lemma ReplaceTrailing(a: string, p: string, r: string)
    requires p != [] && p[0] !in a
    ensures ReplaceAll(a + p, p, r) == a + r
  {
    NoOccurrenceWithoutFirstChar(a, p, p);
    ReplaceAllSkip(a, p, p, r);
    ReplaceAllHead(p, [], r);
    assert p + [] == p;
    assert ReplaceAll([], p, r) == [];
  }

  /** Ruby's `Array#join(sep)`. */
  function Join(parts: seq<string>, sep: string): string {
    if parts == [] then []
    else if |parts| == 1 then parts[0]
    else parts[0] + sep + Join(parts[1..], sep)
  }

  /** Joining one more part adds the separator and the part at the end. */
  lemma {:induction false} JoinAppend(parts: seq<string>, last: string, sep: string)
    requires parts != []
    ensures Join(parts + [last], sep) == Join(parts, sep) + sep + last
  {
    if |parts| == 1 {
      assert (parts + [last])[1..] == [last];
    } else {
      assert (parts + [last])[1..] == parts[1..] + [last];
      JoinAppend(parts[1..], last, sep);
    }
  }

  /** `Array#join` with no separator. */
  function Concat(parts: seq<string>): string {
    if parts == [] then [] else parts[0] + Concat(parts[1..])
  }

  lemma {:induction false} ConcatAppend(parts: seq<string>, last: string)
    ensures Concat(parts + [last]) == Concat(parts) + last
  {
    if parts != [] {
      assert (parts + [last])[1..] == parts[1..] + [last];
      ConcatAppend(parts[1..], last);
    }
  }

  /**
   * The fields of `s` between the non-overlapping occurrences of `sep`,
   * found from the left (there is always at least one field).
   */
  function Fields(s: string, sep: string): (r: seq<string>)
    requires sep != []
    ensures |r| >= 1
    decreases |s|
  {
    if |s| < |sep| then [s]
    else if s[..|sep|] == sep then [[]] + Fields(s[|sep|..], sep)
    else
      var rest := Fields(s[1..], sep);
      [[s[0]] + rest[0]] + rest[1..]
  }

  function DropTrailingEmpty(fields: seq<string>): (r: seq<string>)
    ensures r <= fields
    ensures r == [] || r[|r| - 1] != []
  {
    if fields == [] then []
    else if fields[|fields| - 1] == [] then DropTrailingEmpty(fields[..|fields| - 1])
    else fields
  }

  /** Ruby's `String#split(sep)` for a non-empty String separator: trailing empty fields are dropped. */
  function Split(s: string, sep: string): seq<string>
    requires sep != []
  {
    DropTrailingEmpty(Fields(s, sep))
  }

  /** A single field free of the separator's first character is read back whole. */
  lemma {:induction false} FieldsOfPlain(line: string, rest: string, sep: string)
    requires sep != [] && sep[0] !in line
    ensures Fields(line + rest, sep) ==
            [line + Fields(rest, sep)[0]] + Fields(rest, sep)[1..]
  {
    if line != [] {
      var s := line + rest;
      assert |s| >= |sep| ==> s[..|sep|][0] == line[0];
      assert s[1..] == line[1..] + rest;
      FieldsOfPlain(line[1..], rest, sep);
      assert [s[0]] + (line[1..] + Fields(rest, sep)[0]) == line + Fields(rest, sep)[0];
    } else {
      assert line + rest == rest;
      var f := Fields(rest, sep);
      assert [] + f[0] == f[0];
      assert f == [f[0]] + f[1..];
    }
  }

  /** Splitting a joined list on its separator gives the list back. */
  lemma {:induction false} FieldsOfJoin(lines: seq<string>, sep: string)
    requires sep != [] && lines != []
    requires forall k :: 0 <= k < |lines| ==> sep[0] !in lines[k]
    ensures Fields(Join(lines, sep), sep) == lines
  {
    if |lines| == 1 {
      FieldsOfPlain(lines[0], [], sep);
      assert lines[0] + [] == lines[0];
    } else {
      var rest := Join(lines[1..], sep);
      FieldsOfJoin(lines[1..], sep);
      assert Join(lines, sep) == lines[0] + (sep + rest);
      FieldsOfPlain(lines[0], sep + rest, sep);
      assert (sep + rest)[..|sep|] == sep;
      assert (sep + rest)[|sep|..] == rest;
      assert Fields(sep + rest, sep) == [[]] + lines[1..];
      assert lines[0] + [] == lines[0];
    }
  }

  lemma SplitOfJoin(lines: seq<string>, sep: string)
    requires sep != []
    requires forall k :: 0 <= k < |lines| ==> sep[0] !in lines[k]
    requires lines == [] || lines[|lines| - 1] != []
    ensures Split(Join(lines, sep), sep) == lines
  {
    if lines == [] {
      assert Fields([], sep) == [[]];
    } else {
      FieldsOfJoin(lines, sep);
    }
  }

  /** Ruby's `String#tr(from, to)` for one character. */
  function Tr(s: string, from: char, to: char): (r: string)
    ensures |r| == |s|
    ensures forall k :: 0 <= k < |s| ==> r[k] == (if s[k] == from then to else s[k])
  {
    if s == [] then [] else [if s[0] == from then to else s[0]] + Tr(s[1..], from, to)
  }

  predicate IsUpper(c: char) { 'A' <= c <= 'Z' }
  predicate IsLower(c: char) { 'a' <= c <= 'z' }
  predicate IsDigit(c: char) { '0' <= c <= '9' }

  function LowerChar(c: char): char {
    if IsUpper(c) then (c as int - 'A' as int + 'a' as int) as char else c
  }

  /** `String#downcase` restricted to ASCII letters. */
  function Lower(s: string): (r: string)
    ensures |r| == |s|
    ensures forall k :: 0 <= k < |s| ==> r[k] == LowerChar(s[k])
  {
    if s == [] then [] else [LowerChar(s[0])] + Lower(s[1..])
  }

  function DigitChar(d: nat): char
    requires d < 10
  {
    ('0' as int + d) as char
  }

  /** `Integer#to_s` for a natural number. */
  function NatToString(n: nat): (r: string)
    ensures |r| >= 1
    ensures forall k :: 0 <= k < |r| ==> IsDigit(r[k])
    decreases n
  {
    if n < 10 then [DigitChar(n)] else NatToString(n / 10) + [DigitChar(n % 10)]
  }

  /** `Integer#to_s`. */
  function IntToString(n: int): string {
    if n < 0 then "-" + NatToString(-n) else NatToString(n)
  }

  /** The end of the run of ASCII digits that starts at `i`. */
  function DigitRunEnd(s: string, i: nat): (j: nat)
    requires i <= |s|
    ensures i <= j <= |s|
    ensures forall k :: i <= k < j ==> IsDigit(s[k])
    ensures j < |s| ==> !IsDigit(s[j])
    decreases |s| - i
  {
    if i < |s| && IsDigit(s[i]) then DigitRunEnd(s, i + 1) else i
  }

  /** The value of a string of ASCII digits. */
  function DigitsValue(s: string): nat
    requires forall k :: 0 <= k < |s| ==> IsDigit(s[k])
  {
    if s == [] then 0
    else
      assert IsDigit(s[|s| - 1]);
      10 * DigitsValue(s[..|s| - 1]) + (s[|s| - 1] as int - '0' as int)
  }

  /**
   * `String#to_i` on a string that starts with its digits: the value of the
   * leading run of digits, 0 when there is none.
   */
  function ToI(s: string): nat {
    DigitsValue(s[..DigitRunEnd(s, 0)])
  }

  /** Reading back a printed number gives the number. */
  lemma {:induction false} DigitsValueOfNatToString(n: nat)
    ensures DigitsValue(NatToString(n)) == n
  {
    if n >= 10 {
      var s := NatToString(n);
      assert s[..|s| - 1] == NatToString(n / 10);
      DigitsValueOfNatToString(n / 10);
    }
  }

  /** A run of digits from `i` to a non-digit at `j` ends at `j`. */
  lemma {:induction false} DigitRunEndAt(s: string, i: nat, j: nat)
    requires i <= j <= |s|
    requires forall k :: i <= k < j ==> IsDigit(s[k])
    requires j == |s| || !IsDigit(s[j])
    ensures DigitRunEnd(s, i) == j
    decreases j - i
  {
    if i < j {
      DigitRunEndAt(s, i + 1, j);
    }
  }

  /** A printed number followed by a non-digit is a whole digit run. */
  lemma DigitRunOfNatToString(n: nat, rest: string)
    requires rest == [] || !IsDigit(rest[0])
    ensures DigitRunEnd(NatToString(n) + rest, 0) == |NatToString(n)|
  {
    var s := NatToString(n) + rest;
    var d := NatToString(n);
    forall k | 0 <= k < |d| ensures IsDigit(s[k]) {
      assert s[k] == d[k];
    }
    DigitRunEndAt(s, 0, |d|);
  }

  lemma ToIOfNatToString(n: nat, rest: string)
    requires rest == [] || !IsDigit(rest[0])
    ensures ToI(NatToString(n) + rest) == n
  {
    DigitRunOfNatToString(n, rest);
    assert (NatToString(n) + rest)[..|NatToString(n)|] == NatToString(n);
    DigitsValueOfNatToString(n);
  }
}

=== FILE: wrappers.dfy ===
/** Failure-compatible wrappers shared by every module of the model. */
module Wrappers {

  /** A Ruby value that may be `nil`. */
  datatype Option<+T> = None | Some(value: T) {
    function GetOr(default: T): T {
      match this
      case Some(v) => v
      case None => default
    }
  }

  /** The outcome of a Ruby call that either returns or raises. */
  datatype Result<+T, +E> = Success(value: T) | Failure(error: E) {
    predicate IsFailure() {
      Failure?
    }
    function PropagateFailure<U>(): Result<U, E>
      requires Failure?
    {
      Failure(error)
    }
    function Extract(): T
      requires Success?
    {
      value
    }
  }
}

=== FILE: writers.dfy ===
/**
 * The refactors that write something new with the newer base class: a
 * Minitest test for a class, RBS signatures for a Ruby file, and
 * changelog entries from the git history. Each settles its output path
 * first (an error there escapes the run), then calls `process!`, whose
 * errors make the run false.
 */
module Writers {
  import opened Wrappers
  import opened Text
  import opened Files
  import opened TestRunResult
  import opened Runs
  import RubyFile
  import TestRunners
  import Refactors

  /** `input_file.gsub(/\.rb$/, replacement)` on a one-line path: a trailing ".rb" is replaced. */
  function WithExtension(inputFile: string, replacement: string): (r: string)
    ensures EndsWith(inputFile, ".rb") ==> r == inputFile[..|inputFile| - 3] + replacement
    ensures !EndsWith(inputFile, ".rb") ==> r == inputFile
  {
    if EndsWith(inputFile, ".rb") then inputFile[..|inputFile| - 3] + replacement else inputFile
  }

  /** A Ruby file `name.rb` gets `replacement` in place of its extension; other names are kept. */
  lemma WithExtensionOf(name: string, replacement: string)
    ensures WithExtension(name + ".rb", replacement) == name + replacement
  {
    var f := name + ".rb";
    assert f[|f| - 3..] == ".rb";
    assert f[..|f| - 3] == name;
  }

  // ---------------------------------------------------------------------
  // Minitest::WriteTestForClass

  const RubyTestTemplate := "bundle exec ruby __FILE__"

  /** `default_output_path`: the test under `test/`, named after the file with "_test.rb". */
  function TestPathFor(inputFile: string): string {
    RubyFile.Join("test", WithExtension(inputFile, "_test.rb"))
  }

  lemma TestPathOf(name: string)
    ensures TestPathFor(name + ".rb") == "test/" + name + "_test.rb"
  {
    WithExtensionOf(name, "_test.rb");
  }

  /**
   * `WriteTestForClass#run`: with no output path the run is false; the
   * test at the path is run with `ruby`, and a failure records why. The
   * path was settled first, so the content is never returned.
   */
  function WriteTest(s: Refactors.Setup, files: map<string, string>, inputContent: Option<string>,
                     env: Refactors.Env, sh: Shell): (r: RunStep)
  {
    match Refactors.DetermineOutputFilePath(s)
    case Failure(e) => RunStep(Raised(e), None, files)
    case Success(path) =>
      var step := Refactors.ProcessSpec(s, files, inputContent, env, None, true);
      var after := AfterProcess(files, step);
      if step.outcome.Failure? || path.None? then RunStep(Verdict(false), step.message, after)
      else if Failed(MinitestRun(sh, RubyTestTemplate, path.value, after)).value then
        RunStep(Verdict(false), Some(TestFailed), after)
      else RunStep(Verdict(true), step.message, after)
  }

  method WriteTestForClass(r: Refactors.BaseRefactor, fs: FileSystem, env: Refactors.Env, sh: Shell)
    returns (result: RunResult)
    requires r.Valid()
    modifies r, fs
    ensures r.Valid()
    ensures var step := WriteTest(r.setup, old(fs.files), old(r.inputContent), env, sh);
            result == step.result && fs.files == step.files
            && r.failedMessage == Recorded(old(r.failedMessage), step.message)
  {
    var path := r.OutputFilePath();
    if path.Failure? {
      return Raised(path.error);
    }
    var processed := r.Process(fs, env, None, true);
    if processed.Failure? || path.value.None? {
      return Verdict(false);
    }
    var test := MinitestRun(sh, RubyTestTemplate, path.value.value, fs.files);
    if Failed(test).value {
      r.failedMessage := Some(TestFailed);
      return Verdict(false);
    }
    return Verdict(true);
  }

  /**
   * The run is true exactly when `process!` succeeds (even by declining to
   * overwrite), there is an output path, and the test at it passes on the
   * files as `process!` left them; it never returns the content.
   */
  lemma WriteTestTrueIff(s: Refactors.Setup, files: map<string, string>, inputContent: Option<string>,
                         env: Refactors.Env, sh: Shell)
    ensures var r := WriteTest(s, files, inputContent, env, sh);
            var step := Refactors.ProcessSpec(s, files, inputContent, env, None, true);
            !r.result.Content?
            && (r.result == Verdict(true) <==>
                  step.outcome.Success? && step.outputPath.Some?
                  && !Failed(MinitestRun(sh, RubyTestTemplate, step.outputPath.value, r.files)).value)
  {
  }

  /**
   * Declining to overwrite is not a failure here: the existing test is left
   * as it was and decides the run.
   */
  lemma WriteTestDeclined(s: Refactors.Setup, files: map<string, string>, inputContent: Option<string>,
                          env: Refactors.Env, sh: Shell)
    requires Refactors.ProcessSpec(s, files, inputContent, env, None, true).outcome == Success(Refactors.Declined)
    ensures var path := Refactors.DetermineOutputFilePath(s).value;
            var r := WriteTest(s, files, inputContent, env, sh);
            path.Some? && path.value in files && r.files == files
            && (r.result == Verdict(true) <==> !Failed(MinitestRun(sh, RubyTestTemplate, path.value, files)).value)
  {
  }

  // ---------------------------------------------------------------------
  // Ruby::WriteRbs

  /** `default_output_path`: the signature file under `sig/`, with ".rbs" for ".rb". */
  function SignaturePathFor(inputFile: string): string {
    RubyFile.Join("sig", WithExtension(inputFile, ".rbs"))
  }

  lemma SignaturePathOf(name: string)
    ensures SignaturePathFor(name + ".rb") == "sig/" + name + ".rbs"
  {
    WithExtensionOf(name, ".rbs");
  }

  /**
   * `WriteRbs#run`: declining to overwrite is false; with an output path
   * Steep runs on the input file with the configured Minitest command, and
   * a failure records why; without one the generated content is returned.
   */
  function WriteRbsRun(s: Refactors.Setup, files: map<string, string>, inputContent: Option<string>,
                       env: Refactors.Env, sh: Shell): (r: RunStep)
  {
    match Refactors.DetermineOutputFilePath(s)
    case Failure(e) => RunStep(Raised(e), None, files)
    case Success(path) =>
      var step := Refactors.ProcessSpec(s, files, inputContent, env, None, true);
      var after := AfterProcess(files, step);
      match step.outcome
      case Failure(_) => RunStep(Verdict(false), step.message, after)
      case Success(processed) =>
        match processed
        case Declined => RunStep(Verdict(false), step.message, after)
        case Output(content) =>
          if path.None? then RunStep(Content(content), step.message, after)
          else if Failed(SteepRun(sh, s.options.minitestRunCommand, s.inputFile, after)).value then
            RunStep(Verdict(false), Some(RbsFailed), after)
          else RunStep(Verdict(true), step.message, after)
  }

  method WriteRbs(r: Refactors.BaseRefactor, fs: FileSystem, env: Refactors.Env, sh: Shell)
    returns (result: RunResult)
    requires r.Valid()
    modifies r, fs
    ensures r.Valid()
    ensures var step := WriteRbsRun(r.setup, old(fs.files), old(r.inputContent), env, sh);
            result == step.result && fs.files == step.files
            && r.failedMessage == Recorded(old(r.failedMessage), step.message)
  {
    var path := r.OutputFilePath();
    if path.Failure? {
      return Raised(path.error);
    }
    var processed := r.Process(fs, env, None, true);
    if processed.Failure? || processed.value.Declined? {
      return Verdict(false);
    }
    if path.value.None? {
      return Content(processed.value.content);
    }
    var check := SteepRun(sh, r.setup.options.minitestRunCommand, r.setup.inputFile, fs.files);
    if Failed(check).value {
      r.failedMessage := Some(RbsFailed);
      return Verdict(false);
    }
    return Verdict(true);
  }

  /**
   * With an output path the run is true exactly when output was generated
   * (with no fence in it) and written there, and the Steep command, run on
   * the input file rather than the generated one, succeeds.
   */
  lemma WriteRbsTrueIff(s: Refactors.Setup, files: map<string, string>, inputContent: Option<string>,
                        env: Refactors.Env, sh: Shell)
    requires Refactors.DetermineOutputFilePath(s).Success? && Refactors.DetermineOutputFilePath(s).value.Some?
    ensures var r := WriteRbsRun(s, files, inputContent, env, sh);
            var step := Refactors.ProcessSpec(s, files, inputContent, env, None, true);
            var path := Refactors.DetermineOutputFilePath(s).value.value;
            !r.result.Content?
            && (r.result == Verdict(true) <==>
                  step.outcome.Success? && step.outcome.value.Output?
                  && sh(TestRunners.Command(s.options.minitestRunCommand, s.inputFile, None), r.files).status.success)
            && (r.result == Verdict(true) ==>
                  path in r.files && r.files[path] == step.outcome.value.content
                  && !Contains(r.files[path], Refactors.Fence))
  {
    var step := Refactors.ProcessSpec(s, files, inputContent, env, None, true);
    if step.outcome.Success? && step.outcome.value.Output? {
      Refactors.OutputHasNoFences(s, files, inputContent, env);
      WrittenOutput(s, files, inputContent, env, None, true);
    }
  }

  /** Output from `process!` is written to the output path when there is one. */
  lemma WrittenOutput(s: Refactors.Setup, files: map<string, string>, inputContent: Option<string>,
                      env: Refactors.Env, block: Option<string -> string>, stripTicks: bool)
    requires Refactors.ProcessSpec(s, files, inputContent, env, block, stripTicks).outcome.Success?
    requires Refactors.ProcessSpec(s, files, inputContent, env, block, stripTicks).outcome.value.Output?
    ensures var step := Refactors.ProcessSpec(s, files, inputContent, env, block, stripTicks);
            step.outputPath.Some? <==> step.written.Some?
    ensures var step := Refactors.ProcessSpec(s, files, inputContent, env, block, stripTicks);
            step.written.Some? ==> step.written.value == step.outcome.value.content
  {
    var path := Refactors.DetermineOutputFilePath(s).value;
    var text := Refactors.PromptInput(s, files).value;
    var p := Refactors.ProcessorFor(s, files, inputContent, env, path, text);
    var post := Refactors.PostBlock(block, stripTicks);
    if p.options.reviewPrompt {
      Refactors.ReviewRaises(p, env, post);
    } else {
      Refactors.GenerationOutcome(p, env, post);
    }
  }

  /** Without an output path the run returns the generated content and writes nothing. */
  lemma WriteRbsWithoutPath(s: Refactors.Setup, files: map<string, string>, inputContent: Option<string>,
                            env: Refactors.Env, sh: Shell)
    requires Refactors.DetermineOutputFilePath(s) == Success(None)
    ensures var r := WriteRbsRun(s, files, inputContent, env, sh);
            var step := Refactors.ProcessSpec(s, files, inputContent, env, None, true);
            r.files == files
            && (r.result.Content? <==> step.outcome.Success? && step.outcome.value.Output?)
            && (r.result.Content? ==> r.result.text == step.outcome.value.content && r.result.text != [])
  {
    var step := Refactors.ProcessSpec(s, files, inputContent, env, None, true);
    if step.outcome.Success? && step.outcome.value.Output? {
      WrittenOutput(s, files, inputContent, env, None, true);
      NonEmptyOutput(s, files, inputContent, env, None, true);
    }
  }

  /** What `process!` returns as output is never empty. */
  lemma NonEmptyOutput(s: Refactors.Setup, files: map<string, string>, inputContent: Option<string>,
                       env: Refactors.Env, block: Option<string -> string>, stripTicks: bool)
    requires Refactors.ProcessSpec(s, files, inputContent, env, block, stripTicks).outcome.Success?
    requires Refactors.ProcessSpec(s, files, inputContent, env, block, stripTicks).outcome.value.Output?
    ensures Refactors.ProcessSpec(s, files, inputContent, env, block, stripTicks).outcome.value.content != []
  {
  }

  // ---------------------------------------------------------------------
  // Project::WriteChangelogFromHistory

  const DefaultCommitCount := 3

  /** The git command listing the last `count` commits, one line each. */
  function GitLogCommand(count: int): string {
    "git log -" + IntToString(count) + " --pretty=format:\"%ci %d %s\""
  }

  /** Each line as a Markdown list item. */
  function Bulleted(lines: seq<string>): (r: seq<string>)
    ensures |r| == |lines|
    ensures forall k :: 0 <= k < |lines| ==> r[k] == "- " + lines[k]
  {
    if lines == [] then [] else ["- " + lines[0]] + Bulleted(lines[1..])
  }

  /** The input content: the log's lines, each made a list item, joined by newlines. */
  function ChangelogInput(log: string): string {
    Join(Bulleted(Split(log, "\n")), "\n")
  }

  /** Each commit line becomes exactly one list item, in order. */
  lemma ChangelogItems(lines: seq<string>)
    requires forall k :: 0 <= k < |lines| ==> '\n' !in lines[k]
    requires lines == [] || lines[|lines| - 1] != []
    ensures Split(ChangelogInput(Join(lines, "\n")), "\n") == Bulleted(lines)
  {
    SplitOfJoin(lines, "\n");
    var items := Bulleted(lines);
    forall k | 0 <= k < |items| ensures '\n' !in items[k] {
      ItemHasNoNewline(lines[k]);
    }
    assert items != [] ==> items[|items| - 1] != [] by {
      if items != [] {
        assert |items[|items| - 1]| >= 2;
      }
    }
    SplitOfJoin(items, "\n");
  }

  lemma ItemHasNoNewline(line: string)
    requires '\n' !in line
    ensures '\n' !in "- " + line
  {
    var item := "- " + line;
    forall j | 0 <= j < |item| ensures item[j] != '\n' {
      if j >= 2 {
        assert item[j] == line[j - 2];
      }
    }
  }

  /**
   * `WriteChangelogFromHistory#run`: the git log of the configured number
   * of commits (3 by default) becomes the input content; `process!` keeps
   * fences; declining to overwrite is false; without an output path the
   * content is returned.
   */
  function WriteChangelog(s: Refactors.Setup, files: map<string, string>, env: Refactors.Env, sh: Shell): (r: RunStep)
  {
    match Refactors.DetermineOutputFilePath(s)
    case Failure(e) => RunStep(Raised(e), None, files)
    case Success(path) =>
      var log := sh(GitLogCommand(s.options.gitCommitCount.GetOr(DefaultCommitCount)), files).stdout;
      var step := Refactors.ProcessSpec(s, files, Some(ChangelogInput(log)), env, None, false);
      var after := AfterProcess(files, step);
      match step.outcome
      case Failure(_) => RunStep(Verdict(false), step.message, after)
      case Success(processed) =>
        match processed
        case Declined => RunStep(Verdict(false), step.message, after)
        case Output(content) =>
          if path.None? then RunStep(Content(content), step.message, after)
          else RunStep(Verdict(true), step.message, after)
  }

  method WriteChangelogFromHistory(r: Refactors.BaseRefactor, fs: FileSystem, env: Refactors.Env, sh: Shell)
    returns (result: RunResult)
    requires r.Valid()
    modifies r, fs
    ensures r.Valid()
    ensures var step := WriteChangelog(r.setup, old(fs.files), env, sh);
            result == step.result && fs.files == step.files
            && r.failedMessage == Recorded(old(r.failedMessage), step.message)
    ensures r.setup.options.gitCommitCount.None? && Refactors.DetermineOutputFilePath(r.setup).Success? ==>
              r.inputContent == Some(ChangelogInput(sh(GitLogCommand(3), old(fs.files)).stdout))
  {
    var path := r.OutputFilePath();
    if path.Failure? {
      return Raised(path.error);
    }
    var count := r.setup.options.gitCommitCount.GetOr(DefaultCommitCount);
    var log := sh(GitLogCommand(count), fs.files).stdout;
    r.inputContent := Some(ChangelogInput(log));
    var processed := r.Process(fs, env, None, false);
    if processed.Failure? || processed.value.Declined? {
      return Verdict(false);
    }
    if path.value.None? {
      return Content(processed.value.content);
    }
    return Verdict(true);
  }

  /**
   * Fences are kept: with an output path the run is true exactly when
   * `process!` generated output, and that output, exactly as generated, is
   * what the output path holds.
   */
  lemma ChangelogTrueIff(s: Refactors.Setup, files: map<string, string>, env: Refactors.Env, sh: Shell)
    requires Refactors.DetermineOutputFilePath(s).Success? && Refactors.DetermineOutputFilePath(s).value.Some?
    ensures var r := WriteChangelog(s, files, env, sh);
            var log := sh(GitLogCommand(s.options.gitCommitCount.GetOr(DefaultCommitCount)), files).stdout;
            var step := Refactors.ProcessSpec(s, files, Some(ChangelogInput(log)), env, None, false);
            var path := Refactors.DetermineOutputFilePath(s).value.value;
            (r.result == Verdict(true) <==> step.outcome.Success? && step.outcome.value.Output?)
            && (r.result == Verdict(true) ==> path in r.files && r.files[path] == step.outcome.value.content)
            && !r.result.Content? && !r.result.Raised?
  {
    var log := sh(GitLogCommand(s.options.gitCommitCount.GetOr(DefaultCommitCount)), files).stdout;
    var step := Refactors.ProcessSpec(s, files, Some(ChangelogInput(log)), env, None, false);
    if step.outcome.Success? && step.outcome.value.Output? {
      WrittenOutput(s, files, Some(ChangelogInput(log)), env, None, false);
    }
  }
}
